=== FILE: README.md ===
# MioBot core logic in Dafny

MioBot is a Telegram group-chat bot. Around its network and LLM calls sit a
dozen small pieces of deterministic logic. This project models each of those
pieces as pure Dafny functions over immutable datatypes, and proves what each
piece promises.

- **Message store** (`message_rows.dfy`, `message_store.dfy`). The `messages`
  table is a sequence of rows with AUTOINCREMENT ids. `add_message` inserts a
  row and then keeps only the 50 newest rows of that chat. `get_messages`
  returns at most 50 rows of one chat in ascending time order, formatted as
  strings. Timestamps are naturals and may tie, since SQLite's
  `CURRENT_TIMESTAMP` has one-second resolution. The cull is stated as a
  relation (`IsRetentionCull`) that allows any tie order.
- **Hash-fallback embedding** (`hash_embed.dfy`, `utf8.dfy`). The text is
  stripped, lower-cased and UTF-8 encoded. Each byte 3-, 4- and 5-gram is
  counted into bucket `crc32(gram) mod dim`. The model also covers the
  float32 blob packing, with each float32 treated as a 32-bit word, and the
  backend choice.
- **LLM provider selection and request shaping** (`llm_config.dfy`,
  `llm_payload.dfy`). Covers provider coercion and the environment ladder,
  runtime overrides, `_clean_dict`, and the Ollama message filter, options,
  payload and URL. Also covers the Ark request: its key check, payload and
  header.
- **Prescription JSON** (`prescription.dfy`). Covers the validation and
  `setdefault` chain of `generate_med`, the TeX block list of
  `generate_medicine_tex`, and the argument guards of `generate_jpg`.
- **HTTP retry and price filter** (`crypto_prices.dfy`). `_aget` is modelled
  as a trace over an oracle of attempt outcomes. `get_Price` is a filter with
  early stop followed by a dict comprehension.
- **Tool-call loop** (`tool_loop.dfy`). `run_tool_loop` runs with the model
  as an oracle of replies. The module also covers `detect_language` and
  `get_weather`.
- **Small helpers**:
  - the reply decision and prompt pieces (`reply_decision.dfy`);
  - the minimal Azure chat client (`chat_client.dfy`);
  - the MIME guess and Responses-payload text extraction (`image_text.dfy`);
  - video-title sanitisation (`video_title.dfy`);
  - output path and encoder choice for markdown rendering
    (`render_options.dfy`).

Shared modules:

- `Wrappers` defines `Option` and `Result`.
- `Text` models Python's `strip`, `lower`, `endswith`, `join` and
  `rstrip(c)`, plus the character classes.
- `JsonValue` models JSON values, Python truthiness, `dict.get` and
  `setdefault`.

Things outside the program's control become parameters:

- environment variables are a `map<string, string>`;
- CRC-32 is an uninterpreted function `seq<byte> -> nat`;
- `json.loads` is an oracle `string -> Option<Json>`;
- the LLM replies, HTTP outcomes and file reads are oracles or booleans;
- `str()` of a non-string JSON value is a function parameter.

## Model

| member | source | states |
|---|---|---|
| MessageRows.Filter | app/database.py:40-41 | `WHERE chat_id = ?` keeps exactly the rows passing the test, never more rows than given, and keeps AUTOINCREMENT id order |
| MessageRows.FilterConcat | app/database.py:51-56 | filtering a table made of two parts filters each part in turn |
| MessageRows.IncreasingCard | app/database.py:13 | with strictly increasing AUTOINCREMENT ids no row occurs twice, so the table has as many distinct rows as entries |
| MessageRows.OldestExists | app/database.py:42 | a non-empty set of rows with distinct ids has a row that every other row is newer than under `ORDER BY timestamp DESC` with id tie-break |
| MessageRows.NewestExists | app/database.py:42 | a non-empty set of rows with distinct ids has a row newer than every other row |
| MessageRows.KeptCount | app/database.py:42-43 | `LIMIT -1 OFFSET 50` over the ranked rows keeps exactly min(size, 50) rows |
| MessageRows.KeptNewerThanDropped | app/database.py:42-43 | every row the cull keeps is newer than every row it deletes |
| MessageStore.Cull | app/database.py:37-45 | the DELETE keeps id order, and its result meets the retention relation: other chats untouched, at most `keep` rows of the chat, survivors unchanged and newest by timestamp |
| MessageStore.CullOthers | app/database.py:40-41 | the cull leaves every row of every other chat in place, in order |
| MessageStore.CullChatSet | app/database.py:39-44 | the surviving rows of the chat are exactly the `keep` newest rows of that chat |
| MessageStore.CullCount | app/database.py:42-43 | after the cull the chat holds exactly min(rows before, keep) rows |
| MessageStore.CullOrder | app/database.py:42 | no deleted row of the chat has a later timestamp than a surviving one |
| MessageStore.AddMessage | app/database.py:27-46 | the insert takes the next AUTOINCREMENT id, above every earlier id. Afterwards the chat holds at most 50 rows, other chats are unchanged, and the table is a retention cull of old rows plus the new row |
| MessageStore.NewestSurvives | app/database.py:31-45 | a row strictly newer than every other row of its chat survives any retention cull that keeps at least one row |
| MessageStore.AddKeepsNewMessage | app/database.py:31-45 | when timestamps strictly increase, the row just inserted is still in the table after the cull |
| MessageStore.InsertByTime | app/database.py:55 | inserting a row into a time-sorted list keeps it sorted and adds exactly that row, as a multiset |
| MessageStore.SortByTime | app/database.py:55 | `ORDER BY timestamp ASC` gives a time-sorted permutation of its input |
| MessageStore.SelectRows | app/database.py:51-59 | the query returns min(chat size, 50) rows, all of the requested chat, sorted ascending, a sub-multiset of the chat. No omitted row is older than a returned one |
| MessageStore.SortedPrefix | app/database.py:55-56 | `LIMIT` on a sorted list keeps a sorted prefix, and every dropped row is no older than any kept row |
| MessageStore.GetMessages | app/database.py:48-63 | at most 50 entries; one formatted `username: … content: … time: …` entry per selected row, in order; an empty chat gives the empty list |
| MessageStore.FormatRow | app/database.py:63 | an entry starts with "username: " and the user name, followed directly by the " \n content: " separator and the content, and ends with " \n time: " and the shown time. Its length is exactly the sum of those six pieces, so nothing else is in it |
| MessageStore.SelectsWholeSmallChat | app/database.py:51-59 | a chat with at most 50 rows is returned whole, as a multiset |
| MessageStore.NewestIsLast | app/database.py:55 | in a time-sorted list, a row strictly newer than all others comes last |
| MessageStore.LastEntryIsNewest | app/database.py:51-63 | in a chat of at most 50 rows, the entry for the strictly newest row is the last one returned |
| MessageStore.AddThenGetEndsWithNew | app/database.py:27-63 | when timestamps strictly increase, `get_messages` right after `add_message` ends with the entry for the new message |
| Utf8.EncodeChar | app/rag_embeddings.py:92 | a code point encodes to 1 to 4 bytes, and to exactly one byte iff it is ASCII |
| Utf8.Encode | app/rag_embeddings.py:92 | the encoding has between n and 4n bytes, and is empty iff the text is |
| Utf8.EncodeConcat | app/rag_embeddings.py:92 | UTF-8 encoding distributes over concatenation |
| Utf8.EncodeAscii | app/rag_embeddings.py:92 | ASCII text encodes to as many bytes as characters |
| HashEmbed.ChooseBackend | app/rag_embeddings.py:73-83 | fastembed is used iff the configured backend is "fastembed" and fastembed is available; otherwise the hash fallback is used |
| HashEmbed.BucketVector | app/rag_embeddings.py:91 | the count vector has exactly `dim` buckets |
| HashEmbed.CountsOf | app/rag_embeddings.py:86-101 | over the encoded bytes: a negative `dim` fails (numpy cannot build the zero vector); `dim` 0 fails iff there are at least 3 bytes to hash (`% 0`); otherwise the vector has exactly `dim` buckets |
| HashEmbed.HashCounts | app/rag_embeddings.py:86-101 | the same three cases stated for the text itself, after strip, lower and UTF-8 encoding: the vector has `dim` buckets exactly when the hash loop can run |
| HashEmbed.HitsIsWindowCount | app/rag_embeddings.py:98-101 | the hits of bucket k among the first m n-grams are exactly the number of window offsets below m whose n-gram has `crc32 % dim == k` |
| HashEmbed.SumIncrement | app/rag_embeddings.py:101 | `vec[idx] += 1` raises the total count by exactly one |
| HashEmbed.AddGrams | app/rag_embeddings.py:96-101 | one pass over n-grams adds, to each bucket, the number of windows hashing there, and adds max(0, len(b)-n+1) to the total |
| HashEmbed.HashEmbedCounts | app/rag_embeddings.py:86-101 | the loops over n = 3, 4, 5 compute the reference vector, or the error of a bad `dim`. A vector's total is the sum over n of max(0, len(b)-n+1) |
| HashEmbed.CountBytes | app/rag_embeddings.py:89-101 | the byte-level loop gives the reference result for every `dim`, negative and zero included, and a vector's total is the number of windows |
| HashEmbed.CountGrams | app/rag_embeddings.py:95-101 | for a positive `dim` the three n-gram passes build exactly the bucket vector, whose total is the number of 3-, 4- and 5-byte windows |
| HashEmbed.CountsAreBucketVector | app/rag_embeddings.py:98-101 | a vector whose every bucket holds its n-gram count is the bucket vector, so the counts depend on nothing but the bytes |
| HashEmbed.HitsOfShort | app/rag_embeddings.py:96-97 | when the text is shorter than n bytes, that n contributes nothing |
| HashEmbed.BucketVectorShort | app/rag_embeddings.py:96-97 | fewer than 3 bytes give the zero vector |
| HashEmbed.HashCountsShort | app/rag_embeddings.py:96-97 | text encoding to fewer than 3 bytes gives the zero vector of any `dim` ≥ 0, and the negative-dimension error otherwise |
| HashEmbed.HashCountsBlank | app/rag_embeddings.py:87-89 | None, empty or whitespace-only text gives the zero vector of any `dim` ≥ 0, and the negative-dimension error otherwise |
| HashEmbed.HashCountsIgnoresCase | app/rag_embeddings.py:87 | text and its lower-cased form give the same result, for every `dim` |
| HashEmbed.HashCountsIgnoresPadding | app/rag_embeddings.py:87 | surrounding whitespace does not change the result, for every `dim` |
| HashEmbed.WordBytes | app/rag_embeddings.py:111-112 | each float32 serialises to exactly four bytes |
| HashEmbed.WordRoundTrip | app/rag_embeddings.py:112-117 | reading back the four little-endian bytes of a word gives the word |
| HashEmbed.ToBytes | app/rag_embeddings.py:112 | `tobytes` yields 4 bytes per element |
| HashEmbed.FromBytes | app/rag_embeddings.py:117 | `frombuffer` on a multiple of 4 bytes yields len/4 elements |
| HashEmbed.Pack | app/rag_embeddings.py:109-112 | the returned dim equals the vector length, and the blob is 4·dim bytes |
| HashEmbed.Unpack | app/rag_embeddings.py:115-121 | unpacking succeeds iff the blob length is a multiple of 4, and it returns len/4 elements whatever `dim` says |
| HashEmbed.FromToBytes | app/rag_embeddings.py:112-117 | decoding the bytes of a vector returns the vector |
| HashEmbed.PackUnpack | app/rag_embeddings.py:109-121 | unpacking a packed vector returns it, for any stated dim |
| LlmConfig.CoerceProvider | app/ai_model.py:182-192 | an enum argument is returned unchanged. A string is trimmed and lower-cased; it maps to AZURE iff it is "azure" or one of the three aliases, to OLLAMA iff "ollama", and to ARK otherwise |
| LlmConfig.NormalizedValue | app/ai_model.py:185 | every provider's value string is already trimmed and lower-case |
| LlmConfig.CoerceProviderValue | app/ai_model.py:182-192 | coercing a provider's own value string gives back that provider |
| LlmConfig.CoerceProviderNormalizes | app/ai_model.py:185 | surrounding whitespace and letter case do not affect coercion |
| LlmConfig.ProviderFromEnv | app/ai_model.py:143-153 | a non-empty LLM_PROVIDER, failing that a non-empty AI_PROVIDER, decides the provider through coercion |
| LlmConfig.ProviderLadder | app/ai_model.py:146-153 | without an explicit provider: OLLAMA iff an Ollama variable is set; AZURE iff there is no Ollama variable or Ark key but both the Azure key and endpoint are set; ARK otherwise |
| LlmConfig.ExplicitProviderWins | app/ai_model.py:143-145 | with an explicit provider, setting any credential variable does not change the choice |
| LlmConfig.LoadSettings | app/ai_model.py:142-179 | the provider follows the ladder. Each field is its variable when set; otherwise the API version, Ark endpoint, Ollama endpoint and Ollama model take their defaults, the deployment falls back to AZURE_OPENAI_DEPLOYMENT_NAME, and the Azure fields, Ark key and Ark model are absent |
| LlmConfig.OverrideOpt | app/ai_model.py:109-128 | a non-None argument replaces the field; None keeps it |
| LlmConfig.ConfigureLlm | app/ai_model.py:84-130 | each field is the argument when one is given and the env-loaded value otherwise |
| LlmConfig.ConfigureWithoutOverrides | app/ai_model.py:102-130 | with no arguments the configured settings equal the env-loaded ones |
| LlmConfig.ConfigureKeepsEnvProvider | app/ai_model.py:104-107 | an omitted provider keeps the env-selected provider, whatever credentials are overridden |
| LlmConfig.ActiveProvider | app/ai_model.py:235 | a missing or empty provider argument falls back to the settings' provider; otherwise the argument is coerced |
| LlmPayload.CleanDict | app/ai_model.py:215-216 | exactly the keys with value None are removed; every other key keeps its value |
| LlmPayload.CleanDictIdempotent | app/ai_model.py:215-216 | cleaning twice is cleaning once |
| LlmPayload.Update | app/ai_model.py:323-324 | `dict.update`: the keys of both, values from `extra_body` winning |
| LlmPayload.OllamaMessage | app/ai_model.py:306 | a forwarded message has exactly role and content, with the role kept and the content a string |
| LlmPayload.OllamaMessages | app/ai_model.py:300-306 | the list is never longer than the input, and each entry comes from a message with a truthy role and non-None content |
| LlmPayload.OllamaMessagesConcat | app/ai_model.py:300-306 | the filter works message by message, in order |
| LlmPayload.OllamaMessagesSingle | app/ai_model.py:304-306 | one message is forwarded iff its role is truthy and its content is not None |
| LlmPayload.OllamaOptions | app/ai_model.py:308-314 | options hold exactly the non-None parameters, with max_tokens renamed to `num_predict` |
| LlmPayload.ArrayOf | app/ai_model.py:318 | the message list becomes a JSON array of the same objects, in order |
| LlmPayload.Finish | app/ai_model.py:323-326 | after update and clean, no value is None. Non-None `extra_body` values win, and other keys keep their non-None payload values |
| LlmPayload.OllamaBase | app/ai_model.py:316-321 | the four payload fields. The model falls back to the settings' model when absent or empty, `stream` is false, and options are None iff no option was given |
| LlmPayload.OllamaPayload | app/ai_model.py:316-326 | the sent payload has no None value and only the four fields or `extra_body` keys. Keys not overridden carry the filtered messages, `stream` false and any non-empty options |
| LlmPayload.OllamaUrl | app/ai_model.py:328-329 | the URL ends in "/api/chat". What precedes it is a prefix of the endpoint not ending in "/", and every endpoint character after that prefix is "/": exactly the trailing run of "/" is removed |
| LlmPayload.OllamaUrlTrailingSlash | app/ai_model.py:328 | a trailing "/" on the endpoint does not change the URL |
| LlmPayload.ArkRequestFor | app/ai_model.py:359-388 | the call fails iff no Ark key is set. Otherwise the request goes to the Ark endpoint with "Bearer " + key, and the payload has no None value and only Ark or `extra_body` keys. A key not in `extra_body` is present iff its argument is not None, with that value; the model falls back to the settings' Ark model |
| LlmPayload.ArkBase | app/ai_model.py:362-378 | the payload has the eight Ark keys. `response_format` is None before cleaning, temperature, messages, max_tokens, top_p, tools and tool_choice carry their arguments, and the model is the non-empty argument, else the settings' Ark model, else None |
| LlmPayload.ArkDropsResponseFormat | app/ai_model.py:362-383 | without `extra_body`, the cleaned Ark payload never contains `response_format`, whatever was requested |
| JsonValue.SetDefault | app/med.py:472 | `setdefault` adds the key only when absent and never changes an existing value, even a falsy one |
| Prescription.RequiredFieldsSorted | app/med.py:452 | the required field names are listed in sorted order |
| Prescription.MissingFrom | app/med.py:453-455 | exactly the required names absent from the payload, sorted |
| Prescription.MissingIffAbsent | app/med.py:452-455 | no required name is reported missing iff the payload has all five required fields |
| Prescription.ShapeError | app/med.py:457-470 | for a payload with every required field: a non-object patient is reported, then a non-object doctor, then a missing or non-list medicine list, then a non-object medicine, each iff it is the first failing test; nothing is reported iff the payload is well shaped |
| Prescription.Check | app/med.py:452-470 | the payload passes iff it is well shaped. The missing-fields error occurs iff a required field is absent, and lists exactly the absent names, sorted. Each later error (patient, doctor, medicine list, medicine element) is reported iff every earlier test passed and its own fails |
| Prescription.FillFalsy | app/med.py:474-476 | the id is replaced iff the current value is missing or falsy, and nothing else changes |
| Prescription.FillDate | app/med.py:480-487 | a non-object date becomes {2025, 10, 11}. An object date keeps every truthy entry and every entry other than year, month and day, even a falsy one. A missing or falsy year becomes "2025", month "10" and day "11". No other key is added, and all three end truthy |
| Prescription.FillPatientFields | app/med.py:472-478 | department and fee_type are kept when present and defaulted otherwise. The id is replaced by the fresh id iff falsy, and other keys are unchanged |
| Prescription.NormalizePatient | app/med.py:472-487 | the patient gains exactly the four keys; its date is the filled date; every other key is unchanged |
| Prescription.PatientDefaults | app/med.py:472-478 | after normalisation, department and fee_type are kept or defaulted, and the id is kept iff truthy |
| Prescription.NormalizeDoctor | app/med.py:489-490 | existing doctor keys are kept; a missing name or fee is defaulted |
| Prescription.NormalizeMedicine | app/med.py:495-497 | existing medicine keys are kept; a missing name, quantity or usage becomes "" |
| Prescription.NormalizeMedicines | app/med.py:494-497 | the number of medicines is unchanged, and each is defaulted in place |
| Prescription.Replace | app/med.py:472-497 | in-place mutation of the three objects: only patient, doctor and medicines change |
| Prescription.Normalize | app/med.py:472-499 | the returned payload keeps its keys and other values; patient, doctor and medicines are their normalised forms |
| Prescription.GenerateMed | app/med.py:447-499 | unparsable text gives InvalidJson and a non-object gives NotAnObject. An object is rejected with exactly the error its validation reports; otherwise the result is its normalised form, which keeps the keys, stays well shaped and keeps the medicine count |
| Prescription.CheckAndNormalize | app/med.py:452-499 | validation then defaulting of a parsed object: Ok iff well shaped, an error is the one validation reports, and success returns the normalised payload |
| Prescription.MedicinesHaveFields | app/med.py:494-497 | every returned medicine has name, quantity and usage |
| Prescription.FillDateIdempotent | app/med.py:480-487 | filling a filled date changes nothing |
| Prescription.NormalizedPatientFixed | app/med.py:472-487 | a patient that already has department, fee_type, a truthy id and a filled date is left unchanged by normalisation |
| Prescription.PatientIdempotent | app/med.py:472-487 | normalising a normalised patient changes nothing, whatever fresh id is offered |
| Prescription.DoctorIdempotent | app/med.py:489-490 | defaulting the doctor twice is defaulting once |
| Prescription.MedicinesIdempotent | app/med.py:494-497 | defaulting the medicines twice is defaulting once |
| Prescription.NormalizeWellShaped | app/med.py:457-499 | normalisation keeps a payload well shaped |
| Prescription.NormalizeIdempotent | app/med.py:472-499 | running the defaulting on its own output changes nothing |
| Prescription.Blocks | app/med.py:81-96 | one `\blockMedicine` block per medicine, in order |
| Prescription.Objects | app/med.py:82-85 | the medicine list can be read iff every element is an object; the result keeps count and order |
| Prescription.MedicineBlock | app/med.py:87-95 | the block is the `\blockMedicine` head, the name, its tail, the quantity, its tail, the usage and the closing tail, each at its position and nothing else |
| Prescription.MedicineTex | app/med.py:77-98 | no `medicines` key gives "". A list of objects gives its blocks joined by "\n\n", and a non-object element is an error |
| Prescription.MedicineTexConcat | app/med.py:98 | the TeX for two lists is the two texts joined by "\n\n" |
| Prescription.MedicineTexSmall | app/med.py:98 | an empty list gives "" and a single medicine gives its block alone |
| Prescription.JpgGuardFor | app/med.py:506-520 | conversion proceeds iff the source exists, quality is in 1..100 and ppi > 0. A missing source, a quality outside 1..100 and a ppi ≤ 0 are reported in that order |
| CryptoPrices.RetryFrom | app/cryto.py:42-61 | at most `retries` requests and one wait between consecutive requests. A return is a 2xx response; a raised status is either outside the force list or on the last attempt; a transport error is raised only on the last attempt; any other exception is raised iff it is the last outcome, at once |
| CryptoPrices.RetryFromShape | app/cryto.py:52-59 | the wait before attempt k+1 is `backoff·2^k` (in backoff units), and every attempt before the last was retryable |
| CryptoPrices.Aget | app/cryto.py:39-61 | `retries` ≤ 0 makes no request and raises the RuntimeError. Otherwise between 1 and `retries` requests are made, with one wait fewer than requests |
| CryptoPrices.RetryStep | app/cryto.py:52-59 | a retryable failure before the last attempt waits and continues with the next attempt |
| CryptoPrices.RetryStops | app/cryto.py:44-57 | success returns at once. A non-retryable status, or any status on the last attempt, is raised at once, and so is a transport error on the last attempt and any other exception on any attempt |
| CryptoPrices.TryOnce | app/cryto.py:43-57 | one loop pass stops exactly where the retry policy stops, with the same outcome; when it goes on, the failure was retryable and another attempt remains |
| CryptoPrices.AgetLoop | app/cryto.py:39-61 | the `for attempt in range(retries)` loop, with its two except clauses and uncaught exceptions, computes exactly the trace of the recursive retry policy |
| CryptoPrices.SuccessReturnsImmediately | app/cryto.py:44-48 | the first successful response after retryable failures is returned, after exactly that many requests |
| CryptoPrices.NonRetryableRaisedAtOnce | app/cryto.py:49-53 | a status outside the force list {429, 500, 502, 503, 504} of line 20 is raised on first occurrence, without retry |
| CryptoPrices.ExhaustedRaisesLast | app/cryto.py:52-57 | when every attempt fails retryably, all `retries` requests are made and the last failure is raised |
| CryptoPrices.OtherErrorRaisedAtOnce | app/cryto.py:43-57 | an exception that is neither an HTTP status error nor a transport error propagates on its first occurrence, after exactly that many requests |
| CryptoPrices.Scan | app/cryto.py:68-74 | the scan keeps what it had and collects only dict items from the feed whose token is wanted, never more than `len(list_tokens)` |
| CryptoPrices.Select | app/cryto.py:67-74 | at most `len(list_tokens)` items, each a dict of the feed whose token is in the list |
| CryptoPrices.ScanStops | app/cryto.py:73-74 | once `len(list_tokens)` items are collected, the rest of the feed is never looked at |
| CryptoPrices.ItemError | app/cryto.py:76 | a collected item fails the comprehension iff it lacks `token` (KeyError), else lacks `usdPrice` (KeyError), else has a null, list or dict price that `float()` rejects (TypeError), else has an unhashable token (TypeError), in that order |
| CryptoPrices.FirstError | app/cryto.py:76 | the comprehension raises iff some item fails, and the error raised is the first failing item's, all earlier items passing |
| CryptoPrices.Collect | app/cryto.py:76 | for items that all pass: every key is the token of some collected item, mapped to that item's price, and every collected token is a key |
| CryptoPrices.CollectLastWins | app/cryto.py:76 | for a repeated token the last collected item's price wins |
| CryptoPrices.PriceMap | app/cryto.py:76 | the comprehension succeeds iff every collected item passes, giving the collected map; otherwise it raises the first failing item's error |
| CryptoPrices.ScanTakesWanted | app/cryto.py:67-74 | from a partial collection, the scan yields exactly the collection followed by the wanted dict items of the rest of the feed, in feed order, cut at `len(list_tokens)` |
| CryptoPrices.SelectTakesWanted | app/cryto.py:67-74 | the collected items are exactly the first `len(list_tokens)` of the feed's dict items whose token is in the list, in feed order, or all of them if there are fewer |
| CryptoPrices.GetPriceFindsWanted | app/cryto.py:67-76 | when the prices are returned, the token of each of the first `len(list_tokens)` wanted feed items is a key of the result |
| CryptoPrices.FoundPriceExample | app/cryto.py:64-76 | the feed `[{"token": "BTC", "usdPrice": 1}]` with tokens `["BTC"]` gives `{"BTC": 1}` |
| CryptoPrices.NullPriceExample | app/cryto.py:76 | the same feed with a null `usdPrice` raises the TypeError of `float(None)` |
| CryptoPrices.MissingTokenExample | app/cryto.py:69-76 | with `None` among the wanted tokens, a dict without "token" is collected through `item.get` and then raises KeyError in the comprehension |
| CryptoPrices.GetPrice | app/cryto.py:64-76 | a non-iterable feed raises, and an object or string feed yields {}. For a list it succeeds iff every selected item passes the comprehension; all keys are tokens from `list_tokens`, and every selected token is a key |
| ToolLoop.DetectLanguage | app/testswarm.py:66-74 | "chinese" iff some character lies in U+4E00..U+9FFF, and "english" iff none does (including "") |
| ToolLoop.InCjkRangeChar | app/testswarm.py:72 | the chained string comparison `"\u4e00" <= ch <= "\u9fff"` on a one-character string holds iff the code point lies in U+4E00..U+9FFF |
| ToolLoop.DetectInItems | app/testswarm.py:71-74 | iterating a list: "chinese" iff some element before the first non-string is a string in the CJK range, "english" iff every element is a string outside it; a non-string reached first raises |
| ToolLoop.CallTool | app/testswarm.py:53-74 | `impl(**args)` succeeds only for an object whose sole key is the parameter name. get_weather succeeds iff that value is a string, giving its weather. detect_language answers for a string, a dict (its keys) and a list, and raises for other values. A failure carries the arguments |
| ToolLoop.DetectListExample | app/testswarm.py:66-74 | detect_language on ["hello", "世界"] gives "chinese", while a list starting with a number raises |
| ToolLoop.GetWeather | app/testswarm.py:53-63 | a case-insensitive lookup over the three cities, otherwise the "unavailable" message containing the original location |
| ToolLoop.GetWeatherIgnoresCase | app/testswarm.py:63 | a known city's weather does not depend on letter case |
| ToolLoop.ToolOutput | app/testswarm.py:158-171 | unparsable arguments, an unknown tool name and a raising tool each give their "Error: …" text, and empty arguments parse as {}. Otherwise the output is the tool's result: GetWeather(l) for {"location": l}, the detected language for {"text": t} |
| ToolLoop.ToolMessage | app/testswarm.py:173-180 | a tool message has exactly role "tool", the call's id, its name and the output as content |
| ToolLoop.ToolMessages | app/testswarm.py:156-180 | one tool message per tool call, in call order |
| ToolLoop.Initial | app/testswarm.py:130-136 | non-empty existing messages are used as they are; otherwise the list is the system then the user message |
| ToolLoop.Loop | app/testswarm.py:138-182 | the loop only appends to the messages. The number of completion calls stays within `max_turns`, and with no turn left nothing changes |
| ToolLoop.LoopStopsWithoutToolCalls | app/testswarm.py:148-153 | a reply without tool calls is appended and the loop ends |
| ToolLoop.LoopTurnWithToolCalls | app/testswarm.py:146-180 | a reply with tool calls appends the assistant message, then one tool message per call, and moves to the next turn |
| ToolLoop.ExecuteToolCalls | app/testswarm.py:156-180 | the inner loop builds exactly the tool messages of the calls, in order |
| ToolLoop.RunToolLoop | app/testswarm.py:118-182 | the imperative loop equals the turn recursion, makes at most `max_turns` calls, and extends a non-empty existing list in place |
| ReplyDecision.UserLines | app/reply2message.py:34 | each history entry becomes "User: " + message, in order |
| ReplyDecision.FormatHistory | app/reply2message.py:34 | an empty history gives ""; otherwise the text starts with the first message's "User: " line and ends with the last one's |
| ReplyDecision.FormatHistoryAppend | app/reply2message.py:34 | an empty history gives "". One message gives its line, and appending a message appends ",\n" and its line |
| ReplyDecision.UserPrompt | app/reply2message.py:177 | the user prompt is the fixed heading followed by the formatted history: the heading alone for no history, and ending with the last message's "User: " line otherwise |
| ReplyDecision.InfoLines | app/reply2message.py:44-52 | a missing or unreadable file gives no lines. Every line kept is stripped and non-blank, and no more lines are kept than read |
| ReplyDecision.StrippedNonBlank | app/reply2message.py:46 | only stripped, non-blank lines are kept |
| ReplyDecision.StrippedNonBlankConcat | app/reply2message.py:46 | the line filter works line by line, in order |
| ReplyDecision.StrippedNonBlankSingle | app/reply2message.py:46 | a non-blank line is kept stripped and a blank line is dropped |
| ReplyDecision.InformationOfMissingFile | app/reply2message.py:47-54 | a missing info file gives empty information, not an error |
| ReplyDecision.Information | app/reply2message.py:43-54 | the information is "" iff no line is kept; otherwise it starts with "- " and the first kept line and ends with "- " and the last |
| ReplyDecision.InformationAppend | app/reply2message.py:46-54 | the block is built line by line in file order: an empty file gives "", a blank line adds nothing, the first kept line gives "- " and its stripped text, and each later kept line adds "\n- " and its stripped text. So every kept line appears, in order, joined by "\n" |
| ReplyDecision.AttributesLine | app/reply2message.py:38-41 | the attributes line is "must_reply = True" iff the message replies to the bot, and "None" otherwise, as interpolated at line 167 |
| ReplyDecision.Decide | app/reply2message.py:182-196 | an exception, empty content or unparsable JSON gives None. The result is the non-None `reply_content` exactly when the parsed object's `should_reply` is truthy |
| ChatClient.NewClientAsWritten | app/chat.py:8-18 | the key check fails iff neither the argument nor AZURE_API_KEY is truthy. The URL check tests the `url` argument only. The header is "Bearer " + key |
| ChatClient.EnvUrlIgnoredAsWritten | app/chat.py:10-14 | with no URL argument the constructor fails even when AZURE_API_URL is set |
| ChatClient.EnvOnlyClientRejectedAsWritten | app/chat.py:10-14 | a concrete environment with both variables set is still rejected |
| ChatClient.NewClientIntended | app/chat.py:8-18 | the corrected constructor succeeds iff the resolved key and the resolved URL are both truthy, and uses them |
| ChatClient.IntendedExtendsAsWritten | app/chat.py:8-18 | whenever the written constructor succeeds, the corrected one builds the same client |
| ChatClient.BuildPayload | app/chat.py:31-40 | the payload carries the six fields with their argument values (the model as a string), plus `top_p` exactly when it is not None, with its value |
| ChatClient.ContentOf | app/chat.py:52-53 | a falsy choice gives no content; `message.content` is taken when it is truthy, and the choice's own `content` when the message is falsy; a truthy non-object choice is an error |
| ChatClient.ExtractResponse | app/chat.py:45-56 | a non-JSON body gives the raw text. A falsy body or falsy `choices` gives the JSON dump of the body. A truthy body that is not an object, and truthy `choices` that are not a list, raise. For a non-empty list: a failing lookup in the first choice raises; a non-empty string content is returned stripped; a falsy content gives the dump; and a truthy content that is not a string raises on `.strip()` |
| ChatClient.ExtractMessageContent | app/chat.py:50-55 | `choices[0].message.content` is returned stripped |
| ChatClient.ExtractChoiceContent | app/chat.py:53-55 | without a message, `choices[0].content` is returned stripped |
| ChatClient.ExtractedTextStripped | app/chat.py:50-56 | for a JSON body the result is either a stripped content or the dump of the body |
| ImageText.GuessMime | app/image2text.py:16-24 | .png, .webp and .gif (case-insensitive, in that order) map to their types, and image/jpeg iff none matches |
| ImageText.GuessMimeIgnoresCase | app/image2text.py:17 | paths equal up to letter case get the same type |
| ImageText.GuessMimeUpperCase | app/image2text.py:17-19 | "….PNG" is image/png |
| ImageText.BlockTexts | app/image2text.py:41-47 | the collected texts are stripped, non-blank, and no more than the blocks |
| ImageText.BlockTextsComplete | app/image2text.py:41-47 | the stripped text of every dict block typed "output_text" or "text" with a non-blank string text is collected |
| ImageText.BlockTextsSound | app/image2text.py:41-47 | every collected text is the stripped text of such a block |
| ImageText.ItemTexts | app/image2text.py:35-47 | every collected text is stripped and non-blank |
| ImageText.ItemTextsConcat | app/image2text.py:35-47 | items are processed one by one, in document order |
| ImageText.MalformedItemSkipped | app/image2text.py:36-40 | a non-dict item or one whose content is not a list contributes nothing and cannot raise |
| ImageText.JoinStripped | app/image2text.py:48-49 | joining stripped non-empty texts gives a stripped result |
| ImageText.ExtractText | app/image2text.py:27-51 | the result is stripped. A non-blank string `output_text` wins, stripped. Otherwise the function raises (None) iff `output` is a list holding a block whose unhashable `type` makes the set test fail; else the collected texts are joined by "\n", or "" if there are none |
| ImageText.UnhashableTypeExample | app/image2text.py:44 | a block whose "type" is a dict makes the whole extraction raise, even after a good block |
| ImageText.VisionModel | app/image2text.py:71 | the non-empty model argument, else a non-empty ARK_VISION_MODEL, else a non-empty ARK_MODEL, else "doubao-seed-1-6-251015"; never empty |
| ImageText.RequestFor | app/image2text.py:70-98 | the endpoint defaults to the Ark Responses URL. The header is "Bearer " + key, and the model and MIME type follow their rules |
| ImageText.ImageToText | app/image2text.py:65-109 | no key gives None before the file is read, and an unreadable image raises. A post failure or non-object body gives None. Otherwise the result is the extracted text, with "" or a raised extraction giving None |
| VideoTitle.Keep | app/youtube_dl.py:69 | only alphanumeric and whitespace characters of the title are kept |
| VideoTitle.Underscore | app/youtube_dl.py:70 | every U+0020 space becomes "_" and nothing else changes |
| VideoTitle.Sanitize | app/youtube_dl.py:69-71 | no longer than the title and no U+0020 space. No leading or trailing whitespace. Each character is "_" (present only if the title had a space) or an alphanumeric or whitespace character of the title |
| VideoTitle.VideoTitleOf | app/youtube_dl.py:68-75 | a failed extraction or a None title gives None; otherwise the sanitised title |
| VideoTitle.KeepSubseq | app/youtube_dl.py:69 | the filter keeps characters in their original order |
| VideoTitle.StripSubseq | app/youtube_dl.py:71 | `strip` keeps a contiguous, in-order piece |
| VideoTitle.KeepConcat | app/youtube_dl.py:69 | the filter works character by character: filtering a concatenation concatenates the filtered parts |
| VideoTitle.KeepChar | app/youtube_dl.py:69 | a single character is kept iff it is alphanumeric or whitespace |
| VideoTitle.KeepComplete | app/youtube_dl.py:69 | every alphanumeric or whitespace character of the title survives the filter |
| VideoTitle.SanitizeKeepsAlnum | app/youtube_dl.py:69-71 | every alphanumeric character of the title appears in the sanitised title |
| VideoTitle.SanitizeKeepsOrder | app/youtube_dl.py:69-71 | the sanitised title is a subsequence of the title with spaces replaced |
| VideoTitle.SanitizeSpacedExample | app/youtube_dl.py:69-71 | "a b" becomes "a_b" |
| VideoTitle.SanitizeUnderscoreExample | app/youtube_dl.py:69 | an underscore already in the title is dropped: "a_b" becomes "ab" |
| VideoTitle.SanitizeNotIdempotent | app/youtube_dl.py:69-70 | sanitising "a b" twice gives "ab", not "a_b", so sanitisation is not idempotent |
| RenderOptions.ThemeFor | app/md2jpg.py:59 | the cute-anime theme iff the argument is exactly "cute_anime" |
| RenderOptions.TempPath | app/md2jpg.py:94 | the temp screenshot path is the output path followed by ".png" |
| RenderOptions.FinalPath | app/md2jpg.py:105-107 | a path with a known image extension (case-insensitive) is kept; otherwise ".jpg" is appended. The result always has a known extension |
| RenderOptions.FinalPathIdempotent | app/md2jpg.py:105-107 | choosing the final path of a final path changes nothing |
| RenderOptions.TempNeverFinal | app/md2jpg.py:94-107 | the temp path never equals the final path |
| RenderOptions.EncoderFor | app/md2jpg.py:109-121 | jpg/jpeg gives JPEG, then webp, then avif, and anything else renames the temp PNG; each iff its suffix test is the first to match |
| RenderOptions.PngExcludesOthers | app/md2jpg.py:106-118 | a ".png" path ends in no other known extension |
| RenderOptions.RenameOnlyForPng | app/md2jpg.py:105-121 | the temp file is renamed iff the output path ends, case-insensitively, in ".png" |
| RenderOptions.NoExtensionMeansJpeg | app/md2jpg.py:105-110 | a path without a known extension is saved as JPEG |
| RenderOptions.PlanFor | app/md2jpg.py:8-125 | the viewport is `width` + 80. The temp and final paths differ, the final path has a known extension, and the rename is chosen iff the output is ".png" |
| RenderOptions.Effects | app/md2jpg.py:110-125 | after saving and cleanup the temp file is gone and the final image exists; nothing else on disk changes |
| RenderOptions.OnlyFinalImageRemains | app/md2jpg.py:94-125 | a render leaves the final image and no temp file, whatever the path and theme |
| Text.TrimStart | app/ai_model.py:185 | `lstrip` removes exactly a leading run of whitespace |
| Text.TrimEnd | app/ai_model.py:185 | `rstrip` removes exactly a trailing run of whitespace |
| Text.Strip | app/ai_model.py:185 | `strip` gives a stripped string, empty iff the input is blank |
| Text.StripKeepsNonSpace | app/youtube_dl.py:71 | every non-whitespace character of the input lies inside the stripped slice, at its own position shifted by the leading whitespace removed |
| Text.StripIsSlice | app/youtube_dl.py:71 | `strip` returns a contiguous slice of its input |
| Text.StripIdempotent | app/rag_embeddings.py:87 | stripping twice is stripping once |
| Text.StripPadding | app/rag_embeddings.py:87 | surrounding whitespace does not change the stripped text |
| Text.Lower | app/rag_embeddings.py:87 | `lower` maps each character by the case mapping and keeps the length |
| Text.LowerIdempotent | app/ai_model.py:185 | lower-casing twice is lower-casing once |
| Text.LowerConcat | app/image2text.py:17 | lower-casing distributes over concatenation |
| Text.StripLowerCommute | app/rag_embeddings.py:87 | stripping and lower-casing commute |
| Text.RStripChar | app/ai_model.py:328 | `rstrip("/")` removes exactly the trailing run of that character |
| Text.JoinConcat | app/med.py:98 | joining two non-empty lists is joining each and putting the separator between |
| Text.JoinEnds | app/image2text.py:49 | a join starts with its first part and ends with its last part |

## Left out

- Floating point throughout:
  - the L2 normalisation in `_hash_embed` (app/rag_embeddings.py:103-105);
  - `round(float(...), 3)` in `get_Price`;
  - random jitter and `asyncio.sleep` in `_aget`, where waits are in units of `backoff`;
  - the parsing of LLM_REQUEST_TIMEOUT and the request timeout field;
  - temperature and other numeric request parameters, which stay opaque JSON values.
- HashEmbed.WordBytes: a float32 is an opaque 32-bit word. Its IEEE 754 meaning and the numpy dtype conversion are not modelled.
- HashEmbed.HashCounts: states the count vector before normalisation, not the returned float vector.
- Network, LLM and subprocess calls are oracles or parameters. This covers AsyncAzureOpenAI, httpx, `requests`, xelatex, ImageMagick, Playwright, PIL and yt_dlp.
- The lazily created singletons and locks (`_get_azure_client`, `get_embedder`, `_get_client`) are not modelled. `get_settings` caching is left out for the same reason.
- Response parsing after the Ollama, Ark and Azure completion calls is not modelled.
- `stream_chat_completion`, the streaming example in app/testswarm.py and the fastembed backend itself are left out.
- The random patient id (app/med.py:476) is the parameter `freshId`, required to be ten digits.
- The random `random_ID` and its substitution in `generate_main_tex` (app/med.py:101, 218) are left out, as is the LaTeX template.
- The `with_suffix` default output of `generate_jpg` is left out; only its guards are modelled.
- `generate_macro_tex` and `generate_pdf` are file generation and are not modelled.
- Python `lower` and `isalnum` are approximated. Case mapping is ASCII, and `isalnum` is ASCII letters and digits plus U+4E00..U+9FFF. `isspace`, and so `strip`, follows Python's full whitespace set: the ASCII whitespace, U+001C..U+001F, U+0085, U+00A0, U+1680, U+2000..U+200A, U+2028, U+2029, U+202F, U+205F and U+3000.
- Python `str()` of non-string JSON values, `json.dumps` and `model_dump` are function parameters.
- JSON objects are maps, so key order, which Python preserves, is not modelled.
- JSON numbers are integers only.
- The text of the exception a local tool raises (`str(e)`) is a parameter; only which calls raise is modelled.
- Python merges dict keys that compare equal across types (`True` and `1`); JSON objects and the price map keep such keys apart.
- The base64 encoding of the image and all prompt text are left out. The data URL and prompt are not part of `VisionRequest`.
- The download function of app/youtube_dl.py is left out; only the title sanitisation is modelled.
- main.py (Telegram wiring, regexes, the random reply gate) and app/text2md.py (one completion call) are not part of this model.
- Logging and `print` side effects are left out.
- CryptoPrices.GetPrice: the ValueError of `float()` on a string price that is not a number is not modelled, and neither is the rounding. Prices are returned as the JSON values found.
- CryptoPrices.ItemError: a string `usdPrice` counts as accepted by `float()`. The ValueError for a non-numeric string is not modelled, so a "no error" answer is weaker than the source's for string prices.
- CryptoPrices.FirstError: inherits the string-price gap of `ItemError`; a non-numeric string price is not reported as an error.
- CryptoPrices.PriceMap: inherits the string-price gap of `ItemError`; its "succeeds iff every item passes" holds only for feeds without non-numeric string prices.
- CryptoPrices.Select: `item.get("token") in list_tokens` uses Python `==`, so `True`, `1` and `1.0` match each other. The model compares JSON values structurally, so a boolean token never matches an integer in the list.
- SQLite behaviour is replaced by a sequence of rows. The index, `aiosqlite` and transactions are not modelled.

## Findings

| source | as written | input that shows it | evidently intended | confidence | as-written member | corrected member |
|---|---|---|---|---|---|---|
| app/chat.py:13 | the constructor checks the `url` argument, not the resolved `self.url`, so AZURE_API_URL can never supply the URL | `ChatClient()` with AZURE_API_KEY="k" and AZURE_API_URL set | the resolved URL (argument or AZURE_API_URL) must be present | not executed | ChatClient.EnvOnlyClientRejectedAsWritten | ChatClient.NewClientIntended |

=== FILE: chat_client.dfy ===
/** The minimal Azure chat client: constructor checks, request payload and answer extraction. */
module ChatClient {
  import opened Wrappers
  import opened Text
  import opened JsonValue

  type Dict = map<string, Json>
  type Env = map<string, string>

  /** `x or os.getenv(k)`: a truthy argument wins, otherwise the variable (if set). */
  function OrEnv(arg: Option<string>, env: Env, k: string): Option<string>
  {
    if arg.Some? && arg.value != "" then arg else if k in env then Some(env[k]) else None
  }

  predicate TruthyText(s: Option<string>) { s.Some? && s.value != "" }

  /** A constructed client: its key, its URL and the Authorization header. */
  datatype Client = Client(apiKey: string, url: Option<string>, authorization: string)

  datatype ClientError = MissingApiKey | MissingUrl

  /**
   * `ChatClient.__init__` as written: the key may come from `AZURE_API_KEY`,
   * but the URL check tests the `url` argument, not the resolved URL.
   */
  function NewClientAsWritten(apiKey: Option<string>, url: Option<string>, env: Env): (r: Result<Client, ClientError>)
    ensures r == Err(MissingApiKey) <==> !TruthyText(OrEnv(apiKey, env, "AZURE_API_KEY"))
    ensures r == Err(MissingUrl) <==> TruthyText(OrEnv(apiKey, env, "AZURE_API_KEY")) && !TruthyText(url)
    ensures r.Ok? ==> r.value.url == url && r.value.authorization == "Bearer " + r.value.apiKey
  {
    var key := OrEnv(apiKey, env, "AZURE_API_KEY");
    var resolvedUrl := OrEnv(url, env, "AZURE_API_URL");
    if !TruthyText(key) then Err(MissingApiKey)
    else if !TruthyText(url) then Err(MissingUrl)
    else Ok(Client(key.value, resolvedUrl, "Bearer " + key.value))
  }

  /** As written, `AZURE_API_URL` can never stand in for a missing `url` argument. */
  lemma EnvUrlIgnoredAsWritten(apiKey: Option<string>, env: Env)
    requires "AZURE_API_URL" in env && env["AZURE_API_URL"] != ""
    ensures NewClientAsWritten(apiKey, None, env).Err?
  {
  }

  /** A concrete case: key and URL both in the environment, no arguments. */
  lemma EnvOnlyClientRejectedAsWritten()
    ensures var env := map["AZURE_API_KEY" := "k", "AZURE_API_URL" := "https://example.invalid/chat"];
      NewClientAsWritten(None, None, env) == Err(MissingUrl)
      && NewClientIntended(None, None, env).Ok?
  {
  }

  /** The evidently intended constructor: the resolved URL is what must be present. */
  function NewClientIntended(apiKey: Option<string>, url: Option<string>, env: Env): (r: Result<Client, ClientError>)
    ensures r.Ok? <==> TruthyText(OrEnv(apiKey, env, "AZURE_API_KEY")) && TruthyText(OrEnv(url, env, "AZURE_API_URL"))
    ensures r.Ok? ==> r.value.url == OrEnv(url, env, "AZURE_API_URL") && r.value.authorization == "Bearer " + r.value.apiKey
    ensures r.Ok? ==> r.value.apiKey == OrEnv(apiKey, env, "AZURE_API_KEY").value
  {
    var key := OrEnv(apiKey, env, "AZURE_API_KEY");
    var resolvedUrl := OrEnv(url, env, "AZURE_API_URL");
    if !TruthyText(key) then Err(MissingApiKey)
    else if !TruthyText(resolvedUrl) then Err(MissingUrl)
    else Ok(Client(key.value, resolvedUrl, "Bearer " + key.value))
  }

  /** Whenever the written constructor succeeds, the intended one builds the same client. */
  lemma IntendedExtendsAsWritten(apiKey: Option<string>, url: Option<string>, env: Env)
    requires NewClientAsWritten(apiKey, url, env).Ok?
    ensures NewClientIntended(apiKey, url, env) == NewClientAsWritten(apiKey, url, env)
  {
  }

  /** The body of `ChatClient.chat`'s POST: six fields always, `top_p` only when given. */
  function BuildPayload(messages: Json, model: string, maxCompletionTokens: Json, temperature: Json,
                        topP: Json, frequencyPenalty: Json, presencePenalty: Json): (p: Dict)
    ensures {"messages", "max_completion_tokens", "temperature", "frequency_penalty", "presence_penalty", "model"} <= p.Keys
    ensures "top_p" in p <==> topP != JNull
    ensures p.Keys <= {"messages", "max_completion_tokens", "temperature", "frequency_penalty", "presence_penalty", "model", "top_p"}
    ensures p["model"] == JStr(model) && p["messages"] == messages
    ensures p["max_completion_tokens"] == maxCompletionTokens && p["temperature"] == temperature
    ensures p["frequency_penalty"] == frequencyPenalty && p["presence_penalty"] == presencePenalty
    ensures "top_p" in p ==> p["top_p"] == topP
  {
    var base: Dict := map[
      "messages" := messages,
      "max_completion_tokens" := maxCompletionTokens,
      "temperature" := temperature,
      "frequency_penalty" := frequencyPenalty,
      "presence_penalty" := presencePenalty,
      "model" := JStr(model)];
    if topP != JNull then base["top_p" := topP] else base
  }

  /** An exception escaping `chat` (`.get` on a non-dict, a bad index, `.strip` on a non-string). */
  datatype ExtractError = ShapeError

  /** `x or {}` followed by `.get(k)`; a truthy non-dict has no `.get`. */
  function GetOrEmpty(x: Json, k: string): Result<Json, ExtractError>
  {
    if !Truthy(x) then Ok(JNull)
    else if x.JObj? then Ok(Get(x.fields, k))
    else Err(ShapeError)
  }

  /** `choices[0]` for a truthy `choices`. */
  function First(choices: Json): Result<Json, ExtractError>
    requires Truthy(choices)
  {
    if choices.JArr? then Ok(choices.items[0]) else Err(ShapeError)
  }

  /** `(first.get("message") or {}).get("content") or first.get("content")`, for `first = choices[0] or {}`. */
  function ContentOf(first: Json): (r: Result<Json, ExtractError>)
    ensures !Truthy(first) ==> r == Ok(JNull)
    ensures Truthy(first) && !first.JObj? ==> r.Err?
    ensures (first.JObj? && Get(first.fields, "message").JObj?
             && Truthy(Get(Get(first.fields, "message").fields, "content"))) ==>
      r == Ok(Get(Get(first.fields, "message").fields, "content"))
    ensures first.JObj? && !Truthy(Get(first.fields, "message")) ==> r == Ok(Get(first.fields, "content"))
  {
    match GetOrEmpty(first, "message")
    case Err(e) => Err(e)
    case Ok(message) =>
      match GetOrEmpty(message, "content")
      case Err(e) => Err(e)
      case Ok(fromMessage) =>
        match GetOrEmpty(first, "content")
        case Err(e) => Err(e)
        case Ok(fromFirst) => Ok(if Truthy(fromMessage) then fromMessage else fromFirst)
  }

  /**
   * The answer text of `ChatClient.chat` after the request. `body` is the
   * decoded JSON (`None` when decoding failed) and `dump` is `json.dumps(.., indent=2)`.
   */
  function ExtractResponse(body: Option<Json>, rawText: string, dump: Json -> string): (r: Result<string, ExtractError>)
    ensures body.None? ==> r == Ok(rawText)
    ensures body.Some? && !Truthy(body.value) ==> r == Ok(dump(body.value))
    ensures body.Some? && body.value.JObj? && !Truthy(Get(body.value.fields, "choices")) ==> r == Ok(dump(body.value))
    ensures body.Some? && Truthy(body.value) && !body.value.JObj? ==> r.Err?
    ensures (body.Some? && body.value.JObj? && Truthy(Get(body.value.fields, "choices"))
             && !Get(body.value.fields, "choices").JArr?) ==> r.Err?
    ensures (body.Some? && body.value.JObj? && Get(body.value.fields, "choices").JArr?
             && Get(body.value.fields, "choices").items != []) ==>
      var c := ContentOf(Get(body.value.fields, "choices").items[0]);
      (c.Err? ==> r.Err?)
      && (c.Ok? && c.value.JStr? && c.value.s != "" ==> r == Ok(Strip(c.value.s)))
      && (c.Ok? && !Truthy(c.value) ==> r == Ok(dump(body.value)))
      && (c.Ok? && Truthy(c.value) && !c.value.JStr? ==> r.Err?)
  {
    if body.None? then Ok(rawText)
    else
      var data := body.value;
      match GetOrEmpty(data, "choices")
      case Err(e) => Err(e)
      case Ok(choices) =>
        if !Truthy(choices) then Ok(dump(data))
        else
          match First(choices)
          case Err(e) => Err(e)
          case Ok(first) =>
            match ContentOf(first)
            case Err(e) => Err(e)
            case Ok(content) =>
              if !Truthy(content) then Ok(dump(data))
              else if content.JStr? then Ok(Strip(content.s))
              else Err(ShapeError)
  }

  /** The usual answer shape yields the message content, stripped. */
  lemma ExtractMessageContent(choice: Dict, rest: seq<Json>, text: string, dump: Json -> string)
    requires text != ""
    requires choice == map["message" := JObj(map["content" := JStr(text)])]
    ensures ExtractResponse(Some(JObj(map["choices" := JArr([JObj(choice)] + rest)])), "", dump) == Ok(Strip(text))
  {
    var data := map["choices" := JArr([JObj(choice)] + rest)];
    assert Get(data, "choices").items[0] == JObj(choice);
    assert Get(choice, "message") == JObj(map["content" := JStr(text)]);
    assert ContentOf(JObj(choice)) == Ok(JStr(text));
  }

  /** Without `message.content`, a non-empty `content` on the choice itself is used. */
  lemma ExtractChoiceContent(text: string, dump: Json -> string)
    requires text != ""
    ensures ExtractResponse(Some(JObj(map["choices" := JArr([JObj(map["content" := JStr(text)])])])), "", dump)
      == Ok(Strip(text))
  {
    var choice := map["content" := JStr(text)];
    assert "content"[0] != "message"[0];
    assert Get(choice, "message") == JNull;
    assert ContentOf(JObj(choice)) == Ok(JStr(text));
  }

  /** A successful non-dump answer is always stripped. */
  lemma ExtractedTextStripped(body: Option<Json>, rawText: string, dump: Json -> string)
    requires body.Some? && ExtractResponse(body, rawText, dump).Ok?
    ensures var s := ExtractResponse(body, rawText, dump).value;
      s == dump(body.value) || IsStripped(s)
  {
  }
}

=== FILE: crypto_prices.dfy ===
/**
 * The price-feed client: the retry policy of its GET helper and the token
 * filter of its price lookup.
 */
module CryptoPrices {
  import opened Wrappers
  import opened JsonValue

  // ---------------------------------------------------------------------
  // _aget

  /** Statuses that are retried. */
  const StatusForcelist: set<int> := {429, 500, 502, 503, 504}

  /**
   * What one GET produced: a response with a status, a transport failure
   * (`httpx.TransportError`), or any other exception of the request (such as
   * `httpx.DecodingError`, `httpx.TooManyRedirects` or `httpx.InvalidURL`),
   * which no `except` clause of `_aget` catches.
   */
  datatype Attempt = Response(status: int) | TransportError | OtherError

  /** `raise_for_status` passes exactly the 2xx responses. */
  predicate IsSuccess(status: int) { 200 <= status < 300 }

  /** An attempt that leads to another try unless it was the last one. */
  predicate Retryable(a: Attempt)
  {
    a.TransportError? || (a.Response? && !IsSuccess(a.status) && a.status in StatusForcelist)
  }

  /** How `_aget` ends. */
  datatype Outcome =
    | Returned(status: int)        // the successful response
    | RaisedStatus(status: int)    // httpx.HTTPStatusError re-raised
    | RaisedTransport              // httpx.TransportError re-raised
    | RaisedRuntime                // "Request failed without exception"
    | RaisedOther                  // any other exception, propagated unchanged

  /**
   * A run of `_aget`: how it ended, how many requests it made, and the
   * deterministic part of each sleep (the random jitter is not modelled).
   */
  datatype Trace = Trace(outcome: Outcome, attempts: nat, waits: seq<nat>)

  function Pow2(k: nat): nat
  {
    if k == 0 then 1 else 2 * Pow2(k - 1)
  }

  /** The wait after a failed attempt `k`, in units of `backoff_factor`: `2 ** k`. */
  function Wait(k: nat): nat
  {
    Pow2(k)
  }

  /**
   * The loop of `_aget` from attempt `attempt` on, given the outcome of every
   * request. Every attempt before the last was a retryable failure; the last
   * one decides the outcome.
   */
  function RetryFrom(outcome: nat -> Attempt, retries: int, attempt: nat): (t: Trace)
    requires attempt < retries
    ensures attempt < t.attempts <= retries
    ensures |t.waits| == t.attempts - 1 - attempt
    ensures t.outcome.Returned? ==>
      outcome(t.attempts - 1) == Response(t.outcome.status) && IsSuccess(t.outcome.status)
    ensures t.outcome.RaisedStatus? ==>
      outcome(t.attempts - 1) == Response(t.outcome.status) && !IsSuccess(t.outcome.status)
      && (t.outcome.status !in StatusForcelist || t.attempts == retries)
    ensures t.outcome.RaisedTransport? ==> outcome(t.attempts - 1) == TransportError && t.attempts == retries
    ensures t.outcome.RaisedOther? <==> outcome(t.attempts - 1) == OtherError
    ensures !t.outcome.RaisedRuntime?
    decreases retries - attempt
  {
    var a := outcome(attempt);
    if a.OtherError? then Trace(RaisedOther, attempt + 1, [])
    else if a.Response? && IsSuccess(a.status) then Trace(Returned(a.status), attempt + 1, [])
    else if a.Response? && (a.status !in StatusForcelist || attempt == retries - 1) then
      Trace(RaisedStatus(a.status), attempt + 1, [])
    else if a.TransportError? && attempt == retries - 1 then Trace(RaisedTransport, attempt + 1, [])
    else
      var rest := RetryFrom(outcome, retries, attempt + 1);
      rest.(waits := [Wait(attempt)] + rest.waits)
  }

  /** The waits are the doubling sequence starting at `2 ** start`. */
  predicate DoublingFrom(waits: seq<nat>, start: nat)
  {
    forall k :: 0 <= k < |waits| ==> waits[k] == Wait(start + k)
  }

  lemma DoublingCons(waits: seq<nat>, start: nat)
    requires DoublingFrom(waits, start + 1)
    ensures DoublingFrom([Wait(start)] + waits, start)
  {
    var w := [Wait(start)] + waits;
    forall k | 0 < k < |w| ensures w[k] == Wait(start + k) {
      assert w[k] == waits[k - 1];
    }
  }

  /** Every attempt before the last failed retryably, and wait `k` is `2 ** (attempt + k)` backoff units. */
  lemma {:induction false} RetryFromShape(outcome: nat -> Attempt, retries: int, attempt: nat)
    requires attempt < retries
    ensures var t := RetryFrom(outcome, retries, attempt);
      && DoublingFrom(t.waits, attempt)
      && (forall k :: attempt <= k < t.attempts - 1 ==> Retryable(outcome(k)))
    decreases retries - attempt
  {
    var a := outcome(attempt);
    if a.OtherError? {
    } else if a.Response? && IsSuccess(a.status) {
    } else if a.Response? && (a.status !in StatusForcelist || attempt == retries - 1) {
    } else if a.TransportError? && attempt == retries - 1 {
    } else {
      RetryFromShape(outcome, retries, attempt + 1);
      var rest := RetryFrom(outcome, retries, attempt + 1);
      assert RetryFrom(outcome, retries, attempt).waits == [Wait(attempt)] + rest.waits;
      DoublingCons(rest.waits, attempt);
      assert Retryable(a);
    }
  }

  /** `_aget`: no request at all, and a RuntimeError, when `retries <= 0`. */
  function Aget(outcome: nat -> Attempt, retries: int): (t: Trace)
    ensures retries <= 0 ==> t == Trace(RaisedRuntime, 0, [])
    ensures retries > 0 ==> 1 <= t.attempts <= retries && |t.waits| == t.attempts - 1
  {
    if retries <= 0 then Trace(RaisedRuntime, 0, []) else RetryFrom(outcome, retries, 0)
  }

  /** A trace with earlier waits in front of its own. */
  function After(waits: seq<nat>, t: Trace): Trace
  {
    t.(waits := waits + t.waits)
  }

  /** One retryable, non-final failure: a wait, then the rest of the loop. */
  lemma RetryStep(outcome: nat -> Attempt, retries: int, attempt: nat, waits: seq<nat>)
    requires attempt + 1 < retries && Retryable(outcome(attempt))
    ensures After(waits, RetryFrom(outcome, retries, attempt))
      == After(waits + [Wait(attempt)], RetryFrom(outcome, retries, attempt + 1))
  {
    var rest := RetryFrom(outcome, retries, attempt + 1);
    assert waits + ([Wait(attempt)] + rest.waits) == (waits + [Wait(attempt)]) + rest.waits;
  }

  /** The four ways an attempt ends the loop. */
  lemma RetryStops(outcome: nat -> Attempt, retries: int, attempt: nat)
    requires attempt < retries
    ensures var a := outcome(attempt);
      a.Response? && IsSuccess(a.status) ==>
        RetryFrom(outcome, retries, attempt) == Trace(Returned(a.status), attempt + 1, [])
    ensures var a := outcome(attempt);
      a.Response? && !IsSuccess(a.status) && (a.status !in StatusForcelist || attempt == retries - 1) ==>
        RetryFrom(outcome, retries, attempt) == Trace(RaisedStatus(a.status), attempt + 1, [])
    ensures var a := outcome(attempt);
      a.TransportError? && attempt == retries - 1 ==>
        RetryFrom(outcome, retries, attempt) == Trace(RaisedTransport, attempt + 1, [])
    ensures outcome(attempt).OtherError? ==>
      RetryFrom(outcome, retries, attempt) == Trace(RaisedOther, attempt + 1, [])
  {
  }

  /** The loop of `_aget` as written, against the request oracle `outcome`. */
  /** One pass of the loop body: the `try` and its two `except` clauses decide whether to stop. */
  method TryOnce(outcome: nat -> Attempt, retries: int, attempt: nat) returns (stop: bool, result: Outcome)
    requires attempt < retries
    ensures stop ==> RetryFrom(outcome, retries, attempt) == Trace(result, attempt + 1, [])
    ensures !stop ==> attempt + 1 < retries && Retryable(outcome(attempt))
  {
    var a := outcome(attempt);
    RetryStops(outcome, retries, attempt);
    stop := true;
    if a.OtherError? {
      result := RaisedOther;
    } else if a.Response? && IsSuccess(a.status) {
      result := Returned(a.status);
    } else if a.Response? && (a.status !in StatusForcelist || attempt == retries - 1) {
      result := RaisedStatus(a.status);
    } else if a.TransportError? && attempt == retries - 1 {
      result := RaisedTransport;
    } else {
      stop, result := false, RaisedRuntime;
    }
  }

  method AgetLoop(outcome: nat -> Attempt, retries: int)
    returns (result: Outcome, attempts: nat, waits: seq<nat>)
    ensures Trace(result, attempts, waits) == Aget(outcome, retries)
  {
    waits := [];
    attempts := 0;
    if retries <= 0 {
      // `range(retries)` is empty and `last_err` is still None.
      return RaisedRuntime, attempts, waits;
    }
    var attempt: nat := 0;
    while attempt < retries
      invariant attempt < retries
      invariant attempts == attempt
      invariant Aget(outcome, retries) == After(waits, RetryFrom(outcome, retries, attempt))
      decreases retries - attempt
    {
      var stop, o := TryOnce(outcome, retries, attempt);
      attempts := attempts + 1;
      if stop {
        assert waits + [] == waits;
        return o, attempts, waits;
      }
      RetryStep(outcome, retries, attempt, waits);
      waits := waits + [Wait(attempt)];
      attempt := attempt + 1;
    }
    result := RaisedRuntime;
  }

  /** The first success is returned at once if every earlier attempt failed retryably. */
  lemma {:induction false} SuccessReturnsImmediately(outcome: nat -> Attempt, retries: int, attempt: nat, k: nat)
    requires attempt <= k < retries
    requires forall j :: attempt <= j < k ==> Retryable(outcome(j))
    requires outcome(k).Response? && IsSuccess(outcome(k).status)
    ensures RetryFrom(outcome, retries, attempt).outcome == Returned(outcome(k).status)
    ensures RetryFrom(outcome, retries, attempt).attempts == k + 1
    decreases k - attempt
  {
    if attempt < k {
      assert Retryable(outcome(attempt));
      SuccessReturnsImmediately(outcome, retries, attempt + 1, k);
    }
  }

  /** A status outside the forcelist is raised on its first occurrence, never retried. */
  lemma {:induction false} NonRetryableRaisedAtOnce(outcome: nat -> Attempt, retries: int, attempt: nat, k: nat)
    requires attempt <= k < retries
    requires forall j :: attempt <= j < k ==> Retryable(outcome(j))
    requires outcome(k).Response? && !IsSuccess(outcome(k).status) && outcome(k).status !in StatusForcelist
    ensures RetryFrom(outcome, retries, attempt).outcome == RaisedStatus(outcome(k).status)
    ensures RetryFrom(outcome, retries, attempt).attempts == k + 1
    decreases k - attempt
  {
    if attempt < k {
      assert Retryable(outcome(attempt));
      NonRetryableRaisedAtOnce(outcome, retries, attempt + 1, k);
    }
  }

  /** An exception other than a status or transport error propagates on its first occurrence. */
  lemma {:induction false} OtherErrorRaisedAtOnce(outcome: nat -> Attempt, retries: int, attempt: nat, k: nat)
    requires attempt <= k < retries
    requires forall j :: attempt <= j < k ==> Retryable(outcome(j))
    requires outcome(k).OtherError?
    ensures RetryFrom(outcome, retries, attempt).outcome == RaisedOther
    ensures RetryFrom(outcome, retries, attempt).attempts == k + 1
    decreases k - attempt
  {
    if attempt < k {
      assert Retryable(outcome(attempt));
      OtherErrorRaisedAtOnce(outcome, retries, attempt + 1, k);
    }
  }

  /** When every request fails retryably, all `retries` are spent and the last failure is raised. */
  lemma {:induction false} ExhaustedRaisesLast(outcome: nat -> Attempt, retries: int, attempt: nat)
    requires attempt < retries
    requires forall j :: attempt <= j < retries ==> Retryable(outcome(j))
    ensures var t := RetryFrom(outcome, retries, attempt);
      t.attempts == retries
      && (outcome(retries - 1).TransportError? ==> t.outcome == RaisedTransport)
      && (outcome(retries - 1).Response? ==> t.outcome == RaisedStatus(outcome(retries - 1).status))
    decreases retries - attempt
  {
    if attempt < retries - 1 {
      ExhaustedRaisesLast(outcome, retries, attempt + 1);
    }
  }

  // ---------------------------------------------------------------------
  // get_Price

  type Dict = map<string, Json>

  /** A feed item that is a dict whose `token` is one of the wanted tokens. */
  predicate Wanted(item: Json, tokens: seq<Json>)
  {
    item.JObj? && Get(item.fields, "token") in tokens
  }

  /**
   * The scan of `get_Price`: collect wanted items, checking after every item
   * (collected or not) whether `len(list_tokens)` items have been gathered.
   */
  function Scan(items: seq<Json>, tokens: seq<Json>, out: seq<Dict>): (r: seq<Dict>)
    requires |out| < |tokens| || out == []
    ensures |r| <= |tokens|
    ensures |out| <= |r|
    ensures forall i :: 0 <= i < |out| ==> r[i] == out[i]
    ensures forall i :: |out| <= i < |r| ==> JObj(r[i]) in items && Wanted(JObj(r[i]), tokens)
    decreases |items|
  {
    if items == [] then out
    else
      var out' := if Wanted(items[0], tokens) then out + [items[0].fields] else out;
      if |out'| == |tokens| then out'
      else Scan(items[1..], tokens, out')
  }

  /** The items `get_Price` keeps from a feed list. */
  function Select(items: seq<Json>, tokens: seq<Json>): (r: seq<Dict>)
    ensures |r| <= |tokens|
    ensures forall i :: 0 <= i < |r| ==> JObj(r[i]) in items && Get(r[i], "token") in tokens
  {
    Scan(items, tokens, [])
  }

  /** Reference: the wanted dict items of a feed, in feed order. */
  function WantedDicts(items: seq<Json>, tokens: seq<Json>): seq<Dict>
    decreases |items|
  {
    if items == [] then []
    else (if Wanted(items[0], tokens) then [items[0].fields] else []) + WantedDicts(items[1..], tokens)
  }

  /** The first `cap` entries of `all`, or all of them when there are fewer. */
  function Capped(all: seq<Dict>, cap: nat): (r: seq<Dict>)
  {
    if cap < |all| then all[..cap] else all
  }

  /** One step of the reference on the first feed item. */
  lemma WantedUnfold(items: seq<Json>, tokens: seq<Json>, out: seq<Dict>, out': seq<Dict>)
    requires items != []
    requires out' == if Wanted(items[0], tokens) then out + [items[0].fields] else out
    ensures out + WantedDicts(items, tokens) == out' + WantedDicts(items[1..], tokens)
  {
    var head := if Wanted(items[0], tokens) then [items[0].fields] else [];
    var rest := WantedDicts(items[1..], tokens);
    assert WantedDicts(items, tokens) == head + rest;
    assert out' == out + head;
    assert out + (head + rest) == (out + head) + rest;
  }

  /** One step of the scan on the first feed item. */
  lemma ScanUnfold(items: seq<Json>, tokens: seq<Json>, out: seq<Dict>, out': seq<Dict>)
    requires items != [] && (|out| < |tokens| || out == [])
    requires out' == if Wanted(items[0], tokens) then out + [items[0].fields] else out
    ensures |out'| <= |tokens|
    ensures Scan(items, tokens, out) == if |out'| == |tokens| then out' else Scan(items[1..], tokens, out')
  {
  }

  /** The scan extends `out` with the wanted items in feed order, stopping at `len(list_tokens)`. */
  lemma {:induction false} ScanTakesWanted(items: seq<Json>, tokens: seq<Json>, out: seq<Dict>)
    requires |out| < |tokens| || out == []
    ensures Scan(items, tokens, out) == Capped(out + WantedDicts(items, tokens), |tokens|)
    decreases |items|
  {
    if items == [] {
      assert out + [] == out;
    } else {
      var out' := if Wanted(items[0], tokens) then out + [items[0].fields] else out;
      WantedUnfold(items, tokens, out, out');
      ScanUnfold(items, tokens, out, out');
      var rest := WantedDicts(items[1..], tokens);
      if |out'| == |tokens| {
        assert (out' + rest)[..|out'|] == out';
      } else {
        ScanTakesWanted(items[1..], tokens, out');
      }
    }
  }

  /**
   * `get_Price` keeps exactly the first `len(list_tokens)` wanted items of the
   * feed, in feed order: every wanted item is taken while there is room.
   */
  lemma SelectTakesWanted(items: seq<Json>, tokens: seq<Json>)
    ensures Select(items, tokens) == Capped(WantedDicts(items, tokens), |tokens|)
  {
    ScanTakesWanted(items, tokens, []);
    assert [] + WantedDicts(items, tokens) == WantedDicts(items, tokens);
  }

  /** Once enough items are collected, the rest of the feed is never looked at. */
  lemma {:induction false} ScanStops(items: seq<Json>, more: seq<Json>, tokens: seq<Json>, out: seq<Dict>)
    requires |out| < |tokens| || out == []
    requires |Scan(items, tokens, out)| == |tokens|
    ensures Scan(items + more, tokens, out) == Scan(items, tokens, out)
    decreases |items|
  {
    if items == [] {
      assert items + more == more;
      if more != [] {
        assert !Wanted(more[0], tokens);
      }
    } else {
      assert (items + more)[0] == items[0];
      assert (items + more)[1..] == items[1..] + more;
      var out' := if Wanted(items[0], tokens) then out + [items[0].fields] else out;
      if |out'| != |tokens| {
        ScanStops(items[1..], more, tokens, out');
      }
    }
  }

  /** Why `get_Price` fails. */
  datatype PriceError =
    | FeedNotIterable    // `for item in full_data` on a number, bool or null
    | MissingToken       // `item["token"]` on a selected item without it
    | MissingUsdPrice    // `item["usdPrice"]` on a selected item without it
    | NotNumeric         // `float()` of a null, list or dict price raises TypeError
    | UnhashableToken    // a list or dict token used as a dict key

  /** Values Python can use as dict keys: everything but lists and dicts. */
  predicate Hashable(j: Json)
  {
    !j.JArr? && !j.JObj?
  }

  /** Prices `float()` does not reject by type: numbers, booleans and strings. */
  predicate FloatAccepts(j: Json)
  {
    !j.JNull? && !j.JArr? && !j.JObj?
  }

  /**
   * What the comprehension does with one item: the key `item["token"]` is
   * evaluated first, then the value `round(float(item["usdPrice"]), 3)`, and
   * only then is the key hashed.
   */
  function ItemError(item: Dict): (r: Option<PriceError>)
    ensures r.None? <==>
      "token" in item && "usdPrice" in item && FloatAccepts(item["usdPrice"]) && Hashable(item["token"])
    ensures r == Some(MissingToken) <==> "token" !in item
    ensures r == Some(MissingUsdPrice) <==> "token" in item && "usdPrice" !in item
    ensures r == Some(NotNumeric) <==> "token" in item && "usdPrice" in item && !FloatAccepts(item["usdPrice"])
    ensures r == Some(UnhashableToken) <==>
      "token" in item && "usdPrice" in item && FloatAccepts(item["usdPrice"]) && !Hashable(item["token"])
  {
    if "token" !in item then Some(MissingToken)
    else if "usdPrice" !in item then Some(MissingUsdPrice)
    else if !FloatAccepts(item["usdPrice"]) then Some(NotNumeric)
    else if !Hashable(item["token"]) then Some(UnhashableToken)
    else None
  }

  /** Every selected item has a hashable `token` and a `usdPrice`. */
  predicate AllPriced(output: seq<Dict>)
  {
    forall i :: 0 <= i < |output| ==> ItemError(output[i]).None?
  }

  /** The error of the first item the comprehension cannot take, if any. */
  function FirstError(output: seq<Dict>): (r: Option<PriceError>)
    ensures r.None? <==> AllPriced(output)
    ensures r.Some? ==> exists i :: 0 <= i < |output| && AllPriced(output[..i]) && ItemError(output[i]) == r
    decreases |output|
  {
    if output == [] then None
    else if ItemError(output[0]).Some? then
      assert AllPriced(output[..0]);
      ItemError(output[0])
    else
      var r := FirstError(output[1..]);
      assert AllPriced(output) <==> AllPriced(output[1..]) by {
        if AllPriced(output[1..]) {
          forall i | 0 <= i < |output| ensures ItemError(output[i]).None? {
            if i > 0 { assert output[i] == output[1..][i - 1]; }
          }
        }
      }
      if r.Some? then
        var i :| 0 <= i < |output[1..]| && AllPriced(output[1..][..i]) && ItemError(output[1..][i]) == r;
        assert output[..i + 1] == [output[0]] + output[1..][..i];
        assert AllPriced(output[..i + 1]);
        r
      else r
  }

  /** The dict comprehension over fully priced items: later items win. */
  function Collect(output: seq<Dict>): (r: map<Json, Json>)
    requires AllPriced(output)
    ensures forall t :: t in r ==>
      exists i :: 0 <= i < |output| && output[i]["token"] == t && r[t] == output[i]["usdPrice"]
    ensures forall i :: 0 <= i < |output| ==> output[i]["token"] in r
    decreases |output|
  {
    if output == [] then map[]
    else
      var init := output[..|output| - 1];
      var last := output[|output| - 1];
      assert forall i :: 0 <= i < |init| ==> init[i] == output[i];
      var m := Collect(init);
      var tok := last["token"];
      var r := m[tok := last["usdPrice"]];
      assert forall t :: t in r ==>
        exists i :: 0 <= i < |output| && output[i]["token"] == t && r[t] == output[i]["usdPrice"] by {
        forall t | t in r
          ensures exists i :: 0 <= i < |output| && output[i]["token"] == t && r[t] == output[i]["usdPrice"]
        {
          if t == tok {
            assert output[|output| - 1]["token"] == t;
          } else {
            var i :| 0 <= i < |init| && init[i]["token"] == t && m[t] == init[i]["usdPrice"];
            assert output[i]["token"] == t;
          }
        }
      }
      assert forall i :: 0 <= i < |output| ==> output[i]["token"] in r by {
        forall i | 0 <= i < |output| ensures output[i]["token"] in r {
          if i < |init| {
            assert init[i]["token"] in m;
          }
        }
      }
      r
  }

  /** The last item with a given token decides its price. */
  lemma CollectLastWins(output: seq<Dict>, item: Dict)
    requires AllPriced(output) && ItemError(item).None?
    ensures AllPriced(output + [item])
    ensures Collect(output + [item])[item["token"]] == item["usdPrice"]
  {
    assert forall i :: 0 <= i < |output| ==> (output + [item])[i] == output[i];
    assert (output + [item])[..|output|] == output;
  }

  /**
   * `{item["token"]: round(float(item["usdPrice"]), 3) for item in output}`:
   * the first item without a `token`, without a `usdPrice`, with a price
   * `float()` rejects or with an unhashable token raises, and the error is
   * that item's.
   */
  function PriceMap(output: seq<Dict>): (r: Result<map<Json, Json>, PriceError>)
    ensures r.Ok? <==> AllPriced(output)
    ensures r.Ok? ==> r.value == Collect(output)
    ensures r.Err? ==> exists i :: 0 <= i < |output| && AllPriced(output[..i]) && ItemError(output[i]) == Some(r.error)
  {
    var e := FirstError(output);
    if e.None? then Ok(Collect(output)) else Err(e.value)
  }

  /** A selected item without a `token` (kept because None is wanted) raises KeyError. */
  lemma MissingTokenExample()
    ensures var feed := JArr([JObj(map["usdPrice" := JInt(1)])]);
      GetPrice(feed, [JNull]) == Err(MissingToken)
  {
    var item: Dict := map["usdPrice" := JInt(1)];
    assert Get(item, "token") == JNull;
    assert Wanted(JObj(item), [JNull]);
    assert Select([JObj(item)], [JNull]) == [item];
    assert ItemError(item) == Some(MissingToken);
  }

  /**
   * Completeness of `get_Price`: when it succeeds, the token of each of the
   * first `len(list_tokens)` wanted dicts of the feed is a key of the result.
   */
  lemma GetPriceFindsWanted(items: seq<Json>, tokens: seq<Json>, i: int)
    requires GetPrice(JArr(items), tokens).Ok?
    requires 0 <= i < |WantedDicts(items, tokens)| && i < |tokens|
    ensures "token" in WantedDicts(items, tokens)[i]
    ensures WantedDicts(items, tokens)[i]["token"] in GetPrice(JArr(items), tokens).value
  {
    SelectTakesWanted(items, tokens);
    var sel := Select(items, tokens);
    assert sel[i] == WantedDicts(items, tokens)[i];
    assert ItemError(sel[i]).None?;
    assert sel[i] in sel;
  }

  /** A wanted, priced item is found and priced. */
  lemma FoundPriceExample()
    ensures var feed := JArr([JObj(map["token" := JStr("BTC"), "usdPrice" := JInt(1)])]);
      GetPrice(feed, [JStr("BTC")]) == Ok(map[JStr("BTC") := JInt(1)])
  {
    var item: Dict := map["token" := JStr("BTC"), "usdPrice" := JInt(1)];
    assert Wanted(JObj(item), [JStr("BTC")]);
    assert Select([JObj(item)], [JStr("BTC")]) == [item];
    assert ItemError(item).None?;
    assert [item][..0] == [];
  }

  /** A null price is rejected by `float()`. */
  lemma NullPriceExample()
    ensures var feed := JArr([JObj(map["token" := JStr("BTC"), "usdPrice" := JNull])]);
      GetPrice(feed, [JStr("BTC")]) == Err(NotNumeric)
  {
    var item: Dict := map["token" := JStr("BTC"), "usdPrice" := JNull];
    assert Wanted(JObj(item), [JStr("BTC")]);
    assert Select([JObj(item)], [JStr("BTC")]) == [item];
    assert ItemError(item) == Some(NotNumeric);
  }

  /**
   * `get_Price` after the request: a list feed is filtered; iterating a dict
   * or a string yields keys or characters, which are never dicts.
   */
  function GetPrice(feed: Json, tokens: seq<Json>): (r: Result<map<Json, Json>, PriceError>)
    ensures feed.JNull? || feed.JBool? || feed.JInt? ==> r == Err(FeedNotIterable)
    ensures feed.JObj? || feed.JStr? ==> r == Ok(map[])
    ensures feed.JArr? ==> (r.Ok? <==> AllPriced(Select(feed.items, tokens)))
    ensures r.Ok? ==> forall t :: t in r.value ==> t in tokens
    ensures feed.JArr? && r.Ok? ==> forall item :: item in Select(feed.items, tokens) ==> item["token"] in r.value
  {
    match feed
    case JArr(items) => PriceMap(Select(items, tokens))
    case JObj(_) => Ok(map[])
    case JStr(_) => Ok(map[])
    case _ => Err(FeedNotIterable)
  }
}

=== FILE: hash_embed.dfy ===
/**
 * The hash-fallback text embedding of the retrieval helpers: byte n-gram
 * counts over the normalised text, and the (bytes, dim) serialisation of a
 * float32 vector.
 */
module HashEmbed {
  import opened Wrappers
  import opened Text
  import opened Utf8

  /** Default of `EMBED_HASH_DIM`. */
  const DefaultHashDim: nat := 512

  /** Which embedding backend `embed_text` uses. */
  datatype Backend = FastEmbed | HashFallback

  /** `EMBED_BACKEND`, defaulting to "fastembed" when the variable is absent. */
  function ConfiguredBackend(env: map<string, string>): string
  {
    if "EMBED_BACKEND" in env then env["EMBED_BACKEND"] else "fastembed"
  }

  /**
   * FastEmbed only for the exact configured value "fastembed" and only when
   * the package can be imported; every other value falls back to hashing.
   */
  function ChooseBackend(configured: string, fastembedAvailable: bool): (r: Backend)
    ensures r == FastEmbed <==> configured == "fastembed" && fastembedAvailable
    ensures configured != "fastembed" ==> r == HashFallback
  {
    if configured == "fastembed" && fastembedAvailable then FastEmbed else HashFallback
  }

  /** `(text or "").strip().lower()`. */
  function Normalize(text: Option<string>): string
  {
    Lower(Strip(text.GetOr("")))
  }

  /** Number of length-`n` windows in a byte string of length `len`. */
  function Windows(len: nat, n: nat): nat
  {
    if len >= n then len - n + 1 else 0
  }

  /** Total number of 3-, 4- and 5-grams of a byte string of length `len`. */
  function GramTotal(len: nat): nat
  {
    Windows(len, 3) + Windows(len, 4) + Windows(len, 5)
  }

  /** How many of the first `m` n-grams of `b` land in bucket `k`. */
  function Hits(b: seq<byte>, n: nat, m: nat, k: int, dim: nat, crc: seq<byte> -> nat): (h: nat)
    requires dim > 0 && n > 0 && m <= Windows(|b|, n)
    ensures h <= m
  {
    if m == 0 then 0
    else Hits(b, n, m - 1, k, dim, crc) + (if crc(b[m - 1..m - 1 + n]) % dim == k then 1 else 0)
  }

  /** Whether the n-gram of `b` starting at offset `i` exists and hashes to bucket `k`. */
  predicate HitAt(b: seq<byte>, n: nat, i: nat, k: int, dim: nat, crc: seq<byte> -> nat)
    requires dim > 0
  {
    i + n <= |b| && crc(b[i..i + n]) % dim == k
  }

  /** The starting offsets, among the first `m`, of the n-grams hashing to bucket `k`. */
  function HitWindows(b: seq<byte>, n: nat, m: nat, k: int, dim: nat, crc: seq<byte> -> nat): set<nat>
    requires dim > 0
  {
    set i: nat | i < m && HitAt(b, n, i, k, dim, crc)
  }

  /** Growing the prefix by one window adds that window exactly when it hits. */
  lemma HitWindowsStep(b: seq<byte>, n: nat, m: nat, k: int, dim: nat, crc: seq<byte> -> nat)
    requires dim > 0 && m > 0
    ensures m - 1 !in HitWindows(b, n, m - 1, k, dim, crc)
    ensures HitWindows(b, n, m, k, dim, crc)
      == HitWindows(b, n, m - 1, k, dim, crc) + (if HitAt(b, n, m - 1, k, dim, crc) then {m - 1} else {})
  {
  }

  /** `Hits` counts exactly the windows whose `crc32 % dim` is `k`. */
  lemma {:induction false} HitsIsWindowCount(b: seq<byte>, n: nat, m: nat, k: int, dim: nat, crc: seq<byte> -> nat)
    requires dim > 0 && n > 0 && m <= Windows(|b|, n)
    ensures Hits(b, n, m, k, dim, crc) == |HitWindows(b, n, m, k, dim, crc)|
    decreases m
  {
    if m == 0 {
      assert HitWindows(b, n, m, k, dim, crc) == {};
    } else {
      HitsIsWindowCount(b, n, m - 1, k, dim, crc);
      HitWindowsStep(b, n, m, k, dim, crc);
      assert Hits(b, n, m, k, dim, crc)
        == Hits(b, n, m - 1, k, dim, crc) + (if HitAt(b, n, m - 1, k, dim, crc) then 1 else 0);
    }
  }

  /** Reference count of bucket `k`: all 3-, 4- and 5-grams of `b` hashing to it. */
  function BucketCount(b: seq<byte>, k: int, dim: nat, crc: seq<byte> -> nat): nat
    requires dim > 0
  {
    Hits(b, 3, Windows(|b|, 3), k, dim, crc)
      + Hits(b, 4, Windows(|b|, 4), k, dim, crc)
      + Hits(b, 5, Windows(|b|, 5), k, dim, crc)
  }

  /** The bucket counts of a byte string. */
  function BucketVector(b: seq<byte>, dim: nat, crc: seq<byte> -> nat): (v: seq<nat>)
    requires dim > 0
    ensures |v| == dim
  {
    seq(dim, (k: int) requires 0 <= k < dim => BucketCount(b, k, dim, crc))
  }

  /**
   * What `_hash_embed` fails with when `_HASH_DIM` is not positive: numpy
   * refuses a negative shape, and `crc32(ng) % 0` divides by zero.
   */
  datatype EmbedError = NegativeDimension | ZeroModulus

  /**
   * The un-normalised embedding of the byte string `b`, for any configured
   * dimension: a negative one fails when the zero vector is allocated, zero
   * fails at the first n-gram and succeeds (with the empty vector) only when
   * there is no n-gram to hash.
   */
  function CountsOf(b: seq<byte>, dim: int, crc: seq<byte> -> nat): (r: Result<seq<nat>, EmbedError>)
    ensures r.Ok? <==> dim > 0 || (dim == 0 && |b| < 3)
    ensures dim < 0 ==> r == Err(NegativeDimension)
    ensures dim == 0 && |b| >= 3 ==> r == Err(ZeroModulus)
    ensures r.Ok? ==> |r.value| == dim
  {
    if dim < 0 then Err(NegativeDimension)
    else if dim == 0 then (if |b| < 3 then Ok([]) else Err(ZeroModulus))
    else Ok(BucketVector(b, dim, crc))
  }

  /** The un-normalised embedding of `text`: the counts of its normalised UTF-8 bytes. */
  function HashCounts(text: Option<string>, dim: int, crc: seq<byte> -> nat): (r: Result<seq<nat>, EmbedError>)
    ensures r.Ok? <==> dim > 0 || (dim == 0 && |Encode(Normalize(text))| < 3)
    ensures dim < 0 ==> r == Err(NegativeDimension)
    ensures dim == 0 && |Encode(Normalize(text))| >= 3 ==> r == Err(ZeroModulus)
    ensures r.Ok? ==> |r.value| == dim
  {
    CountsOf(Encode(Normalize(text)), dim, crc)
  }

  function Zeros(dim: nat): (v: seq<nat>)
    ensures |v| == dim
  {
    seq(dim, _ => 0)
  }

  function Sum(v: seq<nat>): nat
  {
    if v == [] then 0 else v[0] + Sum(v[1..])
  }

  lemma {:induction false} SumZeros(dim: nat)
    ensures Sum(Zeros(dim)) == 0
    decreases dim
  {
    if dim > 0 {
      assert Zeros(dim)[1..] == Zeros(dim - 1);
      SumZeros(dim - 1);
    }
  }

  lemma {:induction false} SumIncrement(v: seq<nat>, i: nat)
    requires i < |v|
    ensures Sum(v[i := v[i] + 1]) == Sum(v) + 1
    decreases |v|
  {
    if i > 0 {
      assert v[i := v[i] + 1][1..] == v[1..][i - 1 := v[i] + 1];
      SumIncrement(v[1..], i - 1);
    }
  }

  /** One pass of the inner loop: every `n`-gram of `b` bumps its bucket by one. */
  method AddGrams(vec0: seq<nat>, b: seq<byte>, n: nat, dim: nat, crc: seq<byte> -> nat)
    returns (vec: seq<nat>)
    requires dim > 0 && n > 0 && |vec0| == dim
    ensures |vec| == dim
    ensures forall k :: 0 <= k < dim ==> vec[k] == vec0[k] + Hits(b, n, Windows(|b|, n), k, dim, crc)
    ensures Sum(vec) == Sum(vec0) + Windows(|b|, n)
  {
    vec := vec0;
    if |b| < n {
      return;
    }
    var i := 0;
    while i < |b| - n + 1
      invariant 0 <= i <= |b| - n + 1
      invariant |vec| == dim
      invariant forall k :: 0 <= k < dim ==> vec[k] == vec0[k] + Hits(b, n, i, k, dim, crc)
      invariant Sum(vec) == Sum(vec0) + i
    {
      var ng := b[i..i + n];
      var idx := crc(ng) % dim;
      SumIncrement(vec, idx);
      vec := vec[idx := vec[idx] + 1];
      i := i + 1;
    }
  }

  /**
   * `_hash_embed` up to (excluding) the L2 normalisation: for a usable
   * dimension, a vector of `dim` bucket counts whose total is the number of
   * 3-, 4- and 5-grams of the UTF-8 bytes of the normalised text.
   */
  method HashEmbedCounts(text: Option<string>, dim: int, crc: seq<byte> -> nat)
    returns (r: Result<seq<nat>, EmbedError>)
    ensures r == HashCounts(text, dim, crc)
    ensures r.Ok? ==> Sum(r.value) == GramTotal(|Encode(Normalize(text))|)
  {
    r := CountBytes(Encode(Normalize(text)), dim, crc);
  }

  /** The n-gram loops over the bytes of non-blank text. */
  method CountBytes(b: seq<byte>, dim: int, crc: seq<byte> -> nat) returns (r: Result<seq<nat>, EmbedError>)
    ensures r == CountsOf(b, dim, crc)
    ensures r.Ok? ==> Sum(r.value) == GramTotal(|b|)
  {
    if dim < 0 {
      return Err(NegativeDimension);
    }
    if dim == 0 {
      if |b| < 3 {
        return Ok([]);
      }
      return Err(ZeroModulus);
    }
    var vec := CountGrams(b, dim, crc);
    return Ok(vec);
  }

  /** The loop over n = 3, 4, 5 for a positive dimension. */
  method CountGrams(b: seq<byte>, dim: nat, crc: seq<byte> -> nat) returns (vec: seq<nat>)
    requires dim > 0
    ensures vec == BucketVector(b, dim, crc)
    ensures Sum(vec) == GramTotal(|b|)
  {
    vec := Zeros(dim);
    SumZeros(dim);
    var v3 := AddGrams(vec, b, 3, dim, crc);
    var v4 := AddGrams(v3, b, 4, dim, crc);
    vec := AddGrams(v4, b, 5, dim, crc);
    forall k | 0 <= k < dim
      ensures vec[k] == BucketCount(b, k, dim, crc)
    {
      assert v3[k] == Hits(b, 3, Windows(|b|, 3), k, dim, crc);
    }
    CountsAreBucketVector(vec, b, dim, crc);
  }

  lemma CountsAreBucketVector(v: seq<nat>, b: seq<byte>, dim: nat, crc: seq<byte> -> nat)
    requires dim > 0 && |v| == dim
    requires forall k :: 0 <= k < dim ==> v[k] == BucketCount(b, k, dim, crc)
    ensures v == BucketVector(b, dim, crc)
  {
  }

  lemma HitsOfShort(b: seq<byte>, n: nat, k: int, dim: nat, crc: seq<byte> -> nat)
    requires dim > 0 && n > 0 && |b| < n
    ensures Hits(b, n, Windows(|b|, n), k, dim, crc) == 0
  {
  }

  lemma BucketVectorShort(b: seq<byte>, dim: nat, crc: seq<byte> -> nat)
    requires dim > 0 && |b| < 3
    ensures BucketVector(b, dim, crc) == Zeros(dim)
  {
    forall k | 0 <= k < dim
      ensures Zeros(dim)[k] == BucketCount(b, k, dim, crc)
    {
      HitsOfShort(b, 3, k, dim, crc);
      HitsOfShort(b, 4, k, dim, crc);
      HitsOfShort(b, 5, k, dim, crc);
    }
    CountsAreBucketVector(Zeros(dim), b, dim, crc);
  }

  /**
   * Text of fewer than three UTF-8 bytes (after normalisation) gives the zero
   * vector of any non-negative dimension.
   */
  lemma HashCountsShort(text: Option<string>, dim: int, crc: seq<byte> -> nat)
    requires |Encode(Normalize(text))| < 3
    ensures HashCounts(text, dim, crc) == if dim < 0 then Err(NegativeDimension) else Ok(Zeros(dim))
  {
    if dim > 0 {
      BucketVectorShort(Encode(Normalize(text)), dim, crc);
    }
  }

  /** None, "" and whitespace-only text all give the zero vector. */
  lemma HashCountsBlank(text: Option<string>, dim: int, crc: seq<byte> -> nat)
    requires text.None? || IsBlank(text.value)
    ensures HashCounts(text, dim, crc) == if dim < 0 then Err(NegativeDimension) else Ok(Zeros(dim))
  {
    assert Strip(text.GetOr("")) == [];
    assert Normalize(text) == [];
    HashCountsShort(text, dim, crc);
  }

  /** Letter case does not change the embedding, nor whether it fails. */
  lemma HashCountsIgnoresCase(t: string, dim: int, crc: seq<byte> -> nat)
    ensures HashCounts(Some(Lower(t)), dim, crc) == HashCounts(Some(t), dim, crc)
  {
    StripLowerCommute(t);
    LowerIdempotent(Strip(t));
    assert Normalize(Some(Lower(t))) == Normalize(Some(t));
  }

  /** Surrounding whitespace does not change the embedding, nor whether it fails. */
  lemma HashCountsIgnoresPadding(a: string, t: string, c: string, dim: int, crc: seq<byte> -> nat)
    requires IsBlank(a) && IsBlank(c)
    ensures HashCounts(Some(a + t + c), dim, crc) == HashCounts(Some(t), dim, crc)
  {
    StripPadding(a, t, c);
    assert Normalize(Some(a + t + c)) == Normalize(Some(t));
  }

  // ---------------------------------------------------------------------
  // pack_embedding / unpack_embedding

  /** A float32 value, represented by its IEEE 754 bit pattern. */
  type F32 = w: int | 0 <= w < 0x1_0000_0000

  /** The four bytes of one float32 in little-endian (native) order. */
  function WordBytes(w: F32): (r: seq<byte>)
    ensures |r| == 4
  {
    [w % 256, (w / 256) % 256, (w / 65536) % 256, w / 16777216]
  }

  function WordOf(b: seq<byte>): F32
    requires |b| == 4
  {
    (b[0] as int) + 256 * (b[1] as int) + 65536 * (b[2] as int) + 16777216 * (b[3] as int)
  }

  lemma WordRoundTrip(w: F32)
    ensures WordOf(WordBytes(w)) == w
  {
    var q1 := w / 256;
    var q2 := w / 65536;
    var q3 := w / 16777216;
    assert w == 256 * q1 + w % 256;
    assert q2 == q1 / 256 && q1 == 256 * q2 + q1 % 256;
    assert q3 == q2 / 256 && q2 == 256 * q3 + q2 % 256;
    assert q3 < 256;
  }

  /** `vec32.tobytes()`. */
  function ToBytes(vec: seq<F32>): (r: seq<byte>)
    ensures |r| == 4 * |vec|
  {
    if vec == [] then [] else WordBytes(vec[0]) + ToBytes(vec[1..])
  }

  /** `np.frombuffer(blob, dtype=np.float32)` on a blob whose size is a multiple of 4. */
  function FromBytes(blob: seq<byte>): (r: seq<F32>)
    requires |blob| % 4 == 0
    ensures |r| == |blob| / 4
    decreases |blob|
  {
    if blob == [] then [] else [WordOf(blob[..4])] + FromBytes(blob[4..])
  }

  /** `pack_embedding`: the raw bytes and the vector length as `dim`. */
  function Pack(vec: seq<F32>): (r: (seq<byte>, nat))
    ensures r.1 == |vec|
    ensures |r.0| == 4 * r.1
  {
    (ToBytes(vec), |vec|)
  }

  /** numpy rejects a buffer whose size is not a multiple of the element size. */
  datatype UnpackError = BufferSizeNotMultipleOfElement

  /**
   * `unpack_embedding`: the stored `dim` is consulted but a mismatch is not an
   * error — the element count always comes from the blob.
   */
  function Unpack(blob: seq<byte>, dim: int): (r: Result<seq<F32>, UnpackError>)
    ensures r.Ok? <==> |blob| % 4 == 0
    ensures r.Ok? ==> |r.value| == |blob| / 4
  {
    if |blob| % 4 != 0 then Err(BufferSizeNotMultipleOfElement)
    else
      var arr := FromBytes(blob);
      if dim != 0 && |arr| != dim then Ok(arr) else Ok(arr)
  }

  lemma {:induction false} FromToBytes(vec: seq<F32>)
    ensures FromBytes(ToBytes(vec)) == vec
    decreases |vec|
  {
    if vec != [] {
      var blob := ToBytes(vec);
      assert blob[..4] == WordBytes(vec[0]);
      assert blob[4..] == ToBytes(vec[1..]);
      WordRoundTrip(vec[0]);
      FromToBytes(vec[1..]);
    }
  }

  /** Unpacking a packed vector gives it back, whatever `dim` is passed. */
  lemma PackUnpack(vec: seq<F32>, dim: int)
    ensures Unpack(Pack(vec).0, dim) == Ok(vec)
  {
    FromToBytes(vec);
  }
}

=== FILE: image_text.dfy ===
/** Image-to-text through the Ark Responses API: MIME guess, answer extraction and the None rules. */
module ImageText {
  import opened Wrappers
  import opened Text
  import opened JsonValue

  type Dict = map<string, Json>
  type Env = map<string, string>

  /** `_guess_mime_type`: by case-insensitive suffix, JPEG for everything else. */
  function GuessMime(path: string): (r: string)
    ensures EndsWith(Lower(path), ".png") ==> r == "image/png"
    ensures !EndsWith(Lower(path), ".png") && EndsWith(Lower(path), ".webp") ==> r == "image/webp"
    ensures !EndsWith(Lower(path), ".png") && !EndsWith(Lower(path), ".webp") && EndsWith(Lower(path), ".gif") ==>
      r == "image/gif"
    ensures r == "image/jpeg" <==>
      !EndsWith(Lower(path), ".png") && !EndsWith(Lower(path), ".webp") && !EndsWith(Lower(path), ".gif")
  {
    var lower := Lower(path);
    if EndsWith(lower, ".png") then "image/png"
    else if EndsWith(lower, ".webp") then "image/webp"
    else if EndsWith(lower, ".gif") then "image/gif"
    else "image/jpeg"
  }

  /** The MIME type depends only on the lower-cased path. */
  lemma GuessMimeIgnoresCase(a: string, b: string)
    requires Lower(a) == Lower(b)
    ensures GuessMime(a) == GuessMime(b)
  {
  }

  /** An upper-case suffix is recognised: `photo.PNG` is PNG. */
  lemma GuessMimeUpperCase(stem: string)
    ensures GuessMime(stem + ".PNG") == "image/png"
  {
    LowerConcat(stem, ".PNG");
    var up := Lower(".PNG");
    assert up == ".png" by {
      assert |up| == 4;
      assert up[0] == '.' && up[1] == 'p' && up[2] == 'n' && up[3] == 'g';
    }
    EndsWithAppend(Lower(stem), ".png");
  }

  /** A content block whose text counts: typed "output_text" or "text", with non-blank string text. */
  predicate TextBlock(block: Json)
  {
    && block.JObj?
    && (Get(block.fields, "type") == JStr("output_text") || Get(block.fields, "type") == JStr("text"))
    && Get(block.fields, "text").JStr?
    && !IsBlank(Get(block.fields, "text").s)
  }

  /**
   * A dict block whose `type` is a list or a dict: the membership test
   * `block.get("type") in {...}` hashes it and raises TypeError.
   */
  predicate BlockRaises(block: Json)
  {
    block.JObj? && (Get(block.fields, "type").JArr? || Get(block.fields, "type").JObj?)
  }

  /** Some block of the list raises. */
  predicate AnyBlockRaises(blocks: seq<Json>)
  {
    exists i :: 0 <= i < |blocks| && BlockRaises(blocks[i])
  }

  /** The content list of an output item, if it is a dict holding one. */
  function ContentOf(item: Json): seq<Json>
  {
    if item.JObj? && Get(item.fields, "content").JArr? then Get(item.fields, "content").items else []
  }

  /** Some block of some output item raises. */
  predicate AnyItemRaises(items: seq<Json>)
  {
    exists i :: 0 <= i < |items| && AnyBlockRaises(ContentOf(items[i]))
  }

  /** The text a qualifying block contributes. */
  function TextOf(block: Json): string
    requires TextBlock(block)
  {
    Strip(Get(block.fields, "text").s)
  }

  /** The stripped texts of the qualifying blocks of one content list, in order. */
  function BlockTexts(blocks: seq<Json>): (r: seq<string>)
    ensures |r| <= |blocks|
    ensures AllStripped(r)
    decreases |blocks|
  {
    if blocks == [] then []
    else
      var rest := BlockTexts(blocks[1..]);
      if TextBlock(blocks[0]) then
        var text := TextOf(blocks[0]);
        ConsStripped(text, rest);
        [text] + rest
      else rest
  }

  /** Where the first block's text goes. */
  lemma BlockTextsUnfold(blocks: seq<Json>)
    requires blocks != []
    ensures BlockTexts(blocks) == (if TextBlock(blocks[0]) then [TextOf(blocks[0])] else []) + BlockTexts(blocks[1..])
  {
  }

  /** Every qualifying block contributes its text. */
  lemma {:induction false} BlockTextsComplete(blocks: seq<Json>, i: int)
    requires 0 <= i < |blocks| && TextBlock(blocks[i])
    ensures TextOf(blocks[i]) in BlockTexts(blocks)
    decreases i
  {
    BlockTextsUnfold(blocks);
    if i > 0 {
      assert blocks[1..][i - 1] == blocks[i];
      BlockTextsComplete(blocks[1..], i - 1);
    }
  }

  /** Every text comes from a qualifying block: the one at index `i`. */
  lemma {:induction false} BlockTextsSound(blocks: seq<Json>, t: string) returns (i: int)
    requires t in BlockTexts(blocks)
    ensures 0 <= i < |blocks| && TextBlock(blocks[i]) && t == TextOf(blocks[i])
    decreases |blocks|
  {
    BlockTextsUnfold(blocks);
    if TextBlock(blocks[0]) && t == TextOf(blocks[0]) {
      i := 0;
    } else {
      var j := BlockTextsSound(blocks[1..], t);
      i := j + 1;
      assert blocks[i] == blocks[1..][j];
    }
  }

  /** The texts of all output items, in document order; malformed items are skipped. */
  function ItemTexts(items: seq<Json>): (r: seq<string>)
    ensures forall i :: 0 <= i < |r| ==> r[i] != "" && IsStripped(r[i])
    decreases |items|
  {
    if items == [] then []
    else BlockTexts(ContentOf(items[0])) + ItemTexts(items[1..])
  }

  /** Item texts distribute over concatenation: document order is kept. */
  lemma {:induction false} ItemTextsConcat(a: seq<Json>, b: seq<Json>)
    ensures ItemTexts(a + b) == ItemTexts(a) + ItemTexts(b)
    decreases |a|
  {
    if a == [] {
      assert a + b == b;
    } else {
      assert (a + b)[1..] == a[1..] + b;
      ItemTextsConcat(a[1..], b);
    }
  }

  /** Non-dict items and items without a content list contribute nothing. */
  lemma MalformedItemSkipped(item: Json)
    requires !item.JObj? || !Get(item.fields, "content").JArr?
    ensures ItemTexts([item]) == [] && !AnyItemRaises([item])
  {
  }

  /** Joining non-empty stripped parts gives a stripped string. */
  lemma JoinStripped(sep: string, parts: seq<string>)
    requires forall i :: 0 <= i < |parts| ==> parts[i] != "" && IsStripped(parts[i])
    ensures IsStripped(Join(sep, parts))
  {
    if |parts| > 0 {
      JoinEnds(sep, parts);
      var j := Join(sep, parts);
      var last := parts[|parts| - 1];
      assert j[0] == parts[0][0];
      assert j[|j| - 1] == j[|j| - |last|..][|last| - 1] == last[|last| - 1];
    }
  }

  /** A non-blank string `output_text`, which is returned ahead of everything else. */
  predicate OutputTextWins(payload: Dict)
  {
    Get(payload, "output_text").JStr? && !IsBlank(Get(payload, "output_text").s)
  }

  /**
   * `_extract_text_from_responses_payload`: a non-blank string `output_text`
   * wins; otherwise the qualifying block texts joined by newlines, or "".
   * None is the TypeError of a block whose `type` cannot be hashed.
   */
  function ExtractText(payload: Dict): (r: Option<string>)
    ensures r.Some? ==> IsStripped(r.value)
    ensures OutputTextWins(payload) ==> r == Some(Strip(Get(payload, "output_text").s))
    ensures !OutputTextWins(payload) ==>
      (r.None? <==> Get(payload, "output").JArr? && AnyItemRaises(Get(payload, "output").items))
    ensures !OutputTextWins(payload) && r.Some? ==>
      r.value == (if Get(payload, "output").JArr? then Join("\n", ItemTexts(Get(payload, "output").items)) else "")
  {
    var outputText := Get(payload, "output_text");
    if outputText.JStr? && Strip(outputText.s) != "" then Some(Strip(outputText.s))
    else
      var output := Get(payload, "output");
      if !output.JArr? then Some("")
      else if AnyItemRaises(output.items) then None
      else
        var texts := ItemTexts(output.items);
        JoinStripped("\n", texts);
        Some(if texts != [] then Join("\n", texts) else "")
  }

  /** A list-typed block raises even after a good block, and the whole extraction fails. */
  lemma UnhashableTypeExample()
    ensures var good := JObj(map["type" := JStr("text"), "text" := JStr("a")]);
      var bad := JObj(map["type" := JObj(map[]), "text" := JStr("b")]);
      ExtractText(map["output" := JArr([JObj(map["content" := JArr([good, bad])])])]).None?
  {
    var good := JObj(map["type" := JStr("text"), "text" := JStr("a")]);
    var bad := JObj(map["type" := JObj(map[]), "text" := JStr("b")]);
    var item := JObj(map["content" := JArr([good, bad])]);
    assert BlockRaises([good, bad][1]);
    assert AnyBlockRaises(ContentOf([item][0]));
  }

  /** An environment variable that is set to a non-empty value, so `or` takes it. */
  predicate SetNonEmpty(env: Env, key: string)
  {
    key in env && env[key] != ""
  }

  /** The model: the argument, else `ARK_VISION_MODEL`, else `ARK_MODEL`, else the default; empty values skip. */
  function VisionModel(model: Option<string>, env: Env): (r: string)
    ensures r != ""
    ensures model.Some? && model.value != "" ==> r == model.value
    ensures !(model.Some? && model.value != "") && SetNonEmpty(env, "ARK_VISION_MODEL") ==>
      r == env["ARK_VISION_MODEL"]
    ensures !(model.Some? && model.value != "") && !SetNonEmpty(env, "ARK_VISION_MODEL") && SetNonEmpty(env, "ARK_MODEL") ==>
      r == env["ARK_MODEL"]
    ensures !(model.Some? && model.value != "") && !SetNonEmpty(env, "ARK_VISION_MODEL") && !SetNonEmpty(env, "ARK_MODEL") ==>
      r == "doubao-seed-1-6-251015"
  {
    if model.Some? && model.value != "" then model.value
    else if SetNonEmpty(env, "ARK_VISION_MODEL") then env["ARK_VISION_MODEL"]
    else if SetNonEmpty(env, "ARK_MODEL") then env["ARK_MODEL"]
    else "doubao-seed-1-6-251015"
  }

  /** What the POST is made of (the base64 image body is not modelled). */
  datatype VisionRequest = VisionRequest(url: string, model: string, mime: string, authorization: string)

  /** The POST: it failed (HTTP error, transport, non-JSON body), or it returned a JSON body. */
  datatype PostOutcome = PostFailed | Body(data: Json)

  /** Reading the image happens outside the `try`, so its failure escapes. */
  datatype ImageError = ImageUnreadable

  /** The key from the environment, when it is set and non-empty. */
  predicate HasKey(env: Env)
  {
    "ARK_API_KEY" in env && env["ARK_API_KEY"] != ""
  }

  /** The request `image_to_text` posts: endpoint (default when unset), model, MIME type and bearer header. */
  function RequestFor(env: Env, imagePath: string, model: Option<string>): (req: VisionRequest)
    requires HasKey(env)
    ensures "ARK_RESPONSES_ENDPOINT" !in env ==> req.url == "https://ark.cn-beijing.volces.com/api/v3/responses"
    ensures "ARK_RESPONSES_ENDPOINT" in env ==> req.url == env["ARK_RESPONSES_ENDPOINT"]
    ensures req.authorization == "Bearer " + env["ARK_API_KEY"]
    ensures req.model == VisionModel(model, env) && req.mime == GuessMime(imagePath)
  {
    var url := if "ARK_RESPONSES_ENDPOINT" in env then env["ARK_RESPONSES_ENDPOINT"]
               else "https://ark.cn-beijing.volces.com/api/v3/responses";
    VisionRequest(url, VisionModel(model, env), GuessMime(imagePath), "Bearer " + env["ARK_API_KEY"])
  }

  /**
   * `image_to_text`: no key means `None` before any file is read; an
   * unreadable image raises; every failure after that, an extraction that
   * raises and an empty extraction are `None`.
   */
  function ImageToText(env: Env, imagePath: string, model: Option<string>, imageReadable: bool,
                       post: VisionRequest -> PostOutcome): (r: Result<Option<string>, ImageError>)
    ensures !HasKey(env) ==> r == Ok(None)
    ensures r.Err? <==> HasKey(env) && !imageReadable
    ensures r.Ok? && r.value.Some? ==> r.value.value != "" && IsStripped(r.value.value)
    ensures r.Ok? && r.value.Some? ==> (
      && HasKey(env) && imageReadable
      && post(RequestFor(env, imagePath, model)).Body?
      && post(RequestFor(env, imagePath, model)).data.JObj?
      && ExtractText(post(RequestFor(env, imagePath, model)).data.fields) == Some(r.value.value))
    ensures (HasKey(env) && imageReadable && !(post(RequestFor(env, imagePath, model)).Body?
             && post(RequestFor(env, imagePath, model)).data.JObj?)) ==> r == Ok(None)
    ensures HasKey(env) && imageReadable && post(RequestFor(env, imagePath, model)).Body?
            && post(RequestFor(env, imagePath, model)).data.JObj? ==>
      var e := ExtractText(post(RequestFor(env, imagePath, model)).data.fields);
      r == Ok(if e.None? || e.value == "" then None else e)
  {
    if !HasKey(env) then Ok(None)
    else if !imageReadable then Err(ImageUnreadable)
    else
      match post(RequestFor(env, imagePath, model))
      case PostFailed => Ok(None)
      case Body(data) =>
        if !data.JObj? then Ok(None)
        else
          var extracted := ExtractText(data.fields);
          Ok(if extracted.None? || extracted.value == "" then None else extracted)
  }
}

=== FILE: json.dfy ===
/** JSON values as Python's `json.loads` produces them, with Python truthiness. */
module JsonValue {

  /**
   * A decoded JSON value. Objects are maps (Python dict key order is not
   * modelled); numbers are integers.
   */
  datatype Json =
    | JNull
    | JBool(b: bool)
    | JInt(i: int)
    | JStr(s: string)
    | JArr(items: seq<Json>)
    | JObj(fields: map<string, Json>)

  /** Python's `bool(v)`: `None`, `False`, `0`, `""`, `[]` and `{}` are falsy. */
  predicate Truthy(j: Json) {
    match j
    case JNull => false
    case JBool(b) => b
    case JInt(i) => i != 0
    case JStr(s) => s != ""
    case JArr(a) => a != []
    case JObj(m) => m != map[]
  }

  /** `d.get(k)`: the value under `k`, or `None` when the key is missing. */
  function Get(m: map<string, Json>, k: string): Json {
    if k in m then m[k] else JNull
  }

  /** `d.setdefault(k, v)` as a value: `k` keeps its value if present, else gets `v`. */
  function SetDefault(m: map<string, Json>, k: string, v: Json): (r: map<string, Json>)
    ensures r.Keys == m.Keys + {k}
    ensures k in m ==> r == m
    ensures k !in m ==> r[k] == v
    ensures forall k' :: k' in m ==> r[k'] == m[k']
  {
    if k in m then m else m[k := v]
  }

  /**
   * Python's `str(v)` / f-string interpolation: exact for strings; for every
   * other value the rendering `show` is a parameter.
   */
  function ToText(j: Json, show: Json -> string): string {
    if j.JStr? then j.s else show(j)
  }
}

=== FILE: llm_config.dfy ===
/**
 * Provider selection for the shared LLM helper: the provider-name coercion,
 * the environment precedence ladder and the runtime override rule.
 */
module LlmConfig {
  import opened Wrappers
  import opened Text

  /** The supported chat-completion providers. */
  datatype Provider = Ark | Azure | Ollama

  /** A provider argument is either the enum itself or free text. */
  datatype ProviderArg = Named(provider: Provider) | Text(name: string)

  /** The enum's string value. */
  function ProviderValue(p: Provider): string
  {
    match p
    case Ark => "ark"
    case Azure => "azure"
    case Ollama => "ollama"
  }

  /** The spellings that are folded into "azure" before matching. */
  predicate IsAzureAlias(s: string)
  {
    s == "azure_openai" || s == "azure-openai" || s == "azureopenai"
  }

  /**
   * `_coerce_provider`: an enum is returned as is; text is stripped and
   * lower-cased, Azure aliases become "azure", and anything that is not
   * "azure" or "ollama" — the empty string included — means Ark.
   */
  function CoerceProvider(arg: ProviderArg): (r: Provider)
    ensures arg.Named? ==> r == arg.provider
    ensures arg.Text? ==>
      (r == Azure <==> Lower(Strip(arg.name)) == "azure" || IsAzureAlias(Lower(Strip(arg.name))))
    ensures arg.Text? ==> (r == Ollama <==> Lower(Strip(arg.name)) == "ollama")
  {
    match arg
    case Named(p) => p
    case Text(s) =>
      var normalized := Lower(Strip(s));
      var folded := if IsAzureAlias(normalized) then ProviderValue(Azure) else normalized;
      if folded == ProviderValue(Azure) then Azure
      else if folded == ProviderValue(Ollama) then Ollama
      else Ark
  }

  lemma NormalizedValue(p: Provider)
    ensures Lower(Strip(ProviderValue(p))) == ProviderValue(p)
  {
    var v := ProviderValue(p);
    assert |v| <= 6 && !IsSpace(v[0]) && !IsSpace(v[|v| - 1]);
    StripOfStripped(v);
    LowerOfNoUpper(v);
  }

  /** Each provider's own value coerces back to that provider. */
  lemma CoerceProviderValue(p: Provider)
    ensures CoerceProvider(Text(ProviderValue(p))) == p
  {
    var v := ProviderValue(p);
    NormalizedValue(p);
    assert !IsAzureAlias(v) by {
      assert |v| <= 6;
    }
    assert v == "azure" <==> p == Azure;
    assert v == "ollama" <==> p == Ollama;
  }

  /** Surrounding whitespace and letter case never change the coerced provider. */
  lemma CoerceProviderNormalizes(a: string, s: string, b: string)
    requires IsBlank(a) && IsBlank(b)
    ensures CoerceProvider(Text(a + Lower(s) + b)) == CoerceProvider(Text(s))
  {
    StripPadding(a, Lower(s), b);
    StripLowerCommute(s);
    LowerIdempotent(Strip(s));
  }

  /** The fields of `LLMSettings`; the request timeout is not modelled. */
  datatype Settings = Settings(
    provider: Provider,
    azureEndpoint: Option<string>,
    azureApiKey: Option<string>,
    azureApiVersion: Option<string>,
    azureDeployment: Option<string>,
    arkEndpoint: string,
    arkApiKey: Option<string>,
    arkModel: Option<string>,
    ollamaEndpoint: string,
    ollamaModel: string)

  const DefaultArkEndpoint: string := "https://ark.cn-beijing.volces.com/api/v3/chat/completions"
  const DefaultOllamaEndpoint: string := "http://100.69.97.8:11434"
  const DefaultOllamaModel: string := "gpt-oss:20b"
  const DefaultAzureApiVersion: string := "2024-04-01-preview"

  /** The process environment. */
  type Env = map<string, string>

  /** `os.getenv(k)`. */
  function GetEnv(env: Env, k: string): Option<string>
  {
    if k in env then Some(env[k]) else None
  }

  /** `os.getenv(k, default)`: the default applies only when `k` is absent. */
  function GetEnvOr(env: Env, k: string, default: string): string
  {
    if k in env then env[k] else default
  }

  /** `os.getenv(k)` is truthy: present and non-empty. */
  predicate EnvSet(env: Env, k: string)
  {
    k in env && env[k] != ""
  }

  /** The provider chosen by the precedence ladder of `_load_settings_from_env`. */
  function ProviderFromEnv(env: Env): (r: Provider)
    ensures EnvSet(env, "LLM_PROVIDER") ==> r == CoerceProvider(Text(env["LLM_PROVIDER"]))
    ensures !EnvSet(env, "LLM_PROVIDER") && EnvSet(env, "AI_PROVIDER") ==>
      r == CoerceProvider(Text(env["AI_PROVIDER"]))
  {
    var providerEnv := if EnvSet(env, "LLM_PROVIDER") then GetEnv(env, "LLM_PROVIDER") else GetEnv(env, "AI_PROVIDER");
    if providerEnv.Some? && providerEnv.value != "" then CoerceProvider(Text(providerEnv.value))
    else if EnvSet(env, "OLLAMA_ENDPOINT") || EnvSet(env, "OLLAMA_MODEL") then Ollama
    else if EnvSet(env, "ARK_API_KEY") then Ark
    else if EnvSet(env, "AZURE_OPENAI_API_KEY") && EnvSet(env, "AZURE_OPENAI_ENDPOINT") then Azure
    else Ark
  }

  /** No explicit provider name is configured. */
  predicate NoExplicitProvider(env: Env)
  {
    !EnvSet(env, "LLM_PROVIDER") && !EnvSet(env, "AI_PROVIDER")
  }

  /**
   * Without an explicit name, the credentials decide in a fixed order:
   * any Ollama variable, then an Ark key, then a complete Azure pair, else Ark.
   */
  lemma ProviderLadder(env: Env)
    requires NoExplicitProvider(env)
    ensures (EnvSet(env, "OLLAMA_ENDPOINT") || EnvSet(env, "OLLAMA_MODEL")) <==> ProviderFromEnv(env) == Ollama
    ensures ProviderFromEnv(env) == Azure <==>
      !EnvSet(env, "OLLAMA_ENDPOINT") && !EnvSet(env, "OLLAMA_MODEL") && !EnvSet(env, "ARK_API_KEY")
      && EnvSet(env, "AZURE_OPENAI_API_KEY") && EnvSet(env, "AZURE_OPENAI_ENDPOINT")
  {
  }

  /** An explicit name wins over every credential variable. */
  lemma ExplicitProviderWins(env: Env, k: string, v: string)
    requires k in {"OLLAMA_ENDPOINT", "OLLAMA_MODEL", "ARK_API_KEY", "AZURE_OPENAI_API_KEY", "AZURE_OPENAI_ENDPOINT"}
    requires !NoExplicitProvider(env)
    ensures ProviderFromEnv(env[k := v]) == ProviderFromEnv(env)
  {
    assert EnvSet(env[k := v], "LLM_PROVIDER") == EnvSet(env, "LLM_PROVIDER");
    assert EnvSet(env[k := v], "AI_PROVIDER") == EnvSet(env, "AI_PROVIDER");
  }

  /** `_load_settings_from_env`. */
  function LoadSettings(env: Env): (s: Settings)
    ensures s.provider == ProviderFromEnv(env)
    ensures s.azureEndpoint == GetEnv(env, "AZURE_OPENAI_ENDPOINT")
    ensures s.azureApiKey == GetEnv(env, "AZURE_OPENAI_API_KEY")
    ensures "AZURE_OPENAI_API_VERSION" in env ==> s.azureApiVersion == Some(env["AZURE_OPENAI_API_VERSION"])
    ensures "AZURE_OPENAI_API_VERSION" !in env ==> s.azureApiVersion == Some(DefaultAzureApiVersion)
    ensures "AZURE_OPENAI_DEPLOYMENT" in env ==> s.azureDeployment == Some(env["AZURE_OPENAI_DEPLOYMENT"])
    ensures "AZURE_OPENAI_DEPLOYMENT" !in env ==> s.azureDeployment == GetEnv(env, "AZURE_OPENAI_DEPLOYMENT_NAME")
    ensures "ARK_API_ENDPOINT" in env ==> s.arkEndpoint == env["ARK_API_ENDPOINT"]
    ensures "ARK_API_ENDPOINT" !in env ==> s.arkEndpoint == DefaultArkEndpoint
    ensures "ARK_API_KEY" !in env <==> s.arkApiKey.None?
    ensures "ARK_API_KEY" in env ==> s.arkApiKey == Some(env["ARK_API_KEY"])
    ensures "ARK_MODEL" !in env <==> s.arkModel.None?
    ensures "ARK_MODEL" in env ==> s.arkModel == Some(env["ARK_MODEL"])
    ensures "OLLAMA_ENDPOINT" in env ==> s.ollamaEndpoint == env["OLLAMA_ENDPOINT"]
    ensures "OLLAMA_ENDPOINT" !in env ==> s.ollamaEndpoint == DefaultOllamaEndpoint
    ensures "OLLAMA_MODEL" in env ==> s.ollamaModel == env["OLLAMA_MODEL"]
    ensures "OLLAMA_MODEL" !in env ==> s.ollamaModel == DefaultOllamaModel
  {
    Settings(
      provider := ProviderFromEnv(env),
      azureEndpoint := GetEnv(env, "AZURE_OPENAI_ENDPOINT"),
      azureApiKey := GetEnv(env, "AZURE_OPENAI_API_KEY"),
      azureApiVersion := Some(GetEnvOr(env, "AZURE_OPENAI_API_VERSION", DefaultAzureApiVersion)),
      azureDeployment :=
        if "AZURE_OPENAI_DEPLOYMENT" in env then Some(env["AZURE_OPENAI_DEPLOYMENT"])
        else GetEnv(env, "AZURE_OPENAI_DEPLOYMENT_NAME"),
      arkEndpoint := GetEnvOr(env, "ARK_API_ENDPOINT", DefaultArkEndpoint),
      arkApiKey := GetEnv(env, "ARK_API_KEY"),
      arkModel := GetEnv(env, "ARK_MODEL"),
      ollamaEndpoint := GetEnvOr(env, "OLLAMA_ENDPOINT", DefaultOllamaEndpoint),
      ollamaModel := GetEnvOr(env, "OLLAMA_MODEL", DefaultOllamaModel))
  }

  /** The keyword arguments of `configure_llm`; `None` means "not given". */
  datatype Overrides = Overrides(
    provider: Option<ProviderArg>,
    azureEndpoint: Option<string>,
    azureApiKey: Option<string>,
    azureApiVersion: Option<string>,
    azureDeployment: Option<string>,
    arkEndpoint: Option<string>,
    arkApiKey: Option<string>,
    arkModel: Option<string>,
    ollamaEndpoint: Option<string>,
    ollamaModel: Option<string>)

  const NoOverrides: Overrides := Overrides(None, None, None, None, None, None, None, None, None, None)

  /** An optional setting takes the override when one is given. */
  function OverrideOpt(current: Option<string>, arg: Option<string>): (r: Option<string>)
    ensures arg.Some? ==> r == arg
    ensures arg.None? ==> r == current
  {
    if arg.Some? then arg else current
  }

  /** `configure_llm`: reload from the environment, then apply every given argument. */
  function ConfigureLlm(env: Env, ov: Overrides): (s: Settings)
    ensures var base := LoadSettings(env);
      && s.provider == (if ov.provider.Some? then CoerceProvider(ov.provider.value) else base.provider)
      && s.azureEndpoint == (if ov.azureEndpoint.Some? then ov.azureEndpoint else base.azureEndpoint)
      && s.azureApiKey == (if ov.azureApiKey.Some? then ov.azureApiKey else base.azureApiKey)
      && s.azureApiVersion == (if ov.azureApiVersion.Some? then ov.azureApiVersion else base.azureApiVersion)
      && s.azureDeployment == (if ov.azureDeployment.Some? then ov.azureDeployment else base.azureDeployment)
      && s.arkEndpoint == ov.arkEndpoint.GetOr(base.arkEndpoint)
      && s.arkApiKey == (if ov.arkApiKey.Some? then ov.arkApiKey else base.arkApiKey)
      && s.arkModel == (if ov.arkModel.Some? then ov.arkModel else base.arkModel)
      && s.ollamaEndpoint == ov.ollamaEndpoint.GetOr(base.ollamaEndpoint)
      && s.ollamaModel == ov.ollamaModel.GetOr(base.ollamaModel)
  {
    var base := LoadSettings(env);
    base.(
      provider := if ov.provider.Some? then CoerceProvider(ov.provider.value) else base.provider,
      azureEndpoint := OverrideOpt(base.azureEndpoint, ov.azureEndpoint),
      azureApiKey := OverrideOpt(base.azureApiKey, ov.azureApiKey),
      azureApiVersion := OverrideOpt(base.azureApiVersion, ov.azureApiVersion),
      azureDeployment := OverrideOpt(base.azureDeployment, ov.azureDeployment),
      arkEndpoint := ov.arkEndpoint.GetOr(base.arkEndpoint),
      arkApiKey := OverrideOpt(base.arkApiKey, ov.arkApiKey),
      arkModel := OverrideOpt(base.arkModel, ov.arkModel),
      ollamaEndpoint := ov.ollamaEndpoint.GetOr(base.ollamaEndpoint),
      ollamaModel := ov.ollamaModel.GetOr(base.ollamaModel))
  }

  /** With no arguments, `configure_llm` installs exactly the environment's settings. */
  lemma ConfigureWithoutOverrides(env: Env)
    ensures ConfigureLlm(env, NoOverrides) == LoadSettings(env)
  {
  }

  /** Omitting the provider keeps the environment's choice, whatever credentials are passed. */
  lemma ConfigureKeepsEnvProvider(env: Env, ov: Overrides)
    requires ov.provider.None?
    ensures ConfigureLlm(env, ov).provider == ProviderFromEnv(env)
  {
  }

  /**
   * The provider a call uses: `provider or settings.provider`, coerced. An
   * empty provider string is falsy and defers to the settings.
   */
  function ActiveProvider(arg: Option<ProviderArg>, settings: Settings): (r: Provider)
    ensures (arg.None? || arg.value == Text("")) ==> r == settings.provider
    ensures arg.Some? && arg.value.Named? ==> r == arg.value.provider
    ensures arg.Some? && arg.value.Text? && arg.value.name != "" ==> r == CoerceProvider(arg.value)
  {
    match arg
    case Some(Text(s)) => if s != "" then CoerceProvider(Text(s)) else CoerceProvider(Named(settings.provider))
    case Some(Named(p)) => CoerceProvider(Named(p))
    case None => CoerceProvider(Named(settings.provider))
  }
}

=== FILE: llm_payload.dfy ===
/** Request shaping for the Ollama and Ark chat-completion calls. */
module LlmPayload {
  import opened Wrappers
  import opened Text
  import opened JsonValue
  import opened LlmConfig

  /** A JSON object / Python dict. */
  type Dict = map<string, Json>

  /** `_clean_dict`: drop the keys whose value is `None`, keep every other pair. */
  function CleanDict(payload: Dict): (r: Dict)
    ensures forall k :: k in r <==> k in payload && payload[k] != JNull
    ensures forall k :: k in r ==> r[k] == payload[k]
  {
    map k | k in payload && payload[k] != JNull :: payload[k]
  }

  /** Cleaning leaves nothing to clean. */
  lemma CleanDictIdempotent(payload: Dict)
    ensures CleanDict(CleanDict(payload)) == CleanDict(payload)
  {
  }

  /** `dict.update(extra)`: the extra pairs win. */
  function Update(m: Dict, extra: Dict): (r: Dict)
    ensures r.Keys == m.Keys + extra.Keys
    ensures forall k :: k in extra ==> r[k] == extra[k]
    ensures forall k :: k in m && k !in extra ==> r[k] == m[k]
  {
    m + extra
  }

  // ---------------------------------------------------------------------
  // Ollama

  /** A message Ollama receives: a truthy role and some content that is not `None`. */
  predicate Forwarded(msg: Dict)
  {
    Truthy(Get(msg, "role")) && Get(msg, "content") != JNull
  }

  /** The `{role, content}` pair Ollama receives for a forwarded message. */
  function OllamaMessage(msg: Dict, show: Json -> string): (r: Dict)
    ensures r.Keys == {"role", "content"}
    ensures r["role"] == Get(msg, "role")
    ensures r["content"].JStr?
  {
    map["role" := Get(msg, "role"), "content" := JStr(ToText(Get(msg, "content"), show))]
  }

  /**
   * The Ollama message list: the forwarded messages, in order, each reduced to
   * its role and its content converted to a string.
   */
  function OllamaMessages(msgs: seq<Dict>, show: Json -> string): (r: seq<Dict>)
    ensures |r| <= |msgs|
    ensures forall i :: 0 <= i < |r| ==>
      r[i].Keys == {"role", "content"} && Truthy(r[i]["role"]) && r[i]["content"].JStr?
    decreases |msgs|
  {
    if msgs == [] then []
    else
      var rest := OllamaMessages(msgs[1..], show);
      if Forwarded(msgs[0]) then [OllamaMessage(msgs[0], show)] + rest else rest
  }

  /** The filter distributes over concatenation, so it keeps the original order. */
  lemma {:induction false} OllamaMessagesConcat(a: seq<Dict>, b: seq<Dict>, show: Json -> string)
    ensures OllamaMessages(a + b, show) == OllamaMessages(a, show) + OllamaMessages(b, show)
    decreases |a|
  {
    if a == [] {
      assert a + b == b;
    } else {
      assert (a + b)[1..] == a[1..] + b;
      OllamaMessagesConcat(a[1..], b, show);
    }
  }

  /** One message is kept, converted, exactly when it is forwarded. */
  lemma OllamaMessagesSingle(m: Dict, show: Json -> string)
    ensures Forwarded(m) ==> OllamaMessages([m], show) == [OllamaMessage(m, show)]
    ensures !Forwarded(m) ==> OllamaMessages([m], show) == []
  {
    assert [m][1..] == [];
  }

  /**
   * Ollama `options`: only the parameters that are not `None`, with
   * `max_tokens` renamed to `num_predict`.
   */
  function OllamaOptions(temperature: Json, topP: Json, maxTokens: Json): (o: Dict)
    ensures o.Keys <= {"temperature", "top_p", "num_predict"}
    ensures "temperature" in o <==> temperature != JNull
    ensures "top_p" in o <==> topP != JNull
    ensures "num_predict" in o <==> maxTokens != JNull
    ensures forall k :: k in o ==> o[k] != JNull
    ensures "temperature" in o ==> o["temperature"] == temperature
    ensures "top_p" in o ==> o["top_p"] == topP
    ensures "num_predict" in o ==> o["num_predict"] == maxTokens
  {
    var o0: Dict := map[];
    var o1 := if temperature != JNull then o0["temperature" := temperature] else o0;
    var o2 := if topP != JNull then o1["top_p" := topP] else o1;
    if maxTokens != JNull then o2["num_predict" := maxTokens] else o2
  }

  /** `model or default`: an empty or missing model name defers to the default. */
  function ModelOr(model: Option<string>, default: Json): Json
  {
    if model.Some? && model.value != "" then JStr(model.value) else default
  }

  /** A list of dicts as a JSON array. */
  function ArrayOf(ds: seq<Dict>): (j: Json)
    ensures j.JArr? && |j.items| == |ds|
    ensures forall i :: 0 <= i < |ds| ==> j.items[i] == JObj(ds[i])
  {
    JArr(seq(|ds|, i requires 0 <= i < |ds| => JObj(ds[i])))
  }

  /** `if extra_body: payload.update(extra_body)` followed by `_clean_dict`. */
  function Finish(payload: Dict, extraBody: Dict): (p: Dict)
    ensures forall k :: k in p ==> p[k] != JNull
    ensures forall k :: k in extraBody && extraBody[k] != JNull ==> k in p && p[k] == extraBody[k]
    ensures forall k :: k in p && k !in extraBody ==> k in payload && p[k] == payload[k]
    ensures forall k :: k !in extraBody && k in payload && payload[k] != JNull ==> k in p
  {
    CleanDict(if extraBody != map[] then Update(payload, extraBody) else payload)
  }

  /** The Ollama payload before `extra_body` and cleaning. */
  function OllamaBase(
    settings: Settings, msgs: seq<Dict>, model: Option<string>,
    temperature: Json, topP: Json, maxTokens: Json, show: Json -> string): (p: Dict)
    ensures p.Keys == {"model", "messages", "stream", "options"}
    ensures p["model"] == JStr(if model.Some? && model.value != "" then model.value else settings.ollamaModel)
    ensures p["messages"] == ArrayOf(OllamaMessages(msgs, show))
    ensures p["stream"] == JBool(false)
    ensures p["options"] != JNull <==> temperature != JNull || topP != JNull || maxTokens != JNull
    ensures p["options"] != JNull ==> p["options"] == JObj(OllamaOptions(temperature, topP, maxTokens))
  {
    var options := OllamaOptions(temperature, topP, maxTokens);
    assert temperature != JNull ==> "temperature" in options;
    assert topP != JNull ==> "top_p" in options;
    assert maxTokens != JNull ==> "num_predict" in options;
    map[
      "model" := ModelOr(model, JStr(settings.ollamaModel)),
      "messages" := ArrayOf(OllamaMessages(msgs, show)),
      "stream" := JBool(false),
      "options" := if options != map[] then JObj(options) else JNull]
  }

  /**
   * The cleaned payload of `_chat_completion_ollama`. `extraBody` stands for
   * `extra_body`; `None` and `{}` are both falsy and behave as the empty map.
   */
  function OllamaPayload(
    settings: Settings, msgs: seq<Dict>, model: Option<string>,
    temperature: Json, topP: Json, maxTokens: Json, extraBody: Dict, show: Json -> string): (p: Dict)
    ensures forall k :: k in p ==> p[k] != JNull
    ensures forall k :: k in extraBody && extraBody[k] != JNull ==> k in p && p[k] == extraBody[k]
    ensures forall k :: k in p && k !in extraBody ==> k in {"model", "messages", "stream", "options"}
    ensures "model" !in extraBody ==>
      "model" in p && p["model"] == JStr(if model.Some? && model.value != "" then model.value else settings.ollamaModel)
    ensures "stream" !in extraBody ==> "stream" in p && p["stream"] == JBool(false)
    ensures "messages" !in extraBody ==> "messages" in p && p["messages"] == ArrayOf(OllamaMessages(msgs, show))
    ensures "options" !in extraBody ==>
      ("options" in p <==> temperature != JNull || topP != JNull || maxTokens != JNull)
    ensures "options" !in extraBody && "options" in p ==> p["options"] == JObj(OllamaOptions(temperature, topP, maxTokens))
  {
    Finish(OllamaBase(settings, msgs, model, temperature, topP, maxTokens, show), extraBody)
  }

  /** `f"{(endpoint or '').rstrip('/')}/api/chat"`. */
  function OllamaUrl(endpoint: string): (url: string)
    ensures EndsWith(url, "/api/chat")
    ensures var base := url[..|url| - |"/api/chat"|];
      |base| <= |endpoint| && base == endpoint[..|base|] && (base == [] || base[|base| - 1] != '/')
    ensures var base := url[..|url| - |"/api/chat"|];
      forall i :: |base| <= i < |endpoint| ==> endpoint[i] == '/'
  {
    RStripChar(endpoint, '/') + "/api/chat"
  }

  /** Trailing slashes on the endpoint never change the URL. */
  lemma {:induction false} OllamaUrlTrailingSlash(endpoint: string)
    ensures OllamaUrl(endpoint + "/") == OllamaUrl(endpoint)
  {
    assert (endpoint + "/")[..|endpoint + "/"| - 1] == endpoint;
  }

  // ---------------------------------------------------------------------
  // Ark

  /** The HTTP request `_chat_completion_ark` sends. */
  datatype ArkRequest = ArkRequest(url: string, authorization: string, payload: Dict)

  /** Raised before any request when no Ark key is configured. */
  datatype ArkError = ArkApiKeyNotConfigured

  /** The keys the Ark payload is built from, before `extra_body`. */
  const ArkKeys: set<string> :=
    {"model", "messages", "temperature", "max_tokens", "top_p", "response_format", "tools", "tool_choice"}

  /** The keys whose argument is passed to Ark unchanged. */
  const PassedKeys: set<string> := {"messages", "max_tokens", "top_p", "tools", "tool_choice"}

  /** The argument that goes under one of `PassedKeys`. */
  function PassedArg(k: string, messages: Json, maxTokens: Json, topP: Json, tools: Json, toolChoice: Json): Json
  {
    if k == "messages" then messages
    else if k == "max_tokens" then maxTokens
    else if k == "top_p" then topP
    else if k == "tools" then tools
    else toolChoice
  }

  /**
   * `_chat_completion_ark` up to the POST: a falsy key is an error;
   * otherwise the payload carries the non-`None` parameters, `response_format`
   * is always dropped (only `extra_body` can put it back), and the header is
   * "Bearer " + key.
   */
  function ArkRequestFor(
    settings: Settings, messages: Json, model: Option<string>, responseFormat: Json,
    temperature: Json, maxTokens: Json, topP: Json, tools: Json, toolChoice: Json,
    extraBody: Dict): (r: Result<ArkRequest, ArkError>)
    ensures r.Err? <==> settings.arkApiKey.None? || settings.arkApiKey.value == ""
    ensures r.Ok? ==> r.value.authorization == "Bearer " + settings.arkApiKey.value
    ensures r.Ok? ==> r.value.url == settings.arkEndpoint
    ensures r.Ok? ==> forall k :: k in r.value.payload ==> r.value.payload[k] != JNull
    ensures r.Ok? ==> forall k :: k in r.value.payload ==> k in ArkKeys || k in extraBody
    ensures r.Ok? ==>
      ("response_format" in r.value.payload <==> "response_format" in extraBody && extraBody["response_format"] != JNull)
    ensures r.Ok? && "temperature" !in extraBody ==>
      ("temperature" in r.value.payload <==> temperature != JNull)
    ensures r.Ok? && "temperature" !in extraBody && temperature != JNull ==>
      r.value.payload["temperature"] == temperature
    ensures r.Ok? ==> forall k :: k in PassedKeys && k !in extraBody ==>
      var arg := PassedArg(k, messages, maxTokens, topP, tools, toolChoice);
      (k in r.value.payload <==> arg != JNull) && (k in r.value.payload ==> r.value.payload[k] == arg)
    ensures r.Ok? && "model" !in extraBody && model.Some? && model.value != "" ==>
      "model" in r.value.payload && r.value.payload["model"] == JStr(model.value)
    ensures r.Ok? && "model" !in extraBody && !(model.Some? && model.value != "") ==>
      ("model" in r.value.payload <==> settings.arkModel.Some?)
      && (settings.arkModel.Some? ==> r.value.payload["model"] == JStr(settings.arkModel.value))
  {
    if settings.arkApiKey.None? || settings.arkApiKey.value == "" then Err(ArkApiKeyNotConfigured)
    else
      var payload := ArkBase(settings, messages, model, temperature, maxTokens, topP, tools, toolChoice);
      Ok(ArkRequest(settings.arkEndpoint, "Bearer " + settings.arkApiKey.value, Finish(payload, extraBody)))
  }

  /** The Ark payload before `extra_body` and cleaning; `response_format` is always `None`. */
  function ArkBase(
    settings: Settings, messages: Json, model: Option<string>,
    temperature: Json, maxTokens: Json, topP: Json, tools: Json, toolChoice: Json): (p: Dict)
    ensures p.Keys == ArkKeys
    ensures p["response_format"] == JNull
    ensures p["temperature"] == temperature
    ensures forall k :: k in PassedKeys ==> p[k] == PassedArg(k, messages, maxTokens, topP, tools, toolChoice)
    ensures model.Some? && model.value != "" ==> p["model"] == JStr(model.value)
    ensures !(model.Some? && model.value != "") ==>
      p["model"] == (if settings.arkModel.Some? then JStr(settings.arkModel.value) else JNull)
  {
    var arkModel := if settings.arkModel.Some? then JStr(settings.arkModel.value) else JNull;
    map[
      "model" := ModelOr(model, arkModel),
      "messages" := messages,
      "temperature" := temperature,
      "max_tokens" := maxTokens,
      "top_p" := topP,
      "response_format" := JNull,
      "tools" := tools,
      "tool_choice" := toolChoice]
  }

  /** Without `extra_body`, whatever `response_format` the caller passes never reaches Ark. */
  lemma ArkDropsResponseFormat(
    settings: Settings, messages: Json, model: Option<string>, responseFormat: Json,
    temperature: Json, maxTokens: Json, topP: Json, tools: Json, toolChoice: Json)
    requires settings.arkApiKey.Some? && settings.arkApiKey.value != ""
    ensures var r := ArkRequestFor(settings, messages, model, responseFormat, temperature, maxTokens, topP, tools, toolChoice, map[]);
      r.Ok? && "response_format" !in r.value.payload
      && r == ArkRequestFor(settings, messages, model, JNull, temperature, maxTokens, topP, tools, toolChoice, map[])
  {
  }
}

=== FILE: message_rows.dfy ===
/**
 * Rows of the `messages` table and the ordering facts the retention cull of
 * app/database.py rests on: "newer" is a strict total order on rows with
 * distinct ids, so ranking a chat's rows by how many rows are newer selects
 * exactly the newest ones.
 */
module MessageRows {

  /** One row of `messages(id, chat_id, username, content, timestamp)`. */
  datatype Row = Row(id: nat, chatId: int, username: string, content: string, timestamp: nat)

  function Min(a: nat, b: nat): nat {
    if a <= b then a else b
  }

  /** The rows of `s` satisfying `p`, in table order. */
  function Filter(s: seq<Row>, p: Row -> bool): (r: seq<Row>)
    ensures |r| <= |s|
    ensures forall x :: x in r <==> x in s && p(x)
    ensures IdsIncreasing(s) ==> IdsIncreasing(r)
    decreases |s|
  {
    if s == [] then []
    else
      var rest := Filter(s[1..], p);
      assert forall x :: x in rest ==> x in s[1..];
      if p(s[0]) then
        assert IdsIncreasing(s) ==> IdsIncreasing([s[0]] + rest) by {
          if IdsIncreasing(s) {
            forall k | 0 <= k < |rest| ensures s[0].id < rest[k].id {
              assert rest[k] in s[1..];
            }
          }
        }
        [s[0]] + rest
      else rest
  }

  /** Ids strictly increase along the table (AUTOINCREMENT insertion order). */
  predicate IdsIncreasing(s: seq<Row>) {
    forall i, j :: 0 <= i < j < |s| ==> s[i].id < s[j].id
  }

  /** Filtering twice, where the second test implies the first, is filtering once. */
  lemma {:induction false} FilterFilterWeaker(s: seq<Row>, p: Row -> bool, q: Row -> bool)
    requires forall x :: q(x) ==> p(x)
    ensures Filter(Filter(s, p), q) == Filter(s, q)
    decreases |s|
  {
    if s != [] {
      FilterFilterWeaker(s[1..], p, q);
    }
  }

  /** Filtering a concatenation filters each part. */
  lemma {:induction false} FilterConcat(a: seq<Row>, b: seq<Row>, p: Row -> bool)
    ensures Filter(a + b, p) == Filter(a, p) + Filter(b, p)
    decreases |a|
  {
    if a == [] {
      assert a + b == b;
    } else {
      assert (a + b)[1..] == a[1..] + b;
      FilterConcat(a[1..], b, p);
    }
  }

  /** With increasing ids no row has a twin with the same id. */
  lemma IncreasingDistinct(s: seq<Row>, S: set<Row>)
    requires IdsIncreasing(s)
    requires forall x :: x in S ==> x in s
    ensures DistinctIds(S)
  {
    forall a, b | a in S && b in S && a.id == b.id ensures a == b {
      var i :| 0 <= i < |s| && s[i] == a;
      var j :| 0 <= j < |s| && s[j] == b;
      assert i == j;
    }
  }

  /** With increasing ids a table holds no row twice, so it has as many rows as distinct rows. */
  lemma {:induction false} IncreasingCard(s: seq<Row>)
    requires IdsIncreasing(s)
    ensures |set x | x in s| == |s|
    decreases |s|
  {
    if s != [] {
      IncreasingCard(s[1..]);
      var tail := set x | x in s[1..];
      assert (set x | x in s) == {s[0]} + tail;
      assert s[0] !in tail;
    }
  }

  /** `a` sorts before `b` under `ORDER BY timestamp DESC`, ties broken by the larger id. */
  predicate Newer(a: Row, b: Row) {
    a.timestamp > b.timestamp || (a.timestamp == b.timestamp && a.id > b.id)
  }

  /** No two distinct rows of `S` share an id. */
  predicate DistinctIds(S: set<Row>) {
    forall a, b :: a in S && b in S && a.id == b.id ==> a == b
  }

  /** The rows of `S` newer than `x`. */
  function NewerIn(S: set<Row>, x: Row): set<Row> {
    set y | y in S && Newer(y, x)
  }

  lemma SubsetCardLess<T>(A: set<T>, B: set<T>)
    requires A <= B && A != B
    ensures |A| < |B|
  {
    var extra := B - A;
    assert B == A + extra;
    assert A * extra == {};
    var e :| e in B && e !in A;
    assert e in extra;
  }

  lemma SubsetCard<T>(A: set<T>, B: set<T>)
    requires A <= B
    ensures |A| <= |B|
  {
    if A != B {
      SubsetCardLess(A, B);
    }
  }

  /** A newer row has strictly fewer rows newer than itself. */
  lemma RankStrict(S: set<Row>, a: Row, b: Row)
    requires a in S && Newer(a, b)
    ensures |NewerIn(S, a)| < |NewerIn(S, b)|
  {
    assert NewerIn(S, a) <= NewerIn(S, b);
    assert a in NewerIn(S, b) && a !in NewerIn(S, a);
    SubsetCardLess(NewerIn(S, a), NewerIn(S, b));
  }

  /** A non-empty set of rows with distinct ids has an oldest row. */
  lemma {:induction false} OldestExists(K: set<Row>) returns (m: Row)
    requires K != {} && DistinctIds(K)
    ensures m in K
    ensures forall y :: y in K && y != m ==> Newer(y, m)
    decreases |K|
  {
    var x :| x in K;
    if K == {x} {
      m := x;
    } else {
      var m' := OldestExists(K - {x});
      assert x.id != m'.id;
      if Newer(x, m') {
        m := m';
      } else {
        m := x;
        forall y | y in K && y != m ensures Newer(y, m) {
          if y != m' {
            assert Newer(y, m');
          }
        }
      }
    }
  }

  /** A non-empty set of rows with distinct ids has a newest row. */
  lemma {:induction false} NewestExists(D: set<Row>) returns (m: Row)
    requires D != {} && DistinctIds(D)
    ensures m in D
    ensures forall y :: y in D && y != m ==> Newer(m, y)
    decreases |D|
  {
    var x :| x in D;
    if D == {x} {
      m := x;
    } else {
      var m' := NewestExists(D - {x});
      assert x.id != m'.id;
      if Newer(x, m') {
        m := x;
        forall y | y in D && y != m ensures Newer(m, y) {
          if y != m' {
            assert Newer(m', y);
          }
        }
      } else {
        m := m';
      }
    }
  }

  /** The rows of `S` with fewer than `keep` newer rows. */
  function Kept(S: set<Row>, keep: nat): set<Row> {
    set x | x in S && |NewerIn(S, x)| < keep
  }

  /** Keeping the rows ranked below `keep` keeps exactly `min(|S|, keep)` rows. */
  lemma KeptCount(S: set<Row>, keep: nat)
    requires DistinctIds(S)
    ensures |Kept(S, keep)| == Min(|S|, keep)
  {
    var K := Kept(S, keep);
    SubsetCard(K, S);
    if |K| > keep {
      var m := OldestExists(K);
      assert K - {m} <= NewerIn(S, m);
      SubsetCard(K - {m}, NewerIn(S, m));
      assert false;
    }
    if |K| < keep && |K| < |S| {
      var D := S - K;
      assert D != {};
      var M := NewestExists(D);
      assert NewerIn(S, M) <= K;
      SubsetCard(NewerIn(S, M), K);
      assert false;
    }
  }

  /** Every kept row is newer than every row that was not kept. */
  lemma KeptNewerThanDropped(S: set<Row>, keep: nat, r: Row, d: Row)
    requires DistinctIds(S)
    requires r in Kept(S, keep) && d in S && d !in Kept(S, keep)
    ensures Newer(r, d)
  {
    if Newer(d, r) {
      RankStrict(S, d, r);
      assert false;
    }
  }
}

=== FILE: message_store.dfy ===
/**
 * The per-chat message history of app/database.py: `add_message` inserts a row
 * and culls the chat back to its `MESSAGE_REVIEW_BACK` newest rows;
 * `get_messages` lists up to that many rows of one chat in ascending time
 * order, formatted as text.
 */
module MessageStore {
  import opened MessageRows

  /** `MESSAGE_REVIEW_BACK`: rows kept per chat, and the `LIMIT` of `get_messages`. */
  const MessageReviewBack: nat := 50

  /**
   * The `messages` table in insertion order, and SQLite's AUTOINCREMENT
   * counter: the largest id ever handed out, deleted rows included.
   */
  datatype Store = Store(rows: seq<Row>, seqNo: nat)

  /** What every reachable table satisfies: ids increase and never exceed the counter. */
  predicate Valid(st: Store) {
    && IdsIncreasing(st.rows)
    && (forall x :: x in st.rows ==> 0 < x.id <= st.seqNo)
  }

  /** The freshly created table. */
  const Empty: Store := Store([], 0)

  function InChat(c: int): Row -> bool {
    (x: Row) => x.chatId == c
  }

  function NotInChat(c: int): Row -> bool {
    (x: Row) => x.chatId != c
  }

  /** `WHERE chat_id = c`, in table order. */
  function ChatRows(rows: seq<Row>, c: int): seq<Row> {
    Filter(rows, InChat(c))
  }

  /** The rows of every other chat, in table order. */
  function OtherRows(rows: seq<Row>, c: int): seq<Row> {
    Filter(rows, NotInChat(c))
  }

  function ChatSet(rows: seq<Row>, c: int): set<Row> {
    set x | x in rows && x.chatId == c
  }

  /**
   * What the `DELETE` of `add_message` may leave behind, whatever order SQLite
   * gives rows with equal timestamps: no row is added or altered, every other
   * chat is untouched, the chat keeps `min(n, keep)` rows, and no kept row is
   * older than a deleted one.
   */
  ghost predicate IsRetentionCull(before: seq<Row>, after: seq<Row>, c: int, keep: nat) {
    && (forall x :: x in after ==> x in before)
    && OtherRows(after, c) == OtherRows(before, c)
    && |ChatRows(after, c)| == Min(|ChatRows(before, c)|, keep)
    && (forall r, d ::
          r in after && r.chatId == c && d in before && d.chatId == c && d !in after ==>
            r.timestamp >= d.timestamp)
  }

  /** A row survives the cull when fewer than `keep` rows of its chat sort before it. */
  function Survives(rows: seq<Row>, c: int, keep: nat): Row -> bool {
    (x: Row) => x.chatId != c || |NewerIn(ChatSet(rows, c), x)| < keep
  }

  /**
   * `DELETE FROM messages WHERE id IN (SELECT id ... WHERE chat_id = c ORDER BY
   * timestamp DESC LIMIT -1 OFFSET keep)`, with ties ordered by the larger id
   * (one of the orders SQLite may use).
   */
  function Cull(rows: seq<Row>, c: int, keep: nat): (r: seq<Row>)
    requires IdsIncreasing(rows)
    ensures IdsIncreasing(r)
    ensures IsRetentionCull(rows, r, c, keep)
  {
    var r := Filter(rows, Survives(rows, c, keep));
    CullOthers(rows, c, keep);
    CullCount(rows, c, keep);
    CullOrder(rows, c, keep);
    r
  }

  /** Every row of another chat survives the cull. */
  lemma CullOthers(rows: seq<Row>, c: int, keep: nat)
    ensures OtherRows(Filter(rows, Survives(rows, c, keep)), c) == OtherRows(rows, c)
  {
    FilterFilterWeaker(rows, Survives(rows, c, keep), NotInChat(c));
  }

  /** The chat's survivors are exactly its rows ranked below `keep`. */
  lemma CullChatSet(rows: seq<Row>, c: int, keep: nat)
    ensures (set x | x in ChatRows(Filter(rows, Survives(rows, c, keep)), c)) == Kept(ChatSet(rows, c), keep)
  {
    var r := Filter(rows, Survives(rows, c, keep));
    var S := ChatSet(rows, c);
    forall x | x in ChatRows(r, c) ensures x in Kept(S, keep) {
      assert x in r && InChat(c)(x);
      assert Survives(rows, c, keep)(x);
    }
    forall x | x in Kept(S, keep) ensures x in ChatRows(r, c) {
      assert Survives(rows, c, keep)(x);
      assert x in r;
      assert InChat(c)(x);
    }
  }

  lemma CullCount(rows: seq<Row>, c: int, keep: nat)
    requires IdsIncreasing(rows)
    ensures |ChatRows(Filter(rows, Survives(rows, c, keep)), c)| == Min(|ChatRows(rows, c)|, keep)
  {
    var r := Filter(rows, Survives(rows, c, keep));
    var S := ChatSet(rows, c);
    IncreasingDistinct(rows, S);
    CullChatSet(rows, c, keep);
    assert (set x | x in ChatRows(rows, c)) == S;
    IncreasingCard(ChatRows(r, c));
    IncreasingCard(ChatRows(rows, c));
    KeptCount(S, keep);
  }

  lemma CullOrder(rows: seq<Row>, c: int, keep: nat)
    requires IdsIncreasing(rows)
    ensures var r := Filter(rows, Survives(rows, c, keep));
      forall a, d | a in r && a.chatId == c && d in rows && d.chatId == c && d !in r :: a.timestamp >= d.timestamp
  {
    var r := Filter(rows, Survives(rows, c, keep));
    var S := ChatSet(rows, c);
    IncreasingDistinct(rows, S);
    forall a, d | a in r && a.chatId == c && d in rows && d.chatId == c && d !in r
      ensures a.timestamp >= d.timestamp
    {
      assert Survives(rows, c, keep)(a);
      assert !Survives(rows, c, keep)(d);
      KeptNewerThanDropped(S, keep, a, d);
    }
  }

  /**
   * `add_message`: insert a row with the next AUTOINCREMENT id and timestamp
   * `now`, then cull the chat. Returns the new table and the new row's id.
   */
  function AddMessage(st: Store, chatId: int, username: string, content: string, now: nat): (r: (Store, nat))
    requires Valid(st)
    ensures Valid(r.0)
    ensures r.1 == st.seqNo + 1 == r.0.seqNo
    ensures forall x :: x in st.rows ==> x.id < r.1
    ensures |ChatRows(r.0.rows, chatId)| <= MessageReviewBack
    ensures OtherRows(r.0.rows, chatId) == OtherRows(st.rows, chatId)
    ensures IsRetentionCull(st.rows + [Row(r.1, chatId, username, content, now)], r.0.rows, chatId, MessageReviewBack)
  {
    var id := st.seqNo + 1;
    var inserted := st.rows + [Row(id, chatId, username, content, now)];
    assert IdsIncreasing(inserted) by {
      forall i, j | 0 <= i < j < |inserted| ensures inserted[i].id < inserted[j].id {
        if j == |inserted| - 1 {
          assert inserted[i] in st.rows;
        }
      }
    }
    var rows := Cull(inserted, chatId, MessageReviewBack);
    FilterConcat(st.rows, [Row(id, chatId, username, content, now)], NotInChat(chatId));
    (Store(rows, id), id)
  }

  /**
   * Under any admissible cull, a row strictly newer than every other row of its
   * chat is kept.
   */
  lemma NewestSurvives(before: seq<Row>, after: seq<Row>, c: int, keep: nat, x: Row)
    requires IsRetentionCull(before, after, c, keep) && keep >= 1
    requires x in before && x.chatId == c
    requires forall y :: y in before && y.chatId == c && y != x ==> y.timestamp < x.timestamp
    ensures x in after
  {
    assert x in ChatRows(before, c);
    var ca := ChatRows(after, c);
    assert |ca| >= 1;
    var r := ca[0];
    assert r in after && InChat(c)(r);
    if r != x {
      assert r.timestamp < x.timestamp;
    }
  }

  /** When the clock has moved past every stored timestamp, the new message is never culled. */
  lemma AddKeepsNewMessage(st: Store, chatId: int, username: string, content: string, now: nat)
    requires Valid(st)
    requires forall y :: y in st.rows ==> y.timestamp < now
    ensures
      var (st', id) := AddMessage(st, chatId, username, content, now);
      Row(id, chatId, username, content, now) in st'.rows
  {
    var (st', id) := AddMessage(st, chatId, username, content, now);
    var x := Row(id, chatId, username, content, now);
    NewestSurvives(st.rows + [x], st'.rows, chatId, MessageReviewBack, x);
  }

  // ---------------------------------------------------------------------------
  // get_messages

  predicate SortedByTime(s: seq<Row>) {
    forall i, j :: 0 <= i < j < |s| ==> s[i].timestamp <= s[j].timestamp
  }

  function InsertByTime(x: Row, s: seq<Row>): (r: seq<Row>)
    requires SortedByTime(s)
    ensures SortedByTime(r)
    ensures multiset(r) == multiset(s) + multiset{x}
    ensures |r| == |s| + 1
    ensures forall y :: y in r ==> y == x || y in s
    decreases |s|
  {
    if s == [] then [x]
    else if x.timestamp <= s[0].timestamp then [x] + s
    else
      SortedTail(s);
      var rest := InsertByTime(x, s[1..]);
      HeadBelow(s, x, rest);
      ConsSorted(s[0], rest);
      assert s == [s[0]] + s[1..];
      [s[0]] + rest
  }

  lemma SortedTail(s: seq<Row>)
    requires SortedByTime(s) && s != []
    ensures SortedByTime(s[1..])
  {
    var t := s[1..];
    forall i, j | 0 <= i < j < |t| ensures t[i].timestamp <= t[j].timestamp {
      assert t[i] == s[i + 1] && t[j] == s[j + 1];
    }
  }

  lemma HeadBelow(s: seq<Row>, x: Row, rest: seq<Row>)
    requires SortedByTime(s) && s != [] && s[0].timestamp < x.timestamp
    requires forall y :: y in rest ==> y == x || y in s[1..]
    ensures forall y :: y in rest ==> s[0].timestamp <= y.timestamp
  {
    forall y | y in rest ensures s[0].timestamp <= y.timestamp {
      if y != x {
        var j :| 0 <= j < |s[1..]| && s[1..][j] == y;
        assert s[j + 1] == y;
      }
    }
  }

  lemma ConsSorted(h: Row, rest: seq<Row>)
    requires SortedByTime(rest)
    requires forall y :: y in rest ==> h.timestamp <= y.timestamp
    ensures SortedByTime([h] + rest)
  {
    var r := [h] + rest;
    forall i, j | 0 <= i < j < |r| ensures r[i].timestamp <= r[j].timestamp {
      if i == 0 {
        assert r[j] == rest[j - 1];
        assert rest[j - 1] in rest;
      }
    }
  }

  /** `ORDER BY timestamp ASC` (rows with equal timestamps in some order). */
  function SortByTime(s: seq<Row>): (r: seq<Row>)
    ensures SortedByTime(r)
    ensures multiset(r) == multiset(s)
    ensures |r| == |s|
    decreases |s|
  {
    if s == [] then []
    else
      assert s == [s[0]] + s[1..];
      InsertByTime(s[0], SortByTime(s[1..]))
  }

  /**
   * The rows `get_messages` selects: the chat's rows in ascending time order,
   * cut to the first `MESSAGE_REVIEW_BACK`. They come from the chat, are
   * sorted, number `min(n, 50)`, and no row left out is older than a row
   * selected.
   */
  function SelectRows(st: Store, c: int): (r: seq<Row>)
    ensures |r| == Min(|ChatRows(st.rows, c)|, MessageReviewBack)
    ensures SortedByTime(r)
    ensures multiset(r) <= multiset(ChatRows(st.rows, c))
    ensures forall x :: x in r ==> x in st.rows && x.chatId == c
    ensures forall x, i ::
      x in multiset(ChatRows(st.rows, c)) - multiset(r) && 0 <= i < |r| ==> r[i].timestamp <= x.timestamp
  {
    var chat := ChatRows(st.rows, c);
    var sorted := SortByTime(chat);
    var k := Min(|sorted|, MessageReviewBack);
    SortedPrefix(sorted, k);
    forall x | x in sorted[..k] ensures x in st.rows && x.chatId == c {
      assert x in multiset(sorted);
      assert x in chat;
      assert InChat(c)(x);
    }
    sorted[..k]
  }

  /** A prefix of a time-sorted sequence holds its oldest rows. */
  lemma SortedPrefix(s: seq<Row>, k: nat)
    requires SortedByTime(s) && k <= |s|
    ensures SortedByTime(s[..k])
    ensures multiset(s[..k]) <= multiset(s)
    ensures forall x, i :: x in multiset(s) - multiset(s[..k]) && 0 <= i < k ==> s[i].timestamp <= x.timestamp
  {
    assert s == s[..k] + s[k..];
    assert multiset(s) == multiset(s[..k]) + multiset(s[k..]);
    forall x, i | x in multiset(s) - multiset(s[..k]) && 0 <= i < k
      ensures s[i].timestamp <= x.timestamp
    {
      assert x in multiset(s[k..]);
      var j :| 0 <= j < |s[k..]| && s[k..][j] == x;
      assert s[k + j] == x;
    }
  }

  /** One entry of `get_messages`: `f"username: {u} \n content: {c} \n time: {t}"`. */
  function FormatRow(r: Row, showTime: nat -> string): (out: string)
    ensures var head := "username: " + r.username; |head| <= |out| && out[..|head|] == head
    ensures var tail := " \n time: " + showTime(r.timestamp); |tail| <= |out| && out[|out| - |tail|..] == tail
    ensures |out| == |"username: "| + |r.username| + |" \n content: "| + |r.content| + |" \n time: "| + |showTime(r.timestamp)|
    ensures var h := |"username: " + r.username|; out[h..h + |" \n content: "|] == " \n content: "
    ensures var i := |"username: " + r.username + " \n content: "|;
      i + |r.content| <= |out| && out[i..i + |r.content|] == r.content
  {
    "username: " + r.username + " \n content: " + r.content + " \n time: " + showTime(r.timestamp)
  }

  /**
   * `get_messages(chat_id)`; `showTime` renders a stored timestamp as SQLite's
   * datetime text. At most `MESSAGE_REVIEW_BACK` entries, one per selected
   * row, in ascending time order; an empty chat yields no entries.
   */
  function GetMessages(st: Store, c: int, showTime: nat -> string): (out: seq<string>)
    ensures |out| <= MessageReviewBack
    ensures |ChatRows(st.rows, c)| == 0 ==> out == []
    ensures |out| == |SelectRows(st, c)|
    ensures forall i :: 0 <= i < |out| ==> out[i] == FormatRow(SelectRows(st, c)[i], showTime)
  {
    var rows := SelectRows(st, c);
    seq(|rows|, i requires 0 <= i < |rows| => FormatRow(rows[i], showTime))
  }

  /**
   * After `add_message` with a clock past every stored timestamp, the last
   * entry `get_messages` returns for that chat is the new message.
   */
  lemma AddThenGetEndsWithNew(st: Store, chatId: int, username: string, content: string, now: nat,
                              showTime: nat -> string)
    requires Valid(st)
    requires forall y :: y in st.rows ==> y.timestamp < now
    ensures
      var (st', id) := AddMessage(st, chatId, username, content, now);
      var out := GetMessages(st', chatId, showTime);
      |out| > 0 && out[|out| - 1] == FormatRow(Row(id, chatId, username, content, now), showTime)
  {
    var (st', id) := AddMessage(st, chatId, username, content, now);
    var x := Row(id, chatId, username, content, now);
    AddKeepsNewMessage(st, chatId, username, content, now);
    assert forall y :: y in st'.rows ==> y in st.rows + [x];
    LastEntryIsNewest(st', chatId, x, showTime);
  }

  /** In a chat of at most 50 rows, a row newer than all others is listed last. */
  lemma LastEntryIsNewest(st: Store, c: int, x: Row, showTime: nat -> string)
    requires x in st.rows && x.chatId == c
    requires |ChatRows(st.rows, c)| <= MessageReviewBack
    requires forall y :: y in st.rows && y != x ==> y.timestamp < x.timestamp
    ensures var out := GetMessages(st, c, showTime);
      |out| > 0 && out[|out| - 1] == FormatRow(x, showTime)
  {
    var chat := ChatRows(st.rows, c);
    var sel := SelectRows(st, c);
    SelectsWholeSmallChat(st, c);
    assert x in chat;
    assert x in sel by {
      assert x in multiset(chat);
    }
    assert forall y :: y in sel ==> y in st.rows;
    NewestIsLast(sel, x);
    GetMessagesLast(st, c, showTime, x);
  }

  /** The last entry formats the last selected row. */
  lemma GetMessagesLast(st: Store, c: int, showTime: nat -> string, x: Row)
    requires |SelectRows(st, c)| > 0 && SelectRows(st, c)[|SelectRows(st, c)| - 1] == x
    ensures var out := GetMessages(st, c, showTime);
      |out| > 0 && out[|out| - 1] == FormatRow(x, showTime)
  {
    var sel := SelectRows(st, c);
    var out := GetMessages(st, c, showTime);
    assert out[|sel| - 1] == FormatRow(sel[|sel| - 1], showTime);
  }

  /** In a time-sorted sequence, the strictly newest row is the last one. */
  lemma NewestIsLast(s: seq<Row>, x: Row)
    requires SortedByTime(s) && x in s
    requires forall y :: y in s && y != x ==> y.timestamp < x.timestamp
    ensures s[|s| - 1] == x
  {
    var k :| 0 <= k < |s| && s[k] == x;
    if k < |s| - 1 {
      assert s[k].timestamp <= s[|s| - 1].timestamp;
    }
  }

  /** A chat of at most `MESSAGE_REVIEW_BACK` rows is listed in full. */
  lemma SelectsWholeSmallChat(st: Store, c: int)
    requires |ChatRows(st.rows, c)| <= MessageReviewBack
    ensures multiset(SelectRows(st, c)) == multiset(ChatRows(st.rows, c))
  {
    var A := multiset(SelectRows(st, c));
    var B := multiset(ChatRows(st.rows, c));
    assert B == A + (B - A);
    assert |B - A| == 0;
  }
}

=== FILE: prescription.dfy ===
/**
 * The prescription generator's deterministic parts: validation and
 * defaulting of the model's JSON answer, the medicine TeX blocks, and the
 * parameter guards of the JPG conversion.
 */
module Prescription {
  import opened Wrappers
  import opened Text
  import opened JsonValue

  type Dict = map<string, Json>

  // ---------------------------------------------------------------------
  // Python string ordering, for the sorted list of missing fields

  /** Python's `a < b` on strings: lexicographic by code point. */
  predicate StrLess(a: string, b: string)
    decreases |a|
  {
    if a == [] then b != []
    else if b == [] then false
    else if a[0] != b[0] then a[0] < b[0]
    else StrLess(a[1..], b[1..])
  }

  predicate StrictlySorted(s: seq<string>)
  {
    forall i, j :: 0 <= i < j < |s| ==> StrLess(s[i], s[j])
  }

  /** The required top-level fields, already in sorted order. */
  const RequiredFields: seq<string> := ["doctor", "hospital_name", "medicines", "patient", "watermark"]

  lemma RequiredFieldsSorted()
    ensures StrictlySorted(RequiredFields)
  {
  }

  /** The entries of `keys`, in order, that `payload` lacks. */
  function MissingFrom(keys: seq<string>, payload: Dict): (r: seq<string>)
    ensures forall k :: k in r <==> k in keys && k !in payload
    ensures StrictlySorted(keys) ==> StrictlySorted(r)
    decreases |keys|
  {
    if keys == [] then []
    else
      var rest := MissingFrom(keys[1..], payload);
      SortedTail(keys);
      if keys[0] !in payload then
        HeadBelowRest(keys, rest);
        [keys[0]] + rest
      else rest
  }

  lemma SortedTail(keys: seq<string>)
    requires |keys| > 0
    ensures StrictlySorted(keys) ==> StrictlySorted(keys[1..])
  {
    if StrictlySorted(keys) {
      SortedTailOf(keys);
    }
  }

  lemma SortedTailOf(keys: seq<string>)
    requires |keys| > 0 && StrictlySorted(keys)
    ensures StrictlySorted(keys[1..])
  {
    forall i, j | 0 <= i < j < |keys[1..]|
      ensures StrLess(keys[1..][i], keys[1..][j])
    {
      assert keys[1..][i] == keys[i + 1] && keys[1..][j] == keys[j + 1];
    }
  }

  /** A sorted list's head precedes every element drawn from its tail. */
  lemma HeadBelowRest(keys: seq<string>, rest: seq<string>)
    requires |keys| > 0
    requires forall k :: k in rest ==> k in keys[1..]
    ensures StrictlySorted(keys) && StrictlySorted(rest) ==> StrictlySorted([keys[0]] + rest)
  {
    if StrictlySorted(keys) && StrictlySorted(rest) {
      HeadBelowRestOf(keys, rest);
    }
  }

  lemma HeadBelowRestOf(keys: seq<string>, rest: seq<string>)
    requires |keys| > 0 && StrictlySorted(keys) && StrictlySorted(rest)
    requires forall k :: k in rest ==> k in keys[1..]
    ensures StrictlySorted([keys[0]] + rest)
  {
    var r := [keys[0]] + rest;
    forall i, j | 0 <= i < j < |r|
      ensures StrLess(r[i], r[j])
    {
      if i > 0 {
        assert r[i] == rest[i - 1] && r[j] == rest[j - 1];
      } else {
        assert r[j] == rest[j - 1];
        assert r[j] in keys[1..];
        var t :| 0 <= t < |keys[1..]| && keys[1..][t] == r[j];
        assert keys[t + 1] == r[j];
      }
    }
  }

  // ---------------------------------------------------------------------
  // Validation

  datatype PrescriptionError =
    | InvalidJson          // json.loads failed
    | NotAnObject          // the answer has no .keys()
    | MissingFields(names: seq<string>)
    | PatientNotObject
    | DoctorNotObject
    | NoMedicines
    | MedicineNotObject

  predicate IsObject(j: Json) { j.JObj? }

  /** Every required top-level field is present. */
  predicate HasRequired(payload: Dict)
  {
    && "doctor" in payload && "hospital_name" in payload && "medicines" in payload
    && "patient" in payload && "watermark" in payload
  }

  /** The medicine list is a non-empty list. */
  predicate HasMedicineList(payload: Dict)
    requires HasRequired(payload)
  {
    payload["medicines"].JArr? && payload["medicines"].items != []
  }

  /** The shape every accepted answer has. */
  predicate WellShaped(payload: Dict)
  {
    && HasRequired(payload)
    && payload["patient"].JObj?
    && payload["doctor"].JObj?
    && payload["medicines"].JArr? && payload["medicines"].items != []
    && (forall i :: 0 <= i < |payload["medicines"].items| ==> payload["medicines"].items[i].JObj?)
  }

  /** Nothing is missing exactly when every required field is present. */
  lemma MissingIffAbsent(payload: Dict)
    ensures MissingFrom(RequiredFields, payload) == [] <==> HasRequired(payload)
    ensures (exists k :: k in RequiredFields && k !in payload) <==> !HasRequired(payload)
  {
    var missing := MissingFrom(RequiredFields, payload);
    var fs := RequiredFields;
    if !HasRequired(payload) {
      var i := if "doctor" !in payload then 0 else if "hospital_name" !in payload then 1
        else if "medicines" !in payload then 2 else if "patient" !in payload then 3 else 4;
      assert fs[i] in fs && fs[i] !in payload;
      assert fs[i] in missing;
    } else {
      forall k | k in fs ensures k in payload {
        RequiredFieldCases(k);
      }
    }
  }

  /** A required field is one of the five names. */
  lemma RequiredFieldCases(k: string)
    requires k in RequiredFields
    ensures k == "doctor" || k == "hospital_name" || k == "medicines" || k == "patient" || k == "watermark"
  {
  }


  /** The checks after the missing-field test, in their order. */
  function ShapeError(payload: Dict): (r: Option<PrescriptionError>)
    requires HasRequired(payload)
    ensures r.None? <==> WellShaped(payload)
    ensures r.Some? ==> !r.value.MissingFields?
    ensures r == Some(PatientNotObject) <==> !payload["patient"].JObj?
    ensures r == Some(DoctorNotObject) <==> payload["patient"].JObj? && !payload["doctor"].JObj?
    ensures r == Some(NoMedicines) <==> payload["patient"].JObj? && payload["doctor"].JObj? && !HasMedicineList(payload)
    ensures r == Some(MedicineNotObject) <==>
      payload["patient"].JObj? && payload["doctor"].JObj? && HasMedicineList(payload)
      && exists i :: 0 <= i < |payload["medicines"].items| && !payload["medicines"].items[i].JObj?
  {
    if !payload["patient"].JObj? then Some(PatientNotObject)
    else if !payload["doctor"].JObj? then Some(DoctorNotObject)
    else if !HasMedicineList(payload) then Some(NoMedicines)
    else if exists i :: 0 <= i < |payload["medicines"].items| && !payload["medicines"].items[i].JObj? then
      Some(MedicineNotObject)
    else None
  }

  /**
   * The checks of `generate_med`, in their order: missing fields (listed
   * sorted), then the patient, the doctor, the medicine list and its entries.
   */
  function Check(payload: Dict): (r: Option<PrescriptionError>)
    ensures r.None? <==> WellShaped(payload)
    ensures (exists k :: k in RequiredFields && k !in payload) <==> r.Some? && r.value.MissingFields?
    ensures r.Some? && r.value.MissingFields? ==>
      StrictlySorted(r.value.names)
      && forall k :: k in r.value.names <==> k in RequiredFields && k !in payload
    ensures r == Some(PatientNotObject) <==> HasRequired(payload) && !payload["patient"].JObj?
    ensures r == Some(DoctorNotObject) <==>
      HasRequired(payload) && payload["patient"].JObj? && !payload["doctor"].JObj?
    ensures r == Some(NoMedicines) <==>
      HasRequired(payload) && payload["patient"].JObj? && payload["doctor"].JObj? && !HasMedicineList(payload)
    ensures r == Some(MedicineNotObject) <==>
      HasRequired(payload) && payload["patient"].JObj? && payload["doctor"].JObj? && HasMedicineList(payload)
      && exists i :: 0 <= i < |payload["medicines"].items| && !payload["medicines"].items[i].JObj?
  {
    var missing := MissingFrom(RequiredFields, payload);
    RequiredFieldsSorted();
    MissingIffAbsent(payload);
    if missing != [] then Some(MissingFields(missing))
    else ShapeError(payload)
  }

  // ---------------------------------------------------------------------
  // Defaulting

  const DefaultDepartment: string := "精神科综合门诊"
  const DefaultFeeType: string := "自费"
  const DefaultDoctorName: string := "孙致连"

  /** The fallback date, 2025-10-11, as strings. */
  const DefaultDate: Dict := map["year" := JStr("2025"), "month" := JStr("10"), "day" := JStr("11")]

  /** A patient id as `random.choices("0123456789", k=10)` produces it. */
  predicate IsTenDigits(s: string)
  {
    |s| == 10 && forall i :: 0 <= i < |s| ==> '0' <= s[i] <= '9'
  }

  /** Replace a falsy (or missing) entry `k` by `v`. */
  function FillFalsy(m: Dict, k: string, v: Json): (r: Dict)
    ensures r.Keys == m.Keys + {k}
    ensures Truthy(Get(m, k)) ==> r == m
    ensures !Truthy(Get(m, k)) ==> r[k] == v
    ensures forall k' :: k' in m && k' != k ==> r[k'] == m[k']
  {
    if Truthy(Get(m, k)) then m else m[k := v]
  }

  /** A non-object date becomes the default date; an object has its falsy parts filled. */
  function FillDate(date: Json): (r: Dict)
    ensures {"year", "month", "day"} <= r.Keys
    ensures Truthy(r["year"]) && Truthy(r["month"]) && Truthy(r["day"])
    ensures !date.JObj? ==> r == DefaultDate
    ensures date.JObj? ==> r.Keys == date.fields.Keys + {"year", "month", "day"}
    ensures date.JObj? ==> forall k :: k in date.fields && Truthy(date.fields[k]) ==> r[k] == date.fields[k]
    ensures date.JObj? ==> forall k :: k in date.fields && k !in {"year", "month", "day"} ==> r[k] == date.fields[k]
    ensures date.JObj? && !Truthy(Get(date.fields, "year")) ==> r["year"] == JStr("2025")
    ensures date.JObj? && !Truthy(Get(date.fields, "month")) ==> r["month"] == JStr("10")
    ensures date.JObj? && !Truthy(Get(date.fields, "day")) ==> r["day"] == JStr("11")
  {
    if !date.JObj? then DefaultDate
    else FillFalsy(FillFalsy(FillFalsy(date.fields, "year", JStr("2025")), "month", JStr("10")), "day", JStr("11"))
  }

  /** A patient key other than the four that normalisation fills. */
  predicate OtherPatientKey(k: string)
  {
    k != "department" && k != "id" && k != "fee_type" && k != "date"
  }

  /** The first three steps of patient normalisation: department, id, fee type. */
  function FillPatientFields(patient: Dict, freshId: string): (r: Dict)
    ensures r.Keys == patient.Keys + {"department", "id", "fee_type"}
    ensures "department" in patient ==> Get(r, "department") == Get(patient, "department")
    ensures "department" !in patient ==> Get(r, "department") == JStr(DefaultDepartment)
    ensures "fee_type" in patient ==> Get(r, "fee_type") == Get(patient, "fee_type")
    ensures "fee_type" !in patient ==> Get(r, "fee_type") == JStr(DefaultFeeType)
    ensures Truthy(Get(patient, "id")) ==> Get(r, "id") == Get(patient, "id")
    ensures !Truthy(Get(patient, "id")) ==> Get(r, "id") == JStr(freshId)
    ensures forall k :: k in patient && k != "department" && k != "id" && k != "fee_type" ==> r[k] == patient[k]
  {
    var p1 := SetDefault(patient, "department", JStr(DefaultDepartment));
    assert Get(p1, "id") == Get(patient, "id");
    var p2 := FillFalsy(p1, "id", JStr(freshId));
    assert Get(p2, "fee_type") == Get(patient, "fee_type");
    SetDefault(p2, "fee_type", JStr(DefaultFeeType))
  }

  /** `m[k] = v`. */
  function Put(m: Dict, k: string, v: Json): (r: Dict)
    ensures r.Keys == m.Keys + {k}
    ensures Get(r, k) == v
    ensures forall j :: j in m && j != k ==> r[j] == m[j]
  {
    m[k := v]
  }

  lemma PutDateKeys(patient: Dict, p: Dict, r: Dict)
    requires p.Keys == patient.Keys + {"department", "id", "fee_type"}
    requires r.Keys == p.Keys + {"date"}
    ensures r.Keys == patient.Keys + {"department", "id", "fee_type", "date"}
  {
  }

  lemma PutDateKeeps(patient: Dict, p: Dict, r: Dict)
    requires forall k :: k in patient && k != "department" && k != "id" && k != "fee_type" ==> k in p && p[k] == patient[k]
    requires forall j :: j in p && j != "date" ==> j in r && r[j] == p[j]
    ensures forall k :: k in patient && OtherPatientKey(k) ==> k in r && r[k] == patient[k]
  {
  }

  /** The patient object after normalisation: the date is filled, every other key but the three defaults is kept. */
  function NormalizePatient(patient: Dict, freshId: string): (r: Dict)
    ensures r.Keys == patient.Keys + {"department", "id", "fee_type", "date"}
    ensures Get(r, "date") == JObj(FillDate(Get(patient, "date")))
    ensures forall k :: k in patient && OtherPatientKey(k) ==> r[k] == patient[k]
  {
    var p := FillPatientFields(patient, freshId);
    var r := Put(p, "date", JObj(FillDate(Get(patient, "date"))));
    PutDateKeys(patient, p, r);
    PutDateKeeps(patient, p, r);
    r
  }

  /** Department and fee type get their defaults only when absent; a falsy id is replaced by the fresh one. */
  lemma PatientDefaults(patient: Dict, freshId: string)
    ensures var r := NormalizePatient(patient, freshId);
      && ("department" in patient ==> Get(r, "department") == Get(patient, "department"))
      && ("department" !in patient ==> Get(r, "department") == JStr(DefaultDepartment))
      && ("fee_type" in patient ==> Get(r, "fee_type") == Get(patient, "fee_type"))
      && ("fee_type" !in patient ==> Get(r, "fee_type") == JStr(DefaultFeeType))
      && (Truthy(Get(patient, "id")) ==> Get(r, "id") == Get(patient, "id"))
      && (!Truthy(Get(patient, "id")) ==> Get(r, "id") == JStr(freshId))
  {
  }

  function NormalizeDoctor(doctor: Dict): (r: Dict)
    ensures r.Keys == doctor.Keys + {"name", "fee"}
    ensures forall k :: k in doctor ==> r[k] == doctor[k]
    ensures "name" !in doctor ==> r["name"] == JStr(DefaultDoctorName)
    ensures "fee" !in doctor ==> r["fee"] == JStr("")
  {
    SetDefault(SetDefault(doctor, "name", JStr(DefaultDoctorName)), "fee", JStr(""))
  }

  function NormalizeMedicine(med: Dict): (r: Dict)
    ensures r.Keys == med.Keys + {"name", "quantity", "usage"}
    ensures forall k :: k in med ==> r[k] == med[k]
    ensures forall k :: k in {"name", "quantity", "usage"} && k !in med ==> r[k] == JStr("")
  {
    SetDefault(SetDefault(SetDefault(med, "name", JStr("")), "quantity", JStr("")), "usage", JStr(""))
  }

  function NormalizeMedicines(items: seq<Json>): (r: seq<Json>)
    requires forall i :: 0 <= i < |items| ==> items[i].JObj?
    ensures |r| == |items|
    ensures forall i :: 0 <= i < |r| ==> r[i] == JObj(NormalizeMedicine(items[i].fields))
  {
    seq(|items|, i requires 0 <= i < |items| => JObj(NormalizeMedicine(items[i].fields)))
  }

  /** The payload with its patient, doctor and medicines replaced, nothing else touched. */
  function Replace(payload: Dict, patient: Json, doctor: Json, medicines: Json): (r: Dict)
    requires "patient" in payload && "doctor" in payload && "medicines" in payload
    ensures r.Keys == payload.Keys
    ensures forall k :: k in payload && k != "patient" && k != "doctor" && k != "medicines" ==> r[k] == payload[k]
    ensures r["patient"] == patient && r["doctor"] == doctor && r["medicines"] == medicines
  {
    payload["patient" := patient]["doctor" := doctor]["medicines" := medicines]
  }

  /**
   * The `setdefault` chain after the checks. (`payload.setdefault("watermark", "")`
   * is a no-op: the field is required.)
   */
  function Normalize(payload: Dict, freshId: string): (r: Dict)
    requires WellShaped(payload)
    ensures r.Keys == payload.Keys
    ensures forall k :: k in payload && k != "patient" && k != "doctor" && k != "medicines" ==> r[k] == payload[k]
    ensures r["patient"] == JObj(NormalizePatient(payload["patient"].fields, freshId))
    ensures r["doctor"] == JObj(NormalizeDoctor(payload["doctor"].fields))
    ensures r["medicines"] == JArr(NormalizeMedicines(payload["medicines"].items))
  {
    Replace(payload,
      JObj(NormalizePatient(payload["patient"].fields, freshId)),
      JObj(NormalizeDoctor(payload["doctor"].fields)),
      JArr(NormalizeMedicines(payload["medicines"].items)))
  }

  /**
   * `generate_med` after the model call: `parsed` is the outcome of
   * `json.loads` (`None` when it raised) and `freshId` the random id.
   */
  function GenerateMed(parsed: Option<Json>, freshId: string): (r: Result<Dict, PrescriptionError>)
    requires IsTenDigits(freshId)
    ensures parsed.None? ==> r == Err(InvalidJson)
    ensures r == Err(NotAnObject) <==> parsed.Some? && !parsed.value.JObj?
    ensures r.Ok? <==> parsed.Some? && parsed.value.JObj? && WellShaped(parsed.value.fields)
    ensures parsed.Some? && parsed.value.JObj? && Check(parsed.value.fields).Some? ==>
      r == Err(Check(parsed.value.fields).value)
    ensures r.Ok? ==> r.value == Normalize(parsed.value.fields, freshId)
    ensures r.Ok? ==> r.value.Keys == parsed.value.fields.Keys && WellShaped(r.value)
    ensures r.Ok? ==> |r.value["medicines"].items| == |parsed.value.fields["medicines"].items|
  {
    match parsed
    case None => Err(InvalidJson)
    case Some(j) =>
      if !j.JObj? then Err(NotAnObject)
      else CheckAndNormalize(j.fields, freshId)
  }

  /** The checks on a parsed object, then the defaults. */
  function CheckAndNormalize(payload: Dict, freshId: string): (r: Result<Dict, PrescriptionError>)
    requires IsTenDigits(freshId)
    ensures r.Ok? <==> WellShaped(payload)
    ensures r.Err? ==> Check(payload) == Some(r.error) && r.error != InvalidJson && r.error != NotAnObject
    ensures r.Ok? ==> r.value == Normalize(payload, freshId)
    ensures r.Ok? ==> r.value.Keys == payload.Keys && WellShaped(r.value)
    ensures r.Ok? ==> |r.value["medicines"].items| == |payload["medicines"].items|
  {
    match Check(payload)
    case Some(e) => Err(e)
    case None =>
      NormalizeWellShaped(payload, freshId);
      Ok(Normalize(payload, freshId))
  }

  /** Every normalised medicine has a name, a quantity and a usage. */
  lemma MedicinesHaveFields(parsed: Option<Json>, freshId: string, i: int)
    requires IsTenDigits(freshId)
    requires GenerateMed(parsed, freshId).Ok?
    requires 0 <= i < |GenerateMed(parsed, freshId).value["medicines"].items|
    ensures var m := GenerateMed(parsed, freshId).value["medicines"].items[i];
      m.JObj? && {"name", "quantity", "usage"} <= m.fields.Keys
  {
  }

  lemma FillDateIdempotent(date: Json)
    ensures FillDate(JObj(FillDate(date))) == FillDate(date)
  {
  }

  lemma PatientIdempotent(patient: Dict, id1: string, id2: string)
    requires IsTenDigits(id1)
    ensures NormalizePatient(NormalizePatient(patient, id1), id2) == NormalizePatient(patient, id1)
  {
    var p := NormalizePatient(patient, id1);
    PatientDefaults(patient, id1);
    assert Truthy(Get(p, "id"));
    FillDateIdempotent(Get(patient, "date"));
    NormalizedPatientFixed(p, id2);
  }

  /** A patient that already has every default is left as it is. */
  lemma NormalizedPatientFixed(p: Dict, id: string)
    requires "department" in p && "fee_type" in p && Truthy(Get(p, "id"))
    requires "date" in p && p["date"].JObj? && FillDate(p["date"]) == p["date"].fields
    ensures NormalizePatient(p, id) == p
  {
    var q := NormalizePatient(p, id);
    PatientDefaults(p, id);
    assert q.Keys == p.Keys;
    forall k | k in p
      ensures q[k] == p[k]
    {
      if k == "department" || k == "fee_type" || k == "id" {
        assert Get(q, k) == Get(p, k);
      } else if k == "date" {
        assert Get(q, "date") == JObj(FillDate(Get(p, "date")));
      }
    }
  }

  lemma DoctorIdempotent(doctor: Dict)
    ensures NormalizeDoctor(NormalizeDoctor(doctor)) == NormalizeDoctor(doctor)
  {
  }

  lemma MedicinesIdempotent(items: seq<Json>)
    requires forall i :: 0 <= i < |items| ==> items[i].JObj?
    ensures NormalizeMedicines(NormalizeMedicines(items)) == NormalizeMedicines(items)
  {
    var once := NormalizeMedicines(items);
    forall i | 0 <= i < |items|
      ensures NormalizeMedicines(once)[i] == once[i]
    {
      assert NormalizeMedicine(NormalizeMedicine(items[i].fields)) == NormalizeMedicine(items[i].fields);
    }
  }

  /** Normalisation keeps an answer acceptable. */
  lemma NormalizeWellShaped(payload: Dict, id: string)
    requires WellShaped(payload)
    ensures WellShaped(Normalize(payload, id))
  {
    var q := Normalize(payload, id);
    var meds := NormalizeMedicines(payload["medicines"].items);
    assert q["medicines"] == JArr(meds);
    assert forall i :: 0 <= i < |meds| ==> meds[i].JObj?;
  }

  /** Normalising an accepted answer again changes nothing, whatever id is drawn. */
  lemma NormalizeIdempotent(payload: Dict, id1: string, id2: string)
    requires IsTenDigits(id1) && WellShaped(payload)
    ensures WellShaped(Normalize(payload, id1))
    ensures Normalize(Normalize(payload, id1), id2) == Normalize(payload, id1)
  {
    var q := Normalize(payload, id1);
    NormalizeWellShaped(payload, id1);
    var q2 := Normalize(q, id2);
    assert q2["patient"] == q["patient"] by {
      PatientIdempotent(payload["patient"].fields, id1, id2);
    }
    assert q2["doctor"] == q["doctor"] by {
      DoctorIdempotent(payload["doctor"].fields);
    }
    assert q2["medicines"] == q["medicines"] by {
      MedicinesIdempotent(payload["medicines"].items);
    }
    EqualByParts(q, q2);
  }

  lemma EqualByParts(q: Dict, q2: Dict)
    requires "patient" in q && "doctor" in q && "medicines" in q
    requires q2.Keys == q.Keys
    requires forall k :: k in q && k != "patient" && k != "doctor" && k != "medicines" ==> q2[k] == q[k]
    requires q2["patient"] == q["patient"] && q2["doctor"] == q["doctor"] && q2["medicines"] == q["medicines"]
    ensures q2 == q
  {
  }

  // ---------------------------------------------------------------------
  // generate_medicine_tex

  /** `med.get(k, '')` interpolated into the TeX text. */
  function Field(med: Dict, k: string, show: Json -> string): string
  {
    if k in med then ToText(med[k], show) else ""
  }

  /** The TeX text around the three fields of a medicine block. */
  const BlockHead: string := "\\blockMedicine{\n    "
  const NameTail: string := " % 药品名称\n}\n{\n    "
  const QuantityTail: string := " % 药品数量\n}\n{\n    "
  const UsageTail: string := " % 药品用法\n}"

  /**
   * One `\blockMedicine` invocation: the name, the quantity and the usage, in
   * that order, each as the indented argument of its own brace group and
   * followed by its TeX comment.
   */
  function MedicineBlock(name: string, quantity: string, usage: string): (r: string)
    ensures |r| == |BlockHead| + |name| + |NameTail| + |quantity| + |QuantityTail| + |usage| + |UsageTail|
    ensures r[..|BlockHead|] == BlockHead
    ensures var i := |BlockHead|; r[i..i + |name|] == name && r[i + |name|..i + |name| + |NameTail|] == NameTail
    ensures var i := |BlockHead| + |name| + |NameTail|;
      r[i..i + |quantity|] == quantity && r[i + |quantity|..i + |quantity| + |QuantityTail|] == QuantityTail
    ensures var i := |BlockHead| + |name| + |NameTail| + |quantity| + |QuantityTail|;
      r[i..i + |usage|] == usage && r[i + |usage|..] == UsageTail
  {
    BlockHead + name + NameTail + quantity + QuantityTail + usage + UsageTail
  }

  function BlockOf(med: Dict, show: Json -> string): string
  {
    MedicineBlock(Field(med, "name", show), Field(med, "quantity", show), Field(med, "usage", show))
  }

  /** The blocks of a list of medicine objects, in order. */
  function Blocks(meds: seq<Dict>, show: Json -> string): (r: seq<string>)
    ensures |r| == |meds|
    ensures forall i :: 0 <= i < |meds| ==> r[i] == BlockOf(meds[i], show)
  {
    seq(|meds|, i requires 0 <= i < |meds| => BlockOf(meds[i], show))
  }

  /** Iterating something other than a list of objects fails on `.get`. */
  datatype TexError = MedicineWithoutGet

  /** The objects of a list, or `None` when some element is not an object. */
  function Objects(items: seq<Json>): (r: Option<seq<Dict>>)
    ensures r.Some? <==> forall i :: 0 <= i < |items| ==> items[i].JObj?
    ensures r.Some? ==> |r.value| == |items| && forall i :: 0 <= i < |items| ==> r.value[i] == items[i].fields
  {
    if forall i :: 0 <= i < |items| ==> items[i].JObj? then
      Some(seq(|items|, i requires 0 <= i < |items| => items[i].fields))
    else None
  }

  /**
   * `generate_medicine_tex`: the blocks of `data['medicines']` (default `[]`)
   * joined by a blank line. An empty string or empty dict iterates zero times;
   * any other non-list value, or a list holding a non-object, has no `.get`.
   */
  function MedicineTex(data: Dict, show: Json -> string): (r: Result<string, TexError>)
    ensures "medicines" !in data ==> r == Ok("")
    ensures "medicines" in data && data["medicines"].JArr? ==>
      (r.Ok? <==> forall i :: 0 <= i < |data["medicines"].items| ==> data["medicines"].items[i].JObj?)
    ensures "medicines" in data && data["medicines"].JArr? && r.Ok? ==>
      r.value == Join("\n\n", Blocks(Objects(data["medicines"].items).value, show))
  {
    var medicines := if "medicines" in data then data["medicines"] else JArr([]);
    match medicines
    case JArr(items) =>
      (match Objects(items)
       case Some(meds) => Ok(Join("\n\n", Blocks(meds, show)))
       case None => Err(MedicineWithoutGet))
    case JStr(s) => if s == "" then Ok("") else Err(MedicineWithoutGet)
    case JObj(m) => if m == map[] then Ok("") else Err(MedicineWithoutGet)
    case _ => Err(MedicineWithoutGet)
  }

  /** The TeX of two medicine lists is their TeX separated by one blank line. */
  lemma MedicineTexConcat(a: seq<Dict>, b: seq<Dict>, show: Json -> string)
    requires |a| > 0 && |b| > 0
    ensures Join("\n\n", Blocks(a + b, show)) == Join("\n\n", Blocks(a, show)) + "\n\n" + Join("\n\n", Blocks(b, show))
  {
    assert Blocks(a + b, show) == Blocks(a, show) + Blocks(b, show);
    JoinConcat("\n\n", Blocks(a, show), Blocks(b, show));
  }

  /** A single medicine gives exactly its block; none gives "". */
  lemma MedicineTexSmall(m: Dict, show: Json -> string)
    ensures Join("\n\n", Blocks([], show)) == ""
    ensures Join("\n\n", Blocks([m], show)) == BlockOf(m, show)
  {
  }

  // ---------------------------------------------------------------------
  // generate_jpg guards

  datatype JpgGuard = SourceMissing | BadQuality | BadPpi | Convert

  /**
   * The early returns of `generate_jpg`, in order: the source PDF must exist,
   * then quality must lie in 1..100, then ppi must be positive.
   */
  function JpgGuardFor(sourceExists: bool, quality: int, ppi: int): (r: JpgGuard)
    ensures r == Convert <==> sourceExists && 1 <= quality <= 100 && ppi > 0
    ensures !sourceExists ==> r == SourceMissing
    ensures sourceExists && (quality <= 0 || quality > 100) ==> r == BadQuality
    ensures sourceExists && 1 <= quality <= 100 && ppi <= 0 ==> r == BadPpi
  {
    if !sourceExists then SourceMissing
    else if quality <= 0 || quality > 100 then BadQuality
    else if ppi <= 0 then BadPpi
    else Convert
  }
}

=== FILE: render_options.dfy ===
/**
 * The decisions `md_to_image` makes around the rendering itself: theme,
 * viewport, the temporary screenshot path, the final path and its encoder,
 * and what is left on disk afterwards.
 */
module RenderOptions {
  import opened Text

  datatype Theme = CuteAnime | FormalCode

  /** Only the exact string "cute_anime" selects the cute theme; anything else is formal. */
  function ThemeFor(theme: string): (r: Theme)
    ensures r == CuteAnime <==> theme == "cute_anime"
  {
    if theme == "cute_anime" then CuteAnime else FormalCode
  }

  /** The default arguments of `md_to_image`. */
  const DefaultTheme := "cute_anime"
  const DefaultOutputPath := "output.png"
  const DefaultWidth := 550

  /** Padding added to the content width to get the browser viewport width. */
  const ViewportPadding := 80

  /** The five extensions the final path may keep. */
  predicate HasImageExtension(path: string)
  {
    var lower := Lower(path);
    EndsWith(lower, ".png") || EndsWith(lower, ".jpg") || EndsWith(lower, ".jpeg")
    || EndsWith(lower, ".webp") || EndsWith(lower, ".avif")
  }

  /** The screenshot is always PNG, written next to the output. */
  function TempPath(outputPath: string): (r: string)
    ensures |r| == |outputPath| + 4 && r[..|outputPath|] == outputPath
    ensures EndsWith(r, ".png")
  {
    EndsWithAppend(outputPath, ".png");
    outputPath + ".png"
  }

  lemma LowerJpg(path: string)
    ensures Lower(path + ".jpg") == Lower(path) + ".jpg"
  {
    LowerConcat(path, ".jpg");
    var j := Lower(".jpg");
    assert j == ".jpg" by {
      assert |j| == 4 && j[0] == '.' && j[1] == 'j' && j[2] == 'p' && j[3] == 'g';
    }
  }

  /** An output path without a known extension gets ".jpg"; one with an extension, in any case, is kept. */
  function FinalPath(outputPath: string): (r: string)
    ensures HasImageExtension(outputPath) ==> r == outputPath
    ensures !HasImageExtension(outputPath) ==> r == outputPath + ".jpg"
    ensures HasImageExtension(r)
  {
    if HasImageExtension(outputPath) then outputPath
    else
      LowerJpg(outputPath);
      EndsWithAppend(Lower(outputPath), ".jpg");
      outputPath + ".jpg"
  }

  /** Choosing the final path twice changes nothing. */
  lemma FinalPathIdempotent(outputPath: string)
    ensures FinalPath(FinalPath(outputPath)) == FinalPath(outputPath)
  {
  }

  /** The temporary screenshot never coincides with the final image. */
  lemma TempNeverFinal(outputPath: string)
    ensures TempPath(outputPath) != FinalPath(outputPath)
  {
    var t := TempPath(outputPath);
    if !HasImageExtension(outputPath) {
      assert t[|outputPath| + 1] == 'p' && FinalPath(outputPath)[|outputPath| + 1] == 'j';
    }
  }

  /** How the screenshot becomes the final file. */
  datatype Encoder = Jpeg | Webp | Avif | RenameTemp

  /** The encoder, by the case-insensitive extension of the final path; PNG is a rename. */
  function EncoderFor(finalPath: string): (r: Encoder)
    ensures r == Jpeg <==> EndsWith(Lower(finalPath), ".jpg") || EndsWith(Lower(finalPath), ".jpeg")
    ensures r == Webp <==> !(EndsWith(Lower(finalPath), ".jpg") || EndsWith(Lower(finalPath), ".jpeg"))
                           && EndsWith(Lower(finalPath), ".webp")
    ensures r == Avif <==> !(EndsWith(Lower(finalPath), ".jpg") || EndsWith(Lower(finalPath), ".jpeg"))
                           && !EndsWith(Lower(finalPath), ".webp") && EndsWith(Lower(finalPath), ".avif")
  {
    var lower := Lower(finalPath);
    if EndsWith(lower, ".jpg") || EndsWith(lower, ".jpeg") then Jpeg
    else if EndsWith(lower, ".webp") then Webp
    else if EndsWith(lower, ".avif") then Avif
    else RenameTemp
  }

  /** Two suffixes of one string agree on their common length. */
  lemma SuffixOfSuffix(s: string, a: string, b: string)
    requires |a| <= |b|
    ensures EndsWith(s, a) && EndsWith(s, b) ==> EndsWith(b, a)
  {
    if EndsWith(s, a) && EndsWith(s, b) {
      assert b[|b| - |a|..] == s[|s| - |a|..];
    }
  }

  /** A ".png" path is none of the other four. */
  lemma PngExcludesOthers(s: string)
    requires EndsWith(s, ".png")
    ensures !EndsWith(s, ".jpg") && !EndsWith(s, ".jpeg") && !EndsWith(s, ".webp") && !EndsWith(s, ".avif")
  {
    assert ".jpg"[1] != ".png"[1] && ".jpeg"[1] != ".png"[0] && ".webp"[1] != ".png"[0] && ".avif"[1] != ".png"[0];
    SuffixOfSuffix(s, ".png", ".jpg");
    SuffixOfSuffix(s, ".png", ".jpeg");
    SuffixOfSuffix(s, ".png", ".webp");
    SuffixOfSuffix(s, ".png", ".avif");
  }

  /** The temp file is renamed exactly when the output path already ends in ".png" (any case). */
  lemma RenameOnlyForPng(outputPath: string)
    ensures EncoderFor(FinalPath(outputPath)) == RenameTemp <==> EndsWith(Lower(outputPath), ".png")
  {
    if EndsWith(Lower(outputPath), ".png") {
      PngExcludesOthers(Lower(outputPath));
    } else if !HasImageExtension(outputPath) {
      LowerJpg(outputPath);
      EndsWithAppend(Lower(outputPath), ".jpg");
    }
  }

  /** A path without a known extension is saved as JPEG. */
  lemma NoExtensionMeansJpeg(outputPath: string)
    requires !HasImageExtension(outputPath)
    ensures EncoderFor(FinalPath(outputPath)) == Jpeg
  {
    LowerJpg(outputPath);
    EndsWithAppend(Lower(outputPath), ".jpg");
  }

  /** Everything `md_to_image` decides before and after rendering. */
  datatype RenderPlan = RenderPlan(theme: Theme, viewportWidth: int, tempPath: string, finalPath: string, encoder: Encoder)

  function PlanFor(theme: string, outputPath: string, width: int): (p: RenderPlan)
    ensures p.theme == CuteAnime <==> theme == "cute_anime"
    ensures p.viewportWidth - width == ViewportPadding
    ensures p.tempPath != p.finalPath && HasImageExtension(p.finalPath)
    ensures p.encoder == RenameTemp <==> EndsWith(Lower(outputPath), ".png")
  {
    TempNeverFinal(outputPath);
    RenameOnlyForPng(outputPath);
    RenderPlan(ThemeFor(theme), width + ViewportPadding, TempPath(outputPath), FinalPath(outputPath),
               EncoderFor(FinalPath(outputPath)))
  }

  /** The files on disk, by path. */
  type Disk = set<string>

  /**
   * The file effects: the screenshot writes the temp file, the encoder writes
   * the final file (a rename also removes the temp file), and the cleanup
   * removes the temp file if it still exists and is not the final path.
   */
  function Effects(plan: RenderPlan, disk: Disk): (r: Disk)
    requires plan.tempPath != plan.finalPath
    ensures r == disk - {plan.tempPath} + {plan.finalPath}
  {
    var shot := disk + {plan.tempPath};
    var saved := if plan.encoder == RenameTemp then shot - {plan.tempPath} + {plan.finalPath}
                 else shot + {plan.finalPath};
    if plan.tempPath in saved && plan.tempPath != plan.finalPath then saved - {plan.tempPath} else saved
  }

  /** After `md_to_image` the final image exists, no temp file remains, and no other file changed. */
  lemma OnlyFinalImageRemains(theme: string, outputPath: string, width: int, disk: Disk)
    ensures var plan := PlanFor(theme, outputPath, width);
      var after := Effects(plan, disk);
      && FinalPath(outputPath) in after
      && TempPath(outputPath) !in after
      && (forall f :: f != TempPath(outputPath) && f != FinalPath(outputPath) ==> (f in after <==> f in disk))
  {
  }
}

=== FILE: reply_decision.dfy ===
/** The group-chat reply helper: prompt pieces and the reply decision. */
module ReplyDecision {
  import opened Wrappers
  import opened Text
  import opened JsonValue

  /** The history entries, each prefixed with "User: ". */
  function UserLines(history: seq<string>): (r: seq<string>)
    ensures |r| == |history|
    ensures forall i :: 0 <= i < |history| ==> r[i] == "User: " + history[i]
  {
    seq(|history|, i requires 0 <= i < |history| => "User: " + history[i])
  }

  /** `",\n".join(f"User: {msg}" for msg in message_history)`. */
  function FormatHistory(history: seq<string>): (r: string)
    ensures history == [] ==> r == ""
    ensures history != [] ==> |"User: " + history[0]| <= |r| && r[..|"User: " + history[0]|] == "User: " + history[0]
    ensures history != [] ==> var last := "User: " + history[|history| - 1];
      |last| <= |r| && r[|r| - |last|..] == last
  {
    var lines := UserLines(history);
    if lines == [] then ""
    else
      JoinEnds(",\n", lines);
      Join(",\n", lines)
  }

  /** An empty history formats as ""; one more message adds a separator and its line. */
  lemma FormatHistoryAppend(history: seq<string>, m: string)
    ensures FormatHistory([]) == ""
    ensures FormatHistory([m]) == "User: " + m
    ensures history != [] ==> FormatHistory(history + [m]) == FormatHistory(history) + ",\n" + "User: " + m
  {
    if history != [] {
      assert UserLines(history + [m]) == UserLines(history) + ["User: " + m];
      JoinAppend(",\n", UserLines(history), "User: " + m);
    }
  }

  /** The user message sent to the model. */
  function UserPrompt(history: seq<string>): (r: string)
    ensures r == "Here is the conversation history:\n\n" + FormatHistory(history)
    ensures history == [] ==> r == "Here is the conversation history:\n\n"
    ensures history != [] ==> var last := "User: " + history[|history| - 1];
      |last| <= |r| && r[|r| - |last|..] == last
  {
    "Here is the conversation history:\n\n" + FormatHistory(history)
  }

  /**
   * The lines of the info file, stripped, with blank ones dropped. `None`
   * stands for a file that is missing or cannot be read: no lines, no error.
   */
  function InfoLines(file: Option<seq<string>>): (r: seq<string>)
    ensures file.None? ==> r == []
    ensures forall i :: 0 <= i < |r| ==> r[i] != "" && IsStripped(r[i])
    ensures file.Some? ==> |r| <= |file.value|
  {
    if file.None? then [] else StrippedNonBlank(file.value)
  }

  /** `[ln.strip() for ln in lines if ln.strip()]`. */
  function StrippedNonBlank(lines: seq<string>): (r: seq<string>)
    ensures |r| <= |lines|
    ensures forall i :: 0 <= i < |r| ==> r[i] != "" && IsStripped(r[i])
    decreases |lines|
  {
    if lines == [] then []
    else
      var s := Strip(lines[0]);
      var rest := StrippedNonBlank(lines[1..]);
      if s != "" then
        ConsStripped(s, rest);
        [s] + rest
      else rest
  }

  /** The filter keeps file order: it distributes over concatenation. */
  lemma {:induction false} StrippedNonBlankConcat(a: seq<string>, b: seq<string>)
    ensures StrippedNonBlank(a + b) == StrippedNonBlank(a) + StrippedNonBlank(b)
    decreases |a|
  {
    if a == [] {
      assert a + b == b;
    } else {
      assert (a + b)[1..] == a[1..] + b;
      StrippedNonBlankConcat(a[1..], b);
    }
  }

  /** A single line is kept, stripped, exactly when it is not blank. */
  lemma StrippedNonBlankSingle(line: string)
    ensures !IsBlank(line) ==> StrippedNonBlank([line]) == [Strip(line)]
    ensures IsBlank(line) ==> StrippedNonBlank([line]) == []
  {
    assert [line][1..] == [];
  }

  /** The information block: each kept line as a "- " list item, one per line. */
  function Information(file: Option<seq<string>>): (r: string)
    ensures r == "" <==> InfoLines(file) == []
    ensures InfoLines(file) != [] ==> var first := "- " + InfoLines(file)[0];
      |first| <= |r| && r[..|first|] == first
    ensures InfoLines(file) != [] ==> var last := "- " + InfoLines(file)[|InfoLines(file)| - 1];
      |last| <= |r| && r[|r| - |last|..] == last
  {
    var items := Bullets(InfoLines(file));
    if items == [] then ""
    else
      JoinEnds("\n", items);
      Join("\n", items)
  }

  /** Each kept line as a "- " list item. */
  function Bullets(lines: seq<string>): (r: seq<string>)
    ensures |r| == |lines|
    ensures forall i :: 0 <= i < |lines| ==> r[i] == "- " + lines[i]
  {
    seq(|lines|, i requires 0 <= i < |lines| => "- " + lines[i])
  }

  /** One more kept line gives one more item. */
  lemma BulletsAppend(lines: seq<string>, x: string)
    ensures Bullets(lines + [x]) == Bullets(lines) + ["- " + x]
  {
  }

  /** The block as the "\n" join of its items, or "" when there are none. */
  lemma InformationIsJoin(file: Option<seq<string>>)
    ensures Bullets(InfoLines(file)) == [] ==> Information(file) == ""
    ensures Bullets(InfoLines(file)) != [] ==> Information(file) == Join("\n", Bullets(InfoLines(file)))
  {
  }

  /** Reading one more line adds its stripped text to the kept lines unless it is blank. */
  lemma InfoLinesAppend(lines: seq<string>, line: string)
    ensures InfoLines(Some(lines + [line])) == InfoLines(Some(lines)) + (if IsBlank(line) then [] else [Strip(line)])
  {
    StrippedNonBlankConcat(lines, [line]);
    StrippedNonBlankSingle(line);
  }

  /**
   * The block is built line by line: a blank line adds nothing, and a
   * non-blank one adds "\n", then "- " and its stripped text (or starts the block).
   * With the empty case this fixes `Information` on every file.
   */
  lemma InformationAppend(lines: seq<string>, line: string)
    ensures Information(Some([])) == ""
    ensures IsBlank(line) ==> Information(Some(lines + [line])) == Information(Some(lines))
    ensures !IsBlank(line) && InfoLines(Some(lines)) == [] ==> Information(Some(lines + [line])) == "- " + Strip(line)
    ensures !IsBlank(line) && InfoLines(Some(lines)) != [] ==>
      Information(Some(lines + [line])) == Information(Some(lines)) + "\n" + ("- " + Strip(line))
  {
    InformationIsJoin(Some([]));
    var kept := InfoLines(Some(lines));
    var kept' := InfoLines(Some(lines + [line]));
    InfoLinesAppend(lines, line);
    InformationIsJoin(Some(lines));
    InformationIsJoin(Some(lines + [line]));
    if IsBlank(line) {
      assert kept' == kept;
    } else {
      var item := "- " + Strip(line);
      assert kept' == kept + [Strip(line)];
      BulletsAppend(kept, Strip(line));
      if kept != [] {
        JoinAppend("\n", Bullets(kept), item);
      } else {
        assert Bullets(kept') == [item];
      }
    }
  }

  /** A missing info file gives empty information. */
  lemma InformationOfMissingFile()
    ensures Information(None) == ""
  {
  }

  /** The `Attributes:` line: `must_reply = True` for replies to the bot, else Python's `None`. */
  function AttributesLine(isReplyToBot: bool): (r: string)
    ensures r == "must_reply = True" <==> isReplyToBot
    ensures !isReplyToBot ==> r == "None"
  {
    if isReplyToBot then "must_reply = True" else "None"
  }

  /** The model call: it raised, or it returned a message whose content may be `None`. */
  datatype Completion = Raised | Answered(content: Option<string>)

  /**
   * The decision of `should_reply_and_generate`. An exception, empty content,
   * invalid JSON or a non-object answer all give no reply; otherwise the reply is
   * `reply_content` exactly when `should_reply` is truthy (a `null` or absent
   * `reply_content` is no reply either).
   */
  function Decide(completion: Completion, parse: string -> Option<Json>): (r: Option<Json>)
    ensures completion.Raised? ==> r.None?
    ensures completion.Answered? && (completion.content.None? || completion.content.value == "") ==> r.None?
    ensures r.Some? <==>
      && completion.Answered? && completion.content.Some? && completion.content.value != ""
      && parse(completion.content.value).Some? && parse(completion.content.value).value.JObj?
      && Truthy(Get(parse(completion.content.value).value.fields, "should_reply"))
      && Get(parse(completion.content.value).value.fields, "reply_content") != JNull
    ensures r.Some? ==>
      r.value == Get(parse(completion.content.value).value.fields, "reply_content") && r.value != JNull
  {
    match completion
    case Raised => None
    case Answered(content) =>
      if content.None? || content.value == "" then None
      else
        match parse(content.value)
        case None => None
        case Some(j) =>
          if !j.JObj? then None
          else if Truthy(Get(j.fields, "should_reply")) then
            (var reply := Get(j.fields, "reply_content"); if reply == JNull then None else Some(reply))
          else None
  }
}

=== FILE: text.dfy ===
/**
 * The Python string operations the bot relies on, over `string` (a sequence of
 * Unicode scalar values): `str.isspace`, `str.strip`, `str.lower` (ASCII part),
 * `str.endswith`, `str.rstrip(c)` and `sep.join(parts)`.
 */
module Text {

  /** Python's `str.isspace` on one character (bidirectional classes WS, B, S and category Zs). */
  predicate IsSpace(c: char) {
    || c == ' '
    || ('\t' <= c <= '\r')
    || ('\U{1c}' <= c <= '\U{1f}')
    || c == '\U{85}' || c == '\U{a0}' || c == '\U{1680}'
    || ('\U{2000}' <= c <= '\U{200a}')
    || c == '\U{2028}' || c == '\U{2029}' || c == '\U{202f}' || c == '\U{205f}' || c == '\U{3000}'
  }

  /** A CJK Unified Ideograph, U+4E00..U+9FFF. */
  predicate IsCjk(c: char) { '一' <= c <= '鿿' }

  /** `str.isalnum` on one character: ASCII letters and digits, and the CJK ideographs. */
  predicate IsAlnum(c: char) {
    ('a' <= c <= 'z') || ('A' <= c <= 'Z') || ('0' <= c <= '9') || IsCjk(c)
  }

  /** Every character is whitespace (true of the empty string). */
  predicate IsBlank(s: string) {
    forall i :: 0 <= i < |s| ==> IsSpace(s[i])
  }

  /** Neither end of `s` is whitespace. */
  predicate IsStripped(s: string) {
    s == [] || (!IsSpace(s[0]) && !IsSpace(s[|s| - 1]))
  }

  /** Every entry is non-empty and stripped. */
  predicate AllStripped(parts: seq<string>) {
    forall i :: 0 <= i < |parts| ==> parts[i] != "" && IsStripped(parts[i])
  }

  /** A non-empty stripped string in front of such a list keeps it so. */
  lemma ConsStripped(s: string, rest: seq<string>)
    requires s != "" && IsStripped(s) && AllStripped(rest)
    ensures AllStripped([s] + rest)
  {
    forall i | 0 <= i < |[s] + rest| ensures ([s] + rest)[i] != "" && IsStripped(([s] + rest)[i]) {
      if i > 0 { assert ([s] + rest)[i] == rest[i - 1]; }
    }
  }

  /** `str.lstrip()`: drops the leading whitespace, and nothing else. */
  function TrimStart(s: string): (r: string)
    ensures |r| <= |s| && r == s[|s| - |r|..]
    ensures r == [] || !IsSpace(r[0])
    ensures forall i :: 0 <= i < |s| - |r| ==> IsSpace(s[i])
    decreases |s|
  {
    if |s| > 0 && IsSpace(s[0]) then TrimStart(s[1..]) else s
  }

  /** `str.rstrip()`: drops the trailing whitespace, and nothing else. */
  function TrimEnd(s: string): (r: string)
    ensures |r| <= |s| && r == s[..|r|]
    ensures r == [] || !IsSpace(r[|r| - 1])
    ensures forall i :: |r| <= i < |s| ==> IsSpace(s[i])
    decreases |s|
  {
    if |s| > 0 && IsSpace(s[|s| - 1]) then TrimEnd(s[..|s| - 1]) else s
  }

  /** `str.strip()`. */
  function Strip(s: string): (r: string)
    ensures |r| <= |s|
    ensures IsStripped(r)
    ensures r == [] <==> IsBlank(s)
  {
    var t := TrimStart(s);
    var r := TrimEnd(t);
    assert r == [] ==> t == [];
    assert r != [] ==> !IsSpace(r[0]) by {
      if r != [] {
        assert r[0] == t[0];
      }
    }
    r
  }

  /** How many leading characters `strip()` removes. */
  function StripOffset(s: string): nat {
    |s| - |TrimStart(s)|
  }

  /** `strip()` only cuts the ends: the result is a slice of its input. */
  lemma StripIsSlice(s: string)
    ensures StripOffset(s) + |Strip(s)| <= |s|
    ensures Strip(s) == s[StripOffset(s)..StripOffset(s) + |Strip(s)|]
  {
    var t := TrimStart(s);
    assert Strip(s) == t[..|TrimEnd(t)|];
  }

  /** `strip()` cuts whitespace only: every other character of the input survives, in place. */
  lemma StripKeepsNonSpace(s: string, j: int)
    requires 0 <= j < |s| && !IsSpace(s[j])
    ensures StripOffset(s) <= j < StripOffset(s) + |Strip(s)|
    ensures Strip(s)[j - StripOffset(s)] == s[j]
  {
    var t := TrimStart(s);
    var off := |s| - |t|;
    assert off <= j;
    var k := j - off;
    assert t[k] == s[j] by {
      assert t == s[off..];
    }
    var r := TrimEnd(t);
    assert k < |r|;
    assert r[k] == t[k] by {
      assert r == t[..|r|];
    }
    assert Strip(s) == r;
  }

  lemma TrimStartOfNonSpace(s: string)
    requires s == [] || !IsSpace(s[0])
    ensures TrimStart(s) == s
  {
  }

  lemma TrimEndOfNonSpace(s: string)
    requires s == [] || !IsSpace(s[|s| - 1])
    ensures TrimEnd(s) == s
  {
  }

  /** A stripped string is its own strip. */
  lemma StripOfStripped(s: string)
    requires IsStripped(s)
    ensures Strip(s) == s
  {
    TrimStartOfNonSpace(s);
    TrimEndOfNonSpace(s);
  }

  /** `s.strip().strip() == s.strip()`. */
  lemma StripIdempotent(s: string)
    ensures Strip(Strip(s)) == Strip(s)
  {
    StripOfStripped(Strip(s));
  }

  lemma {:induction false} TrimStartPadding(a: string, s: string)
    requires IsBlank(a)
    ensures TrimStart(a + s) == TrimStart(s)
    decreases |a|
  {
    if a != [] {
      assert (a + s)[1..] == a[1..] + s;
      TrimStartPadding(a[1..], s);
    } else {
      assert a + s == s;
    }
  }

  lemma {:induction false} TrimEndPadding(s: string, b: string)
    requires IsBlank(b)
    ensures TrimEnd(s + b) == TrimEnd(s)
    decreases |b|
  {
    if b != [] {
      assert (s + b)[..|s + b| - 1] == s + b[..|b| - 1];
      TrimEndPadding(s, b[..|b| - 1]);
    } else {
      assert s + b == s;
    }
  }

  /** Surrounding whitespace does not change the result of `strip()`. */
  lemma StripPadding(a: string, s: string, b: string)
    requires IsBlank(a) && IsBlank(b)
    ensures Strip(a + s + b) == Strip(s)
  {
    assert a + s + b == a + (s + b);
    TrimStartPadding(a, s + b);
    var t := TrimStart(s + b);
    var u := TrimStart(s);
    // The trimmed-start of s + b is either (trim-start of s) + b, or a suffix of b.
    if |u| > 0 {
      assert TrimStart(s + b) == u + b by { TrimStartAppend(s, b); }
      assert u + b == u + b;
      TrimEndPadding(u, b);
    } else {
      TrimStartAppendBlank(s, b);
      assert t == [];
      assert u == [];
    }
  }

  lemma {:induction false} TrimStartAppend(s: string, b: string)
    requires |TrimStart(s)| > 0
    ensures TrimStart(s + b) == TrimStart(s) + b
    decreases |s|
  {
    assert |s| > 0;
    assert (s + b)[0] == s[0];
    if IsSpace(s[0]) {
      assert (s + b)[1..] == s[1..] + b;
      assert TrimStart(s) == TrimStart(s[1..]);
      TrimStartAppend(s[1..], b);
    } else {
      assert TrimStart(s) == s;
    }
  }

  lemma TrimStartAppendBlank(s: string, b: string)
    requires |TrimStart(s)| == 0 && IsBlank(b)
    ensures TrimStart(s + b) == []
  {
    var x := s + b;
    forall i | 0 <= i < |x| ensures IsSpace(x[i]) {
      if i >= |s| { assert x[i] == b[i - |s|]; } else { assert x[i] == s[i]; }
    }
    BlankTrimStart(x);
  }

  lemma BlankTrimStart(x: string)
    requires IsBlank(x)
    ensures TrimStart(x) == []
  {
  }

  lemma {:induction false} BlankTrimEnd(s: string)
    requires IsBlank(s)
    ensures TrimEnd(s) == []
    decreases |s|
  {
    if |s| > 0 {
      BlankTrimEnd(s[..|s| - 1]);
    }
  }

  /** ASCII case mapping of `str.lower` (other scripts are left unchanged). */
  function LowerChar(c: char): char {
    if 'A' <= c <= 'Z' then (c as int + 32) as char else c
  }

  /** `str.lower()` restricted to ASCII letters. */
  function Lower(s: string): (r: string)
    ensures |r| == |s|
    ensures forall i :: 0 <= i < |s| ==> r[i] == LowerChar(s[i])
  {
    seq(|s|, i requires 0 <= i < |s| => LowerChar(s[i]))
  }

  /** Lower-casing twice is lower-casing once. */
  lemma LowerIdempotent(s: string)
    ensures Lower(Lower(s)) == Lower(s)
  {
  }

  /** A string without ASCII capitals is its own lower-case form. */
  lemma LowerOfNoUpper(s: string)
    requires forall i :: 0 <= i < |s| ==> !('A' <= s[i] <= 'Z')
    ensures Lower(s) == s
  {
  }

  lemma LowerConcat(a: string, b: string)
    ensures Lower(a + b) == Lower(a) + Lower(b)
  {
  }

  /** Lower-casing never changes whether a character is whitespace. */
  lemma LowerKeepsSpace(c: char)
    ensures IsSpace(LowerChar(c)) == IsSpace(c)
  {
  }

  lemma {:induction false} TrimStartLower(s: string)
    ensures TrimStart(Lower(s)) == Lower(TrimStart(s))
    decreases |s|
  {
    if |s| > 0 {
      LowerKeepsSpace(s[0]);
      assert Lower(s)[1..] == Lower(s[1..]);
      if IsSpace(s[0]) {
        TrimStartLower(s[1..]);
      }
    }
  }

  lemma {:induction false} TrimEndLower(s: string)
    ensures TrimEnd(Lower(s)) == Lower(TrimEnd(s))
    decreases |s|
  {
    if |s| > 0 {
      LowerKeepsSpace(s[|s| - 1]);
      assert Lower(s)[..|s| - 1] == Lower(s[..|s| - 1]);
      if IsSpace(s[|s| - 1]) {
        TrimEndLower(s[..|s| - 1]);
      }
    }
  }

  /** `s.lower().strip() == s.strip().lower()`. */
  lemma StripLowerCommute(s: string)
    ensures Strip(Lower(s)) == Lower(Strip(s))
  {
    TrimStartLower(s);
    TrimEndLower(TrimStart(s));
  }

  /** `s.endswith(suffix)`. */
  predicate EndsWith(s: string, suffix: string) {
    |suffix| <= |s| && s[|s| - |suffix|..] == suffix
  }

  lemma EndsWithAppend(s: string, suffix: string)
    ensures EndsWith(s + suffix, suffix)
  {
    assert (s + suffix)[|s + suffix| - |suffix|..] == suffix;
  }

  /** `s.rstrip(c)`: drops every trailing copy of `c`. */
  function RStripChar(s: string, c: char): (r: string)
    ensures |r| <= |s| && r == s[..|r|]
    ensures r == [] || r[|r| - 1] != c
    ensures forall i :: |r| <= i < |s| ==> s[i] == c
    decreases |s|
  {
    if |s| > 0 && s[|s| - 1] == c then RStripChar(s[..|s| - 1], c) else s
  }

  /** `sep.join(parts)`. */
  function Join(sep: string, parts: seq<string>): string
    decreases |parts|
  {
    if |parts| == 0 then ""
    else if |parts| == 1 then parts[0]
    else parts[0] + sep + Join(sep, parts[1..])
  }

  /** Joining one more part appends the separator and that part. */
  lemma {:induction false} JoinAppend(sep: string, parts: seq<string>, x: string)
    requires |parts| > 0
    ensures Join(sep, parts + [x]) == Join(sep, parts) + sep + x
    decreases |parts|
  {
    if |parts| == 1 {
      assert parts + [x] == [parts[0], x];
      assert [parts[0], x][1..] == [x];
    } else {
      assert (parts + [x])[1..] == parts[1..] + [x];
      JoinAppend(sep, parts[1..], x);
    }
  }

  /** Join distributes over concatenation of two non-empty part lists. */
  lemma {:induction false} JoinConcat(sep: string, a: seq<string>, b: seq<string>)
    requires |a| > 0 && |b| > 0
    ensures Join(sep, a + b) == Join(sep, a) + sep + Join(sep, b)
    decreases |a|
  {
    if |a| == 1 {
      assert (a + b)[1..] == b;
    } else {
      assert (a + b)[1..] == a[1..] + b;
      JoinConcat(sep, a[1..], b);
    }
  }

  /** A non-empty join starts with the first part and ends with the last. */
  lemma {:induction false} JoinEnds(sep: string, parts: seq<string>)
    requires |parts| > 0
    ensures |parts[0]| <= |Join(sep, parts)| && Join(sep, parts)[..|parts[0]|] == parts[0]
    ensures |parts[|parts| - 1]| <= |Join(sep, parts)|
    ensures Join(sep, parts)[|Join(sep, parts)| - |parts[|parts| - 1]|..] == parts[|parts| - 1]
    decreases |parts|
  {
    if |parts| > 1 {
      JoinEnds(sep, parts[1..]);
      var j := Join(sep, parts[1..]);
      var last := parts[|parts| - 1];
      assert Join(sep, parts) == parts[0] + (sep + j);
      assert (parts[0] + sep + j)[|parts[0] + sep + j| - |last|..] == j[|j| - |last|..];
    }
  }
}

=== FILE: tool_loop.dfy ===
/**
 * The tool-enabled chat loop of the multi-turn example: two local tools and
 * the loop that alternates completion calls with tool executions.
 */
module ToolLoop {
  import opened Wrappers
  import opened Text
  import opened JsonValue

  type Dict = map<string, Json>

  // ---------------------------------------------------------------------
  // Local tools

  predicate HasCjk(text: string) { exists i :: 0 <= i < |text| && IsCjk(text[i]) }

  /** `detect_language`: "chinese" as soon as one ideograph is seen, else "english". */
  method DetectLanguage(text: string) returns (r: string)
    ensures r == "chinese" <==> HasCjk(text)
    ensures r == "english" <==> !HasCjk(text)
  {
    var i := 0;
    while i < |text|
      invariant 0 <= i <= |text|
      invariant forall j :: 0 <= j < i ==> !IsCjk(text[j])
    {
      if IsCjk(text[i]) {
        return "chinese";
      }
      i := i + 1;
    }
    return "english";
  }

  /** Python's `<=` on strings: code point by code point, a proper prefix first. */
  predicate StrLe(a: string, b: string)
    decreases |a|
  {
    a == [] || (b != [] && (a[0] < b[0] || (a[0] == b[0] && StrLe(a[1..], b[1..]))))
  }

  /** The test `"\u4e00" <= ch <= "\u9fff"` of `detect_language`, for any string `ch`. */
  predicate InCjkRange(ch: string)
  {
    StrLe("\U{4e00}", ch) && StrLe(ch, "\U{9fff}")
  }

  /** On the one-character strings a text iterates over, the test is `IsCjk`. */
  lemma InCjkRangeChar(c: char)
    ensures InCjkRange([c]) <==> IsCjk(c)
  {
    assert [c][1..] == [];
  }

  /** Element `i` is a string in the range and every element before it is a string. */
  predicate ChineseAt(items: seq<Json>, i: int)
    requires 0 <= i < |items|
  {
    items[i].JStr? && InCjkRange(items[i].s) && forall j :: 0 <= j < i ==> items[j].JStr?
  }

  /**
   * `detect_language` handed a list: its elements are compared in order, and
   * the first element that is not a string makes the comparison raise
   * (None), unless a string in the range came earlier.
   */
  function DetectInItems(items: seq<Json>): (r: Option<string>)
    ensures r == Some("chinese") <==> exists i :: 0 <= i < |items| && ChineseAt(items, i)
    ensures r == Some("english") <==> forall i :: 0 <= i < |items| ==> items[i].JStr? && !InCjkRange(items[i].s)
    ensures r.Some? ==> r == Some("chinese") || r == Some("english")
    decreases |items|
  {
    if items == [] then Some("english")
    else if !items[0].JStr? then None
    else if InCjkRange(items[0].s) then
      assert ChineseAt(items, 0);
      Some("chinese")
    else
      var r := DetectInItems(items[1..]);
      assert forall i :: 1 <= i < |items| ==> items[i] == items[1..][i - 1];
      assert forall i :: 1 <= i < |items| ==> (ChineseAt(items, i) <==> ChineseAt(items[1..], i - 1)) by {
        forall i | 1 <= i < |items| ensures ChineseAt(items, i) <==> ChineseAt(items[1..], i - 1) {
          assert forall j :: 0 <= j < i - 1 ==> items[1..][j] == items[j + 1];
        }
      }
      assert !ChineseAt(items, 0);
      assert r == Some("chinese") ==> exists i :: 0 <= i < |items| && ChineseAt(items, i) by {
        if r == Some("chinese") {
          var i :| 0 <= i < |items[1..]| && ChineseAt(items[1..], i);
          assert ChineseAt(items, i + 1);
        }
      }
      r
  }

  /** The three cities `get_weather` knows, by lower-case name. */
  const FakeWeather: map<string, string> := map[
    "san francisco" := "Sunny, 68F",
    "new york" := "Cloudy, 75F",
    "london" := "Light rain, 60F"]

  /** `get_weather`: a lookup of the lower-cased name, else an "unavailable" message naming the location. */
  function GetWeather(location: string): (r: string)
    ensures Lower(location) in FakeWeather ==> r == FakeWeather[Lower(location)]
    ensures Lower(location) !in FakeWeather ==> r == "Weather data for '" + location + "' unavailable."
  {
    var key := Lower(location);
    if key in FakeWeather then FakeWeather[key] else "Weather data for '" + location + "' unavailable."
  }

  /** Letter case of a known city does not matter. */
  lemma GetWeatherIgnoresCase(location: string)
    requires Lower(location) in FakeWeather
    ensures GetWeather(location) == GetWeather(Lower(location))
  {
    LowerIdempotent(location);
  }

  // ---------------------------------------------------------------------
  // The loop

  /** A tool call as the model returns it. */
  datatype ToolCall = ToolCall(id: string, name: string, arguments: string)

  /** One completion: the assistant message (`model_dump(exclude_none=True)`) and its tool calls. */
  datatype Reply = Reply(message: Dict, toolCalls: seq<ToolCall>)

  /** The names `LOCAL_TOOL_IMPLEMENTATIONS` maps to a function. */
  predicate IsLocalTool(name: string)
  {
    name == "get_weather" || name == "detect_language"
  }

  /** The one parameter of a local tool. */
  function ParamOf(name: string): string
  {
    if name == "get_weather" then "location" else "text"
  }

  /**
   * Runs a known tool on parsed arguments: `impl(**args)`. Anything but an
   * object holding exactly the tool's one parameter raises a TypeError.
   * `get_weather` needs a string (`.lower()` raises otherwise).
   * `detect_language` iterates its argument: the characters of a string,
   * the elements of a list, the keys of an object; anything else raises. An
   * exception is reported as `Err(args)`, from which the caller renders it.
   */
  function CallTool(name: string, args: Json): (r: Result<string, Json>)
    requires IsLocalTool(name)
    ensures r.Err? ==> r.error == args
    ensures r.Ok? ==> args.JObj? && args.fields.Keys == {ParamOf(name)}
    ensures name == "get_weather" ==>
      (r.Ok? <==> args.JObj? && args.fields.Keys == {"location"} && args.fields["location"].JStr?)
    ensures name == "get_weather" && r.Ok? ==> r.value == GetWeather(args.fields["location"].s)
    ensures name == "detect_language" && args.JObj? && args.fields.Keys == {"text"} ==>
      var v := args.fields["text"];
      && (v.JStr? ==> r == Ok(if HasCjk(v.s) then "chinese" else "english"))
      && (v.JObj? ==> r == Ok(if exists k :: k in v.fields && InCjkRange(k) then "chinese" else "english"))
      && (v.JArr? ==> (r.Ok? <==> DetectInItems(v.items).Some?) && (r.Ok? ==> r.value == DetectInItems(v.items).value))
      && (v.JNull? || v.JBool? || v.JInt? ==> r.Err?)
  {
    var param := ParamOf(name);
    if !(args.JObj? && args.fields.Keys == {param}) then Err(args)
    else
      var v := args.fields[param];
      if name == "get_weather" then
        if v.JStr? then Ok(GetWeather(v.s)) else Err(args)
      else
        match v
        case JStr(t) => Ok(if HasCjk(t) then "chinese" else "english")
        case JObj(fields) => Ok(if exists k :: k in fields && InCjkRange(k) then "chinese" else "english")
        case JArr(items) =>
          var d := DetectInItems(items);
          if d.Some? then Ok(d.value) else Err(args)
        case _ => Err(args)
  }

  /** A list argument is not an error: its string elements are compared whole. */
  lemma DetectListExample()
    ensures CallTool("detect_language", JObj(map["text" := JArr([JStr("hello"), JStr("\U{4e16}\U{754c}")])])) == Ok("chinese")
    ensures CallTool("detect_language", JObj(map["text" := JArr([JInt(1), JStr("\U{4e16}")])])).Err?
  {
    var items := [JStr("hello"), JStr("\U{4e16}\U{754c}")];
    assert ChineseAt(items, 1);
  }

  /** `json.loads(args_json) if args_json else {}`, with the parser as a parameter. */
  function ParsedArgs(call: ToolCall, parse: string -> Option<Json>): Option<Json>
  {
    if call.arguments == "" then Some(JObj(map[])) else parse(call.arguments)
  }

  /**
   * The tool output for one call: unparsable arguments, an unknown tool and a
   * tool that raises each become an "Error: ..." text instead of aborting;
   * otherwise it is what the tool returned.
   */
  function ToolOutput(call: ToolCall, parse: string -> Option<Json>, errText: (string, Json) -> string): (out: string)
    ensures call.arguments != "" && parse(call.arguments).None? ==>
      out == "Error: Could not parse arguments: " + call.arguments
    ensures ParsedArgs(call, parse).Some? && !IsLocalTool(call.name) ==>
      out == "Error: No local implementation for tool '" + call.name + "'."
    ensures call.arguments == "" && IsLocalTool(call.name) ==>
      out == "Error during tool '" + call.name + "': " + errText(call.name, JObj(map[]))
    ensures ParsedArgs(call, parse).Some? && IsLocalTool(call.name) ==>
      var args := ParsedArgs(call, parse).value;
      && (CallTool(call.name, args).Ok? ==> out == CallTool(call.name, args).value)
      && (CallTool(call.name, args).Err? ==> out == "Error during tool '" + call.name + "': " + errText(call.name, args))
    ensures call.name == "get_weather" && call.arguments != "" ==>
      forall l :: parse(call.arguments) == Some(JObj(map["location" := JStr(l)])) ==> out == GetWeather(l)
    ensures call.name == "detect_language" && call.arguments != "" ==>
      forall t :: parse(call.arguments) == Some(JObj(map["text" := JStr(t)])) ==>
        out == (if HasCjk(t) then "chinese" else "english")
  {
    var args := ParsedArgs(call, parse);
    if args.None? then "Error: Could not parse arguments: " + call.arguments
    else if !IsLocalTool(call.name) then
      "Error: No local implementation for tool '" + call.name + "'."
    else
      match CallTool(call.name, args.value)
      case Ok(v) => v
      case Err(a) => "Error during tool '" + call.name + "': " + errText(call.name, a)
  }

  /** The tool message answering one call. */
  function ToolMessage(call: ToolCall, parse: string -> Option<Json>, errText: (string, Json) -> string): (m: Dict)
    ensures m.Keys == {"role", "tool_call_id", "name", "content"}
    ensures m["role"] == JStr("tool") && m["tool_call_id"] == JStr(call.id) && m["name"] == JStr(call.name)
    ensures m["content"] == JStr(ToolOutput(call, parse, errText))
  {
    map[
      "role" := JStr("tool"),
      "tool_call_id" := JStr(call.id),
      "name" := JStr(call.name),
      "content" := JStr(ToolOutput(call, parse, errText))]
  }

  /** One tool message per call, in call order. */
  function ToolMessages(calls: seq<ToolCall>, parse: string -> Option<Json>, errText: (string, Json) -> string): (ms: seq<Dict>)
    ensures |ms| == |calls|
    ensures forall i :: 0 <= i < |calls| ==> ms[i] == ToolMessage(calls[i], parse, errText)
  {
    seq(|calls|, i requires 0 <= i < |calls| => ToolMessage(calls[i], parse, errText))
  }

  /** The conversation `run_tool_loop` starts from. */
  function Initial(system: string, user: string, existing: seq<Dict>): (ms: seq<Dict>)
    ensures existing != [] ==> ms == existing
    ensures existing == [] ==> (
      && |ms| == 2
      && "role" in ms[0] && ms[0]["role"] == JStr("system") && "content" in ms[0] && ms[0]["content"] == JStr(system)
      && "role" in ms[1] && ms[1]["role"] == JStr("user") && "content" in ms[1] && ms[1]["content"] == JStr(user))
  {
    if existing != [] then existing
    else [map["role" := JStr("system"), "content" := JStr(system)], map["role" := JStr("user"), "content" := JStr(user)]]
  }

  /**
   * Reference for the loop from turn `turn` on: the messages and the number of
   * completion calls made so far. `replies(t)` is the model's answer to call `t`.
   */
  function Loop(replies: nat -> Reply, msgs: seq<Dict>, turn: nat, maxTurns: int,
                parse: string -> Option<Json>, errText: (string, Json) -> string): (r: (seq<Dict>, nat))
    requires turn >= 1
    ensures |msgs| <= |r.0| && r.0[..|msgs|] == msgs
    ensures turn - 1 <= r.1 && (r.1 <= maxTurns || r.1 == turn - 1)
    ensures r.1 == turn - 1 ==> r.0 == msgs
    decreases if maxTurns < turn then 0 else maxTurns - turn + 1
  {
    if turn > maxTurns then (msgs, turn - 1)
    else
      var reply := replies(turn);
      var withAssistant := msgs + [reply.message];
      if reply.toolCalls == [] then (withAssistant, turn)
      else
        var next := withAssistant + ToolMessages(reply.toolCalls, parse, errText);
        var r := Loop(replies, next, turn + 1, maxTurns, parse, errText);
        assert r.0[..|msgs|] == next[..|msgs|];
        r
  }

  /** A turn whose reply has no tool calls ends the loop right after its assistant message. */
  lemma LoopStopsWithoutToolCalls(replies: nat -> Reply, msgs: seq<Dict>, turn: nat, maxTurns: int,
                                  parse: string -> Option<Json>, errText: (string, Json) -> string)
    requires 1 <= turn <= maxTurns && replies(turn).toolCalls == []
    ensures Loop(replies, msgs, turn, maxTurns, parse, errText) == (msgs + [replies(turn).message], turn)
  {
  }

  /** A turn with tool calls appends the assistant message, then its tool messages, then continues. */
  lemma LoopTurnWithToolCalls(replies: nat -> Reply, msgs: seq<Dict>, turn: nat, maxTurns: int,
                              parse: string -> Option<Json>, errText: (string, Json) -> string)
    requires 1 <= turn <= maxTurns && replies(turn).toolCalls != []
    ensures var next := msgs + [replies(turn).message] + ToolMessages(replies(turn).toolCalls, parse, errText);
      Loop(replies, msgs, turn, maxTurns, parse, errText) == Loop(replies, next, turn + 1, maxTurns, parse, errText)
  {
  }

  /** The inner loop: one tool message per call, in call order. */
  method ExecuteToolCalls(calls: seq<ToolCall>, parse: string -> Option<Json>, errText: (string, Json) -> string)
    returns (toolMessages: seq<Dict>)
    ensures toolMessages == ToolMessages(calls, parse, errText)
  {
    toolMessages := [];
    var k := 0;
    while k < |calls|
      invariant 0 <= k <= |calls|
      invariant toolMessages == ToolMessages(calls[..k], parse, errText)
    {
      toolMessages := toolMessages + [ToolMessage(calls[k], parse, errText)];
      k := k + 1;
      assert calls[..k] == calls[..k - 1] + [calls[k - 1]];
    }
    assert calls[..k] == calls;
  }

  /**
   * `run_tool_loop` as written: at most `max_turns` completion calls, a
   * non-empty `existing` list extended rather than replaced.
   */
  method RunToolLoop(replies: nat -> Reply, system: string, user: string, maxTurns: int, existing: seq<Dict>,
                     parse: string -> Option<Json>, errText: (string, Json) -> string)
    returns (messages: seq<Dict>, calls: nat)
    ensures (messages, calls) == Loop(replies, Initial(system, user, existing), 1, maxTurns, parse, errText)
    ensures calls <= if maxTurns < 0 then 0 else maxTurns
    ensures existing != [] ==> |existing| <= |messages| && messages[..|existing|] == existing
  {
    messages := Initial(system, user, existing);
    calls := 0;
    var turn := 1;
    while turn <= maxTurns
      invariant turn >= 1 && calls == turn - 1
      invariant turn <= maxTurns + 1 || turn == 1
      invariant Loop(replies, Initial(system, user, existing), 1, maxTurns, parse, errText)
             == Loop(replies, messages, turn, maxTurns, parse, errText)
      decreases maxTurns - turn + 1
    {
      var reply := replies(turn);
      calls := calls + 1;
      messages := messages + [reply.message];
      if reply.toolCalls == [] {
        break;
      }
      var toolMessages := ExecuteToolCalls(reply.toolCalls, parse, errText);
      messages := messages + toolMessages;
      turn := turn + 1;
    }
  }
}

=== FILE: utf8.dfy ===
/** Bytes and the UTF-8 encoding of text (`str.encode("utf-8")`). */
module Utf8 {

  type byte = b: int | 0 <= b < 256

  /** The UTF-8 bytes of one Unicode scalar value (RFC 3629, section 3). */
  function EncodeChar(c: char): (r: seq<byte>)
    ensures 1 <= |r| <= 4
    ensures |r| == 1 <==> (c as int) < 0x80
  {
    var n := c as int;
    if n < 0x80 then [n]
    else if n < 0x800 then [0xC0 + n / 64, 0x80 + n % 64]
    else if n < 0x10000 then [0xE0 + n / 4096, 0x80 + (n / 64) % 64, 0x80 + n % 64]
    else [0xF0 + n / 262144, 0x80 + (n / 4096) % 64, 0x80 + (n / 64) % 64, 0x80 + n % 64]
  }

  /** `s.encode("utf-8")`: every character contributes between one and four bytes. */
  function Encode(s: string): (r: seq<byte>)
    ensures |s| <= |r| <= 4 * |s|
    ensures r == [] <==> s == []
    decreases |s|
  {
    if s == [] then [] else EncodeChar(s[0]) + Encode(s[1..])
  }

  /** Encoding a concatenation concatenates the encodings. */
  lemma {:induction false} EncodeConcat(a: string, b: string)
    ensures Encode(a + b) == Encode(a) + Encode(b)
    decreases |a|
  {
    if a == [] {
      assert a + b == b;
    } else {
      assert (a + b)[1..] == a[1..] + b;
      EncodeConcat(a[1..], b);
    }
  }

  /** ASCII text encodes to one byte per character. */
  lemma {:induction false} EncodeAscii(s: string)
    requires forall i :: 0 <= i < |s| ==> (s[i] as int) < 0x80
    ensures |Encode(s)| == |s|
    decreases |s|
  {
    if s != [] {
      EncodeAscii(s[1..]);
    }
  }
}

=== FILE: video_title.dfy ===
/** The file-name-safe video title produced by `get_video_title`. */
module VideoTitle {
  import opened Wrappers
  import opened Text

  /** The characters the generator expression keeps: alphanumerics and whitespace. */
  function Keep(title: string): (r: string)
    ensures |r| <= |title|
    ensures forall c :: c in r ==> c in title && (IsAlnum(c) || IsSpace(c))
    decreases |title|
  {
    if title == [] then []
    else
      var rest := Keep(title[1..]);
      assert forall c :: c in title[1..] ==> c in title;
      if IsAlnum(title[0]) || IsSpace(title[0]) then [title[0]] + rest else rest
  }

  /** The filter works character by character. */
  lemma {:induction false} KeepConcat(a: string, b: string)
    ensures Keep(a + b) == Keep(a) + Keep(b)
    decreases |a|
  {
    if a == [] {
      assert a + b == b;
    } else {
      assert (a + b)[0] == a[0];
      assert (a + b)[1..] == a[1..] + b;
      KeepConcat(a[1..], b);
    }
  }

  /** One character is kept iff it is alphanumeric or whitespace. */
  lemma KeepChar(c: char)
    ensures Keep([c]) == if IsAlnum(c) || IsSpace(c) then [c] else []
  {
    assert [c][1..] == [];
  }

  /** Every alphanumeric or whitespace character of the title is kept. */
  lemma KeepComplete(title: string, i: int)
    requires 0 <= i < |title| && (IsAlnum(title[i]) || IsSpace(title[i]))
    ensures title[i] in Keep(title)
  {
    assert title == title[..i] + [title[i]] + title[i + 1..];
    KeepConcat(title[..i] + [title[i]], title[i + 1..]);
    KeepConcat(title[..i], [title[i]]);
    KeepChar(title[i]);
  }

  /** `replace(' ', '_')`: only U+0020 becomes an underscore; other whitespace stays. */
  function Underscore(s: string): (r: string)
    ensures |r| == |s|
    ensures forall i :: 0 <= i < |s| ==> r[i] == (if s[i] == ' ' then '_' else s[i])
    ensures forall c :: c in r ==> c != ' ' && (c == '_' ==> ' ' in s || '_' in s) && (c != '_' ==> c in s)
  {
    seq(|s|, i requires 0 <= i < |s| => if s[i] == ' ' then '_' else s[i])
  }

  lemma SliceMembers(s: string, lo: nat, hi: nat)
    requires lo <= hi <= |s|
    ensures forall c :: c in s[lo..hi] ==> c in s
  {
    forall c | c in s[lo..hi] ensures c in s {
      var i :| 0 <= i < hi - lo && s[lo..hi][i] == c;
      assert s[lo + i] == c;
    }
  }

  /** Lines 69-71: keep alphanumerics and whitespace, spaces to underscores, strip. */
  function Sanitize(title: string): (r: string)
    ensures |r| <= |title|
    ensures ' ' !in r
    ensures IsStripped(r)
    ensures forall c :: c in r ==> c == '_' || (c in title && (IsAlnum(c) || IsSpace(c)))
    ensures '_' in r ==> ' ' in title
  {
    var kept := Keep(title);
    var spaced := Underscore(kept);
    StripIsSlice(spaced);
    SliceMembers(spaced, StripOffset(spaced), StripOffset(spaced) + |Strip(spaced)|);
    assert !IsAlnum('_') && !IsSpace('_');
    assert '_' !in kept;
    assert '_' in spaced ==> ' ' in kept;
    Strip(spaced)
  }

  /** Every alphanumeric character of the title appears in the sanitised title. */
  lemma SanitizeKeepsAlnum(title: string, i: int)
    requires 0 <= i < |title| && IsAlnum(title[i])
    ensures title[i] in Sanitize(title)
  {
    var c := title[i];
    var kept := Keep(title);
    KeepComplete(title, i);
    var k :| 0 <= k < |kept| && kept[k] == c;
    var spaced := Underscore(kept);
    assert !IsSpace(c);
    assert spaced[k] == c;
    StripKeepsNonSpace(spaced, k);
    assert Strip(spaced)[k - StripOffset(spaced)] == c;
  }

  /** `get_video_title`: a missing title (iterating `None` raises) or a failed extraction gives `None`. */
  function VideoTitleOf(extracted: Option<Option<string>>): (r: Option<string>)
    ensures r.Some? <==> extracted.Some? && extracted.value.Some?
    ensures r.Some? ==> r.value == Sanitize(extracted.value.value)
  {
    match extracted
    case None => None
    case Some(None) => None
    case Some(Some(title)) => Some(Sanitize(title))
  }

  // ---------------------------------------------------------------------
  // Order: an independent definition of "subsequence"

  /** `a` is `b` with some characters deleted. */
  predicate Subseq(a: string, b: string)
    decreases |b|
  {
    a == [] || (b != [] && ((a[0] == b[0] && Subseq(a[1..], b[1..])) || Subseq(a, b[1..])))
  }

  lemma {:induction false} SubseqTrans(a: string, b: string, c: string)
    requires Subseq(a, b) && Subseq(b, c)
    ensures Subseq(a, c)
    decreases |c|
  {
    if a == [] || b == [] {
    } else if Subseq(b, c[1..]) {
      SubseqTrans(a, b, c[1..]);
    } else if a[0] == b[0] && Subseq(a[1..], b[1..]) {
      SubseqTrans(a[1..], b[1..], c[1..]);
    } else {
      SubseqTrans(a, b[1..], c[1..]);
    }
  }

  lemma {:induction false} SubseqSlice(s: string, i: nat, j: nat)
    requires i <= j <= |s|
    ensures Subseq(s[i..j], s)
    decreases |s|
  {
    if i == j {
    } else if i > 0 {
      assert s[1..][i - 1..j - 1] == s[i..j];
      SubseqSlice(s[1..], i - 1, j - 1);
    } else {
      assert s[i..j][1..] == s[1..][0..j - 1];
      SubseqSlice(s[1..], 0, j - 1);
    }
  }

  lemma {:induction false} KeepSubseq(title: string)
    ensures Subseq(Keep(title), title)
    decreases |title|
  {
    if title != [] {
      KeepSubseq(title[1..]);
    }
  }

  lemma {:induction false} UnderscoreSubseq(a: string, b: string)
    requires Subseq(a, b)
    ensures Subseq(Underscore(a), Underscore(b))
    decreases |b|
  {
    if a != [] {
      assert Underscore(b)[1..] == Underscore(b[1..]);
      if a[0] == b[0] && Subseq(a[1..], b[1..]) {
        assert Underscore(a)[1..] == Underscore(a[1..]);
        UnderscoreSubseq(a[1..], b[1..]);
      } else {
        UnderscoreSubseq(a, b[1..]);
      }
    }
  }

  lemma StripSubseq(s: string)
    ensures Subseq(Strip(s), s)
  {
    StripIsSlice(s);
    var lo := StripOffset(s);
    var hi := lo + |Strip(s)|;
    assert s[lo..hi] == Strip(s);
    SubseqSlice(s, lo, hi);
  }

  lemma SpacedSubseq(title: string)
    ensures Subseq(Underscore(Keep(title)), Underscore(title))
  {
    KeepSubseq(title);
    UnderscoreSubseq(Keep(title), title);
  }

  /** The sanitised title keeps its characters in their original order (spaces read as underscores). */
  lemma SanitizeKeepsOrder(title: string)
    ensures Subseq(Sanitize(title), Underscore(title))
  {
    var spaced := Underscore(Keep(title));
    SpacedSubseq(title);
    StripSubseq(spaced);
    SubseqTrans(Strip(spaced), spaced, Underscore(title));
  }

  lemma KeepSpacedExample()
    ensures Keep("a b") == "a b"
  {
    assert "a b"[1..] == " b" && " b"[1..] == "b" && "b"[1..] == [];
    assert IsAlnum('a') && IsAlnum('b') && IsSpace(' ');
  }

  lemma KeepUnderscoredExample()
    ensures Keep("a_b") == "ab"
  {
    assert "a_b"[1..] == "_b" && "_b"[1..] == "b" && "b"[1..] == [];
    assert !IsAlnum('_') && !IsSpace('_');
    assert IsAlnum('a') && IsAlnum('b');
  }

  lemma SanitizeSpacedExample()
    ensures Sanitize("a b") == "a_b"
  {
    KeepSpacedExample();
    var u := Underscore("a b");
    assert u == "a_b" by {
      assert |u| == 3 && u[0] == 'a' && u[1] == '_' && u[2] == 'b';
    }
    assert !IsSpace('a') && !IsSpace('b');
    StripOfStripped("a_b");
  }

  lemma SanitizeUnderscoreExample()
    ensures Sanitize("a_b") == "ab"
  {
    KeepUnderscoredExample();
    var u := Underscore("ab");
    assert u == "ab" by {
      assert |u| == 2 && u[0] == 'a' && u[1] == 'b';
    }
    assert !IsSpace('a') && !IsSpace('b');
    StripOfStripped("ab");
  }

  /** Sanitising is not idempotent: the underscore made from a space is dropped the second time. */
  lemma SanitizeNotIdempotent()
    ensures Sanitize(Sanitize("a b")) == "ab" != Sanitize("a b")
  {
    SanitizeSpacedExample();
    SanitizeUnderscoreExample();
  }
}

=== FILE: wrappers.dfy ===
/** Failure-carrying datatypes used in place of Python's `None` and exceptions. */
module Wrappers {

  /** `None` stands for Python's `None`; `Some(v)` for a present value. */
  datatype Option<+T> = None | Some(value: T) {

    /** The value, or `default` when absent. */
    function GetOr(default: T): T {
      match this
      case Some(v) => v
      case None => default
    }
  }

  /** A computation that either returns a value or raises an error. */
  datatype Result<+T, +E> = Ok(value: T) | Err(error: E)
}
